=== FILE: README.md ===
# eduTech knowledge graph — a Dafny model of its decision logic

eduTech is a React and three.js learning app. A learner asks questions. The
app extracts concepts from the AI answer and saves them as nodes of a
personal knowledge graph. Each node has a status: known, fuzzy, unknown or new.
The graph is drawn in 3D. The learner can check a concept by explaining it
(the "metacognition check") or by taking a quiz, and can chat with an AI
about a node.

This project models the discrete logic around the 3D drawing, as immutable
datatypes and pure functions:

- The graph view's per-frame decisions, written as a `Tick` over a snapshot of
  nodes, links, hidden categories, the selected id and the ordered ray hits:
  - which nodes are visible and which one is active;
  - how nodes and links are drawn;
  - where the camera is headed.
  The same module covers the zoom clamps, the distinct-category list and
  click-versus-drag.
- The graph store: toggling hidden categories, the sorted category list,
  status updates and appends.
- The rules that build nodes and links on a save, a chatbot save, onboarding
  and a sub-concept save.
- `cleanMarkdown`, the sign-in/sign-up validation chain and the chatbot's
  suggestion parser.
- The small screen handlers:
  - save-location dialog, neighbour list and folder tree;
  - meta-check, quiz and question screens;
  - back button.
- The colour table and the record types.

Modules follow the source files:

| module | file | source |
|---|---|---|
| `Maybe` | maybe.dfy | optional values |
| `Text` | text.dfy | JavaScript string behaviour: white space, trim, split/join, truthiness |
| `Subsequences` | subsequences.dfy | deletion-only relation and occurrence counts |
| `Lex` | lex.dfy | the default string sort order |
| `Types` | types.dfy | eduTech/src/utils/types.ts |
| `Colors` | constants.dfy | eduTech/src/utils/constants.ts |
| `Markdown` | markdown.dfy | eduTech/src/utils/markdownUtils.ts |
| `GraphView` | three_graph.dfy | eduTech/src/components/ThreeGraph.tsx |
| `GraphStore` | graph_data.dfy | eduTech/src/hooks/useGraphData.ts |
| `Builders` | app.dfy | eduTech/src/App.tsx |
| `AuthValidation` | auth_form.dfy | eduTech/src/components/auth/AuthForm.tsx |
| `Chatbot` | node_chatbot.dfy | eduTech/src/components/NodeChatbot.tsx |
| `SaveLocation` | save_location_modal.dfy | eduTech/src/components/SaveLocationModal.tsx |
| `Neighbours` | graph_screen.dfy | eduTech/src/screens/GraphScreen.tsx, eduTech/src/components/NodeDetailPanel.tsx |
| `FolderTree` | folder_item.dfy | eduTech/src/components/FolderItem.tsx |
| `MetaCheck` | meta_check_screen.dfy | eduTech/src/screens/MetaCheckScreen.tsx |
| `Quiz` | quiz_screen.dfy | eduTech/src/screens/QuizScreen.tsx |
| `Ask` | input_screen.dfy | eduTech/src/screens/InputScreen.tsx |
| `Back` | back_button.dfy | eduTech/src/components/BackButton.tsx |

The model follows these JavaScript conventions:

- An absent optional string and `""` are both falsy.
- A node's `label` is the field `title`, because `label` is a Dafny keyword.
- Fresh UUIDs, AI replies, backend answers and ray-cast hits are parameters.
- Regular-expression replacements are written out as the scan a global
  `replace` performs.
- A lazy `.*?` stops at the first closing delimiter and never crosses a line
  terminator.

`GraphView.Camera` holds still when the selected node exists but is hidden
(ThreeGraph.tsx:330-346). It returns to the centre only when nothing is
selected.

## Model

| member | source | states |
|---|---|---|
| Types.StatusKey | eduTech/src/utils/types.ts:5 | a node status is exactly one of the four strings known, fuzzy, unknown, new |
| Types.StatusKeyInjective | eduTech/src/utils/types.ts:5 | different statuses have different strings, so the string names the status |
| Types.FindById | eduTech/src/hooks/useGraphData.ts:55 | a lookup by id succeeds exactly when some node carries the id, and returns the first node carrying it |
| Types.FindIndex | eduTech/src/components/ThreeGraph.tsx:303-304 | `find` returns the first node with the id, and nothing precedes it with that id |
| Types.FindByIdDistinct | eduTech/src/utils/types.ts:2-9 | with distinct ids, looking up a node's id returns that very node |
| Types.FindIndexAppend | eduTech/src/hooks/useGraphData.ts:70-72 | appending nodes behind the old ones leaves every old successful lookup unchanged |
| Types.FindByLabel | eduTech/src/App.tsx:331 | a lookup by label returns the first node with that label, and none exactly when no node has it |
| Colors.Entry | eduTech/src/utils/constants.ts:3-10 | the colour table has exactly the six keys known, fuzzy, unknown, new, default, bg |
| Colors.HexColor | eduTech/src/components/ThreeGraph.tsx:31-34 | a colour is the status's entry when that entry is truthy, otherwise the default; it is never 0 |
| Colors.StatusColor | eduTech/src/utils/constants.ts:4-8 | every status's colour comes from its own entry and differs from the default |
| Colors.StatusColorInjective | eduTech/src/utils/constants.ts:4-7 | the four status colours are pairwise distinct |
| Colors.BackgroundFallsBack | eduTech/src/utils/constants.ts:9 | bg is 0, and because 0 is falsy a lookup of bg gives the default colour |
| Colors.UnlistedFallsBack | eduTech/src/components/ThreeGraph.tsx:33 | an unknown status string is drawn in the default colour |
| Markdown.CleanMarkdown | eduTech/src/utils/markdownUtils.ts:2-8 | the output only deletes characters from the input, holds no backtick, and a text without markup comes back unchanged |
| Markdown.CleanMarkdownShorter | eduTech/src/utils/markdownUtils.ts:2-8 | the output is never longer than the input, and the empty text gives the empty text |
| Markdown.CleanMarkdownKeepsOrdinary | eduTech/src/utils/markdownUtils.ts:3-8 | every character that is not markup or white space survives as often as it occurred |
| Markdown.CleanMarkdownBold | eduTech/src/utils/markdownUtils.ts:4 | `**x**` with a one-line plain x becomes x |
| Markdown.BoldBeforeItalic | eduTech/src/utils/markdownUtils.ts:4-5 | bold is stripped before italic: `**a*b**` becomes `a*b` |
| Markdown.CleanMarkdownUnderline | eduTech/src/utils/markdownUtils.ts:6 | `__x__` with a one-line plain x becomes x |
| Markdown.CleanMarkdownKeepsSingleUnderscores | eduTech/src/utils/markdownUtils.ts:6 | a text with underscores but no double underscore and no other markup is kept |
| Markdown.CleanMarkdownHeader | eduTech/src/utils/markdownUtils.ts:8 | a leading marker of one to six `#` and a white-space character, followed by plain text, leaves just the text |
| Markdown.HeaderAtFrontIff | eduTech/src/utils/markdownUtils.ts:8 | a header marker starts a text exactly when 1 to 6 `#` followed by white space do |
| Markdown.StripHeadersDropsHeader | eduTech/src/utils/markdownUtils.ts:8 | the header pass removes a leading marker and carries on after it |
| Markdown.StripPairSpan | eduTech/src/utils/markdownUtils.ts:4-6 | a closed one-line span is replaced by its inside and the scan resumes after it |
| Markdown.StripPair | eduTech/src/utils/markdownUtils.ts:4-6 | a span pass never lengthens the text |
| Markdown.RemoveChar | eduTech/src/utils/markdownUtils.ts:7 | the backtick pass leaves no backtick, never lengthens the text, and keeps a text without backticks |
| Markdown.StripHeaders | eduTech/src/utils/markdownUtils.ts:8 | the header pass never lengthens the text |
| Markdown.StripPairUntouched | eduTech/src/utils/markdownUtils.ts:4-6 | a span pass leaves unchanged a text that lacks the delimiter's first character |
| Markdown.StripPairKeepsOrdinary | eduTech/src/utils/markdownUtils.ts:4-6 | a span pass keeps the count of every character outside the delimiter |
| Markdown.RemoveCharKeepsOthers | eduTech/src/utils/markdownUtils.ts:7 | deleting backticks keeps the count of every other character |
| Markdown.StripHeadersKeepsOrdinary | eduTech/src/utils/markdownUtils.ts:8 | the header pass keeps the count of every character other than `#` and white space |
| Text.Trim | eduTech/src/components/NodeChatbot.tsx:59 | trim removes only white space, and only at the two ends: the result is an infix with blank text before and after it, no white space at either of its ends, and empty exactly for blank input |
| Text.EdgesStrippedUnique | eduTech/src/components/NodeChatbot.tsx:59 | at most one string is the input stripped of white space at both ends, so the trim result is determined by its contract |
| Text.Split | eduTech/src/components/NodeChatbot.tsx:59 | split gives at least one piece, and no piece holds the separator |
| Text.TrimIdempotent | eduTech/src/components/SaveLocationModal.tsx:19-20 | trimming twice is trimming once |
| Text.SplitJoin | eduTech/src/components/NodeChatbot.tsx:59 | splitting a join of comma-free pieces gives back the pieces |
| Text.JoinSplit | eduTech/src/components/NodeChatbot.tsx:59 | joining the pieces of a split gives back the text |
| Lex.SortedDistinct | eduTech/src/hooks/useGraphData.ts:39 | the sorted distinct list is strictly ascending and holds exactly the input's elements |
| Lex.SortedUnique | eduTech/src/hooks/useGraphData.ts:39 | two strictly ascending lists with the same elements are equal, so the sorted list does not depend on input order |
| Lex.LessTotal | eduTech/src/hooks/useGraphData.ts:39 | any two different strings are ordered one way or the other |
| GraphView.InitialDistance | eduTech/src/components/ThreeGraph.tsx:89-93 | the initial camera distance lies in [60, 300], is 60 up to 6 nodes and 300 from 167 nodes |
| GraphView.InitialDistanceMonotone | eduTech/src/components/ThreeGraph.tsx:92-93 | more nodes never bring the camera closer |
| GraphView.Wheel | eduTech/src/components/ThreeGraph.tsx:405-410 | after a wheel event the camera z lies in [20, 400], and in range it moves by 0.05·deltaY |
| GraphView.WheelMonotone | eduTech/src/components/ThreeGraph.tsx:407-408 | scrolling further never zooms in further |
| GraphView.WheelStill | eduTech/src/components/ThreeGraph.tsx:407-408 | a zero wheel delta leaves an in-range camera z unchanged |
| GraphView.Dedup | eduTech/src/components/ThreeGraph.tsx:129 | the category list has no duplicates, holds exactly the categories, and keeps first-occurrence order |
| GraphView.DistinctCategories | eduTech/src/components/ThreeGraph.tsx:129 | the loop that collects categories computes the deduplicated list |
| GraphView.Centers | eduTech/src/components/ThreeGraph.tsx:130-139 | every listed category gets the anchor for its position, and no other key exists |
| GraphView.CenterOf | eduTech/src/components/ThreeGraph.tsx:149 | a category without an anchor falls back to the origin |
| GraphView.EveryNodeAnchored | eduTech/src/components/ThreeGraph.tsx:149 | every node's category has an anchor, so the origin fallback is never taken |
| GraphView.Visibility | eduTech/src/components/ThreeGraph.tsx:216-219 | a node is visible exactly when its category is not hidden |
| GraphView.SameCategorySameVisibility | eduTech/src/components/ThreeGraph.tsx:216-219 | nodes of one category are shown or hidden together |
| GraphView.FirstVisibleHit | eduTech/src/components/ThreeGraph.tsx:224-228 | the hovered hit is the first ray hit on a visible node, and none exactly when no hit is visible |
| GraphView.HoveredId | eduTech/src/components/ThreeGraph.tsx:224-228 | a hovered id exists exactly when some hit is visible, and it belongs to a visible node |
| GraphView.ActiveId | eduTech/src/components/ThreeGraph.tsx:229 | a truthy selection beats hover, and otherwise the hovered id is active |
| GraphView.Look | eduTech/src/components/ThreeGraph.tsx:233-252 | hidden nodes are skipped; the active node gets opacity 1, scale 1.5 and top draw order; the others get 0.2 or 0.5 depending on selection |
| GraphView.LineLook | eduTech/src/components/ThreeGraph.tsx:302-321 | an unresolved link is untouched; a resolved link is visible exactly when both ends are, with opacity 0.6 exactly when it touches the active id, otherwise 0.05 |
| GraphView.Camera | eduTech/src/components/ThreeGraph.tsx:331-347 | without a truthy selection the camera returns to the centre; it follows only a present, visible selected node |
| GraphView.Tick | eduTech/src/components/ThreeGraph.tsx:214-347 | one frame recomputes visibility, the active id, every node look, every link look and the camera goal from the snapshot |
| GraphView.HiddenNeverHovered | eduTech/src/components/ThreeGraph.tsx:224-229 | without a selection, the active id (if any) is the id of a visible node, so hidden nodes are never hovered |
| GraphView.AtMostOneActive | eduTech/src/components/ThreeGraph.tsx:236-251 | with distinct ids, at most one node is drawn as active |
| GraphView.LineFollowsEndpoints | eduTech/src/components/ThreeGraph.tsx:306-311 | a resolved link is drawn exactly when both its endpoints are visible |
| GraphView.MouseUp | eduTech/src/components/ThreeGraph.tsx:388-403 | a release whose own movement is under 5 px both ways is a click, reporting the first visible hit's id or `""` when nothing is hit; a release that itself moved reports nothing |
| GraphView.BeforeRelease | eduTech/src/components/ThreeGraph.tsx:366-385 | the position before the release is the last reported move, or the press when there was none |
| GraphView.DragRelease | eduTech/src/components/ThreeGraph.tsx:366-403 | a whole press-move-release gesture is decided by the release's own movement only; a release where the last move stopped is a click |
| GraphView.DragReportedAsClick | eduTech/src/components/ThreeGraph.tsx:388-400 | a drag of 100 px that stops before the release is reported as a click on empty space |
| GraphView.PressRelease | eduTech/src/components/ThreeGraph.tsx:366-390 | a release compared with the press: a release 5 px or more away from the press reports nothing |
| GraphView.DragNotAClick | eduTech/src/components/ThreeGraph.tsx:366-390 | compared with the press, the same drag reports nothing, and a release in place is decided as a still release |
| GraphView.SelectionTarget | eduTech/src/components/ThreeGraph.tsx:54-61 | the selection effect aims at a node exactly when the per-frame camera follows it |
| GraphStore.Initial | eduTech/src/hooks/useGraphData.ts:6-12 | the store starts with no categories, no links, no selection, nothing hidden and not loading |
| GraphStore.OnUserChange | eduTech/src/hooks/useGraphData.ts:15-22 | without a user the graph is emptied and the loading flag is left as it was; with a user the flag goes up and the graph stays until the fetch answers |
| GraphStore.FinishLoad | eduTech/src/hooks/useGraphData.ts:24-32 | a fetched graph replaces the current one, a failed fetch keeps it, and loading ends either way |
| GraphStore.SignInRoundTrip | eduTech/src/hooks/useGraphData.ts:15-32 | signing in and letting the fetch answer leaves the fetched graph (or the old one on failure) and the flag down |
| GraphStore.StaleFetchAfterLogout | eduTech/src/hooks/useGraphData.ts:15-35 | signing out during a fetch empties the graph but leaves the flag up, and the old user's late answer overwrites the emptied graph |
| GraphStore.FinishLoadFor | eduTech/src/hooks/useGraphData.ts:24-32 | an answer is applied only while the user it was fetched for is still signed in; a stale one keeps the graph but, as the source's `finally` does, still lowers the loading flag |
| GraphStore.GuardedFetchAfterLogout | eduTech/src/hooks/useGraphData.ts:15-35 | with the guarded answer, signing out during a fetch keeps the graph empty, and on a user switch the previous user's late answer is dropped |
| GraphStore.Without | eduTech/src/hooks/useGraphData.ts:45 | filtering drops exactly the given name |
| GraphStore.Toggle | eduTech/src/hooks/useGraphData.ts:42-50 | toggling flips the membership of that name only |
| GraphStore.ToggleTwice | eduTech/src/hooks/useGraphData.ts:42-50 | toggling twice restores the hidden set, and the very list when the name was absent |
| GraphStore.ToggleKeepsDistinct | eduTech/src/hooks/useGraphData.ts:42-50 | toggling keeps the hidden list free of duplicates |
| GraphStore.ToggleFlipsCategory | eduTech/src/hooks/useGraphData.ts:42-50 | toggling a category flips the visibility of exactly its nodes |
| GraphStore.WithoutAppend | eduTech/src/hooks/useGraphData.ts:45 | filtering distributes over concatenation |
| GraphStore.UniqueCategories | eduTech/src/hooks/useGraphData.ts:38-40 | the sidebar categories are strictly sorted and are exactly the node categories |
| GraphStore.SidebarMatchesView | eduTech/src/hooks/useGraphData.ts:39 | the sidebar list is the sorted graph-view category list |
| GraphStore.UpdateNodeStatus | eduTech/src/hooks/useGraphData.ts:52-57 | nodes with the id get the new status, and nothing else changes |
| GraphStore.UpdateThenFind | eduTech/src/hooks/useGraphData.ts:55 | after an update the node under the id has the new status, and other lookups are unchanged |
| GraphStore.UpdateIdempotent | eduTech/src/hooks/useGraphData.ts:55 | updating twice with the same status is updating once |
| GraphStore.AddNodesAndLinks | eduTech/src/hooks/useGraphData.ts:68-73 | appending keeps the old nodes and links as a prefix and puts the new ones after them |
| GraphStore.AddKeepsLookups | eduTech/src/hooks/useGraphData.ts:70-72 | an append never changes which node an existing id finds |
| GraphStore.AddTwice | eduTech/src/hooks/useGraphData.ts:68-73 | two appends equal one append of both batches |
| GraphStore.AddCategories | eduTech/src/hooks/useGraphData.ts:68-73 | after an append the categories are the old ones plus the new nodes' |
| GraphStore.ToggleCategory | eduTech/src/hooks/useGraphData.ts:42-50 | toggling touches only the hidden set |
| GraphStore.UpdateStatus | eduTech/src/hooks/useGraphData.ts:52-57 | a status update touches only the graph |
| GraphStore.Add | eduTech/src/hooks/useGraphData.ts:68-73 | an append touches only the graph |
| Builders.StarChain | eduTech/src/App.tsx:96-101 | for n new ids: anchor→id i at position 2i and id i→id i+1 at 2i+1, which makes 2n−1 links, or none |
| Builders.StarChainEndpoints | eduTech/src/App.tsx:96-101 | every link ends at a new node and starts at the anchor or a new node |
| Builders.StarChainNoSelf | eduTech/src/App.tsx:213-217 | onboarding only ever adds links of the full star-and-chain |
| Builders.NoSelfWithOutsideAnchor | eduTech/src/App.tsx:215 | when the anchor is not a new node nothing is left out |
| Builders.NoSelfLinks | eduTech/src/App.tsx:215-216 | with distinct new ids no onboarding link joins a node to itself |
| Builders.NoSelfFromFirst | eduTech/src/App.tsx:213-216 | on an empty graph exactly one link is dropped, leaving 2n−2 |
| Builders.StarChainNoSelfContents | eduTech/src/App.tsx:214-217 | onboarding keeps every star-and-chain link except the anchor→anchor star links, and loses one link per occurrence of the anchor among the new ids |
| Builders.NoSelfFromFirstContents | eduTech/src/App.tsx:213-217 | when the anchor is the first new id, onboarding's links are the full star-and-chain minus its first link, in order |
| Builders.StarChainAt | eduTech/src/App.tsx:96-101 | link k of a star-and-chain is the star link of new id k/2 when k is even and its chain link when k is odd |
| Builders.StarChainDistinctLinks | eduTech/src/App.tsx:213-217 | with distinct ids and the first as anchor, the links after the first two are pairwise different |
| Builders.OnboardingDuplicateLink | eduTech/src/App.tsx:213-217 | on an empty graph with two or more new nodes, the first two links are both first→second |
| Builders.Once | eduTech/src/App.tsx:212-219 | removing repeats keeps exactly the same links and leaves none twice |
| Builders.OnceKeepsRepeatFree | eduTech/src/App.tsx:212-219 | a list without repeats is left unchanged |
| Builders.OnceDropsLeadingRepeat | eduTech/src/App.tsx:215-216 | a repeated first link is the only thing removed |
| Builders.CompleteOnboardingOnce | eduTech/src/App.tsx:212-221 | onboarding that adds each link once: the same nodes and the same set of links, none twice |
| Builders.OnboardingOnceOnEmptyGraph | eduTech/src/App.tsx:212-219 | on an empty graph with distinct ids, the corrected onboarding adds 2n−3 links: the source's list without its repeated first link |
| Builders.SaveAnchor | eduTech/src/App.tsx:93-94 | the anchor is the first node of the target category, else the first node, else `root` |
| Builders.FirstInCategory | eduTech/src/App.tsx:93 | finds the first node in the category, and none exactly when no node has it |
| Builders.ConceptNode | eduTech/src/App.tsx:83-90 | a saved concept keeps its label, status and description, with val 25 and the chosen category |
| Builders.FinalSave | eduTech/src/App.tsx:80-103 | no analysis means no change; otherwise one node per concept in order, linked as a star and chain from the anchor |
| Builders.AfterFinalSave | eduTech/src/App.tsx:81-106 | a save marks the answer saved and closes the dialog; without an analysis nothing changes |
| Builders.FinalSaveConnects | eduTech/src/App.tsx:96-101 | every new node is linked from the anchor |
| Builders.SaveConceptToGraph | eduTech/src/App.tsx:110-131 | one new node with val 25 in the first node's category (or 일반), linked from the first node exactly when one exists; the graph is shown |
| Builders.SaveSubconcept | eduTech/src/App.tsx:356-367 | one new node with val 20 in the parent's category, with one link parent→new |
| Builders.SingleSavesTargetNewNode | eduTech/src/App.tsx:120-126 | every link of a single save points at the new node |
| Builders.NodePage | eduTech/src/App.tsx:331 | the page shows the first node whose label is the decoded name, or none |
| Builders.NodePageOfEach | eduTech/src/App.tsx:331 | when labels are pairwise different, every node is the page of its own label |
| Builders.OnboardingCount | eduTech/src/App.tsx:194-210 | onboarding always creates at least one node |
| Builders.OnboardingNodes | eduTech/src/App.tsx:193-210 | onboarding nodes are new, carry the fresh ids in order, and sit in the usage type's category (or 일반) |
| Builders.OnboardingWeights | eduTech/src/App.tsx:195-210 | personal with k>0 keywords gives k nodes of val 20; every other branch gives one node of val 25 |
| Builders.OnboardingAnchor | eduTech/src/App.tsx:213 | the anchor is the first existing node, else the first new node, else `root` |
| Builders.CompleteOnboarding | eduTech/src/App.tsx:192-221 | onboarding adds its nodes and the self-free links, then shows the graph |
| Builders.OnboardingOnEmptyGraph | eduTech/src/App.tsx:213-217 | on an empty graph the first new node is the anchor and never links to itself |
| Builders.AuthRedirect | eduTech/src/App.tsx:72-76 | once auth has settled without a user the screen becomes auth; otherwise it stays |
| AuthValidation.Validate | eduTech/src/components/auth/AuthForm.tsx:27-46 | the first failing check wins, in order: missing fields, mismatch (sign-up only), short password, bad email; none exactly when all pass |
| AuthValidation.ValidEmail | eduTech/src/components/auth/AuthForm.tsx:42 | an accepted address has at least five characters, an `@` and a `.` |
| AuthValidation.ValidEmailIsFlat | eduTech/src/components/auth/AuthForm.tsx:42 | the email pattern holds exactly when: no white space, one `@` not first, a `.` at least one character after it, and a character after the `.` |
| AuthValidation.SignInIgnoresConfirm | eduTech/src/components/auth/AuthForm.tsx:32 | signing in never consults the confirmation field |
| AuthValidation.MismatchBeforeLength | eduTech/src/components/auth/AuthForm.tsx:32-40 | a mismatch is reported before a short password |
| AuthValidation.MessagesDistinct | eduTech/src/components/auth/AuthForm.tsx:28-44 | each error has its own message |
| AuthValidation.Submit | eduTech/src/components/auth/AuthForm.tsx:21-51 | old messages are cleared; exactly (email, password) is submitted when all checks pass, otherwise the first error is shown |
| AuthValidation.Complete | eduTech/src/components/auth/AuthForm.tsx:53-66 | success clears the fields and shows the mode's message; failure keeps them and shows the error or the default message |
| AuthValidation.SuccessResetsForm | eduTech/src/components/auth/AuthForm.tsx:48-57 | after a successful submission the emptied form would fail the first check |
| Chatbot.ParseSuggestions | eduTech/src/components/NodeChatbot.tsx:59 | at most three suggestions, each non-empty, trimmed and comma-free, in reply order |
| Chatbot.ParseJoin | eduTech/src/components/NodeChatbot.tsx:59 | one to three clean suggestions joined by commas parse back to themselves |
| Chatbot.ParseFirstPiece | eduTech/src/components/NodeChatbot.tsx:59 | the first comma-separated piece is parsed ahead of the rest |
| Chatbot.EmptyReplyNoSuggestions | eduTech/src/components/NodeChatbot.tsx:58-59 | an empty reply gives no suggestions |
| Chatbot.Start | eduTech/src/components/NodeChatbot.tsx:17-25 | the history starts as a single assistant greeting |
| Chatbot.SendStart | eduTech/src/components/NodeChatbot.tsx:66-72 | blank input or a pending request is a no-op; otherwise the untrimmed input is appended as a user message and the input is cleared |
| Chatbot.SendFinish | eduTech/src/components/NodeChatbot.tsx:97-110 | exactly one assistant message is appended (the reply, `""`, or the fixed error text) and loading ends |
| Chatbot.SendRoundTrip | eduTech/src/components/NodeChatbot.tsx:66-110 | an accepted send adds exactly a user message then an assistant message, leaving no input and no loading |
| Chatbot.GreetingStays | eduTech/src/components/NodeChatbot.tsx:17-22 | messages are only appended, so the greeting stays first |
| Chatbot.KeyPress | eduTech/src/components/NodeChatbot.tsx:113-118 | Enter without Shift sends; any other key does nothing |
| Chatbot.LoadSuggestions | eduTech/src/components/NodeChatbot.tsx:42-63 | a reply replaces the suggestions with its parse; no key or a failure leaves them |
| Chatbot.SubconceptClick | eduTech/src/components/NodeChatbot.tsx:120-124 | a click forwards the string unchanged exactly when a callback exists |
| SaveLocation.Pick | eduTech/src/components/SaveLocationModal.tsx:41 | picking a folder selects it and leaves new-folder mode |
| SaveLocation.ChooseNew | eduTech/src/components/SaveLocationModal.tsx:55 | choosing a new folder clears the selection and enters new-folder mode |
| SaveLocation.TypeName | eduTech/src/components/SaveLocationModal.tsx:68 | typing changes only the name |
| SaveLocation.Confirm | eduTech/src/components/SaveLocationModal.tsx:18-24 | a non-blank new name wins (trimmed), else a truthy selection, else nothing; never an empty name |
| SaveLocation.Disabled | eduTech/src/components/SaveLocationModal.tsx:78 | an enabled button always has a non-empty folder to report, and in reachable states the button is disabled exactly when there is none |
| SaveLocation.EnabledEmits | eduTech/src/components/SaveLocationModal.tsx:18-78 | an enabled confirm button always reports a non-empty folder |
| SaveLocation.HandlersKeepConsistent | eduTech/src/components/SaveLocationModal.tsx:41-68 | the handlers never leave a selection standing in new-folder mode |
| SaveLocation.DisabledIffSilent | eduTech/src/components/SaveLocationModal.tsx:18-78 | in reachable states the button is disabled exactly when confirming would report nothing |
| SaveLocation.Render | eduTech/src/components/SaveLocationModal.tsx:16-78 | the dialog renders only when open; a folder is highlighted exactly when selected outside new-folder mode |
| SaveLocation.AtMostOneHighlighted | eduTech/src/components/SaveLocationModal.tsx:42 | among distinct folders at most one is highlighted |
| Neighbours.Other | eduTech/src/screens/GraphScreen.tsx:138 | the far end of a link touching the id also touches the link, and differs from the id unless the link is a loop |
| Neighbours.Connections | eduTech/src/screens/GraphScreen.tsx:135-149 | the listed neighbours are existing nodes, at most one per link |
| Neighbours.ConnectionsAppend | eduTech/src/components/NodeDetailPanel.tsx:65-79 | the list is built link by link, in link order |
| Neighbours.ConnectionsOfOne | eduTech/src/components/NodeDetailPanel.tsx:66-70 | a link not touching the id, or whose far end is missing, gives no entry; otherwise its far end is listed |
| Neighbours.ConnectionsMembers | eduTech/src/screens/GraphScreen.tsx:135-149 | a node is listed exactly when a touching link's far end finds it |
| Neighbours.ConnectionsSymmetric | eduTech/src/screens/GraphScreen.tsx:135-149 | with distinct ids, being listed as a neighbour is symmetric |
| Neighbours.DescriptionText | eduTech/src/screens/GraphScreen.tsx:110 | the description line is the node's description when truthy, else a fixed non-empty text |
| Neighbours.OnGraphClick | eduTech/src/screens/GraphScreen.tsx:72-79 | a non-empty id selects the node with that id or none; `""` clears the selection |
| Neighbours.OnSidebarClick | eduTech/src/screens/GraphScreen.tsx:48 | a sidebar click selects by id, or none |
| Neighbours.OnNeighbourClick | eduTech/src/components/NodeDetailPanel.tsx:64-73 | clicking an entry of the Connections list selects the node it shows, which is a node of the graph at the far end of a link touching the selected node |
| Neighbours.ClickSelectsVisibleNode | eduTech/src/screens/GraphScreen.tsx:72-79 | a click on the graph selects only a visible node, or clears the selection |
| FolderTree.VisibilityToggle | eduTech/src/components/FolderItem.tsx:71-73 | the eye toggle exists only on `sub_` folders and toggles the folder's name |
| FolderTree.IsHidden | eduTech/src/components/FolderItem.tsx:25-31 | files are never hidden; a hidden entry is a folder with an eye toggle for its own name; on such a folder hidden means its name is in the hidden list |
| FolderTree.Indent | eduTech/src/components/FolderItem.tsx:38-50 | files are indented 16·level+12 px and folders 12·level+8 px |
| FolderTree.IndentGrows | eduTech/src/components/FolderItem.tsx:38-95 | children sit further right than their parent |
| FolderTree.OnClick | eduTech/src/components/FolderItem.tsx:36-52 | a file click reports its node id; a folder click toggles the folder |
| FolderTree.Render | eduTech/src/components/FolderItem.tsx:25-95 | an entry renders itself first; children appear one level deeper, and only under an open folder |
| FolderTree.RenderAll | eduTech/src/components/FolderItem.tsx:89-95 | a list of entries renders at least one row each at its level or deeper |
| FolderTree.FilesNeverHidden | eduTech/src/components/FolderItem.tsx:25-31 | no file row is ever reported hidden, at any depth |
| FolderTree.FilesNeverHiddenAll | eduTech/src/components/FolderItem.tsx:25-95 | no file row of a rendered list is reported hidden |
| FolderTree.NewEditor | eduTech/src/components/FolderItem.tsx:17-18 | editing starts off, with the item's name |
| FolderTree.ToggleEditing | eduTech/src/components/FolderItem.tsx:81 | the edit button flips edit mode and keeps the name being edited |
| FolderTree.Rename | eduTech/src/components/FolderItem.tsx:20-23 | rename reports (id, edited name) and leaves edit mode |
| MetaCheck.RingTone | eduTech/src/screens/MetaCheckScreen.tsx:58 | the ring is green exactly above 80, amber exactly in (50, 80], rose otherwise |
| MetaCheck.RingToneMonotone | eduTech/src/screens/MetaCheckScreen.tsx:58 | a higher score never gets a worse ring |
| MetaCheck.ToneHex | eduTech/src/screens/MetaCheckScreen.tsx:58 | the ring's three colours are the graph's known, fuzzy and unknown colours |
| MetaCheck.DashOffset | eduTech/src/screens/MetaCheckScreen.tsx:58 | the shown part of the ring is score/100 of it, and the offset stays within the ring for scores in [0, 100] |
| MetaCheck.DashOffsetEnds | eduTech/src/screens/MetaCheckScreen.tsx:58 | score 0 hides the whole ring and score 100 shows all of it |
| MetaCheck.DashOffsetDecreasing | eduTech/src/screens/MetaCheckScreen.tsx:58 | the offset strictly decreases as the score grows |
| MetaCheck.Badge | eduTech/src/screens/MetaCheckScreen.tsx:66 | the badge is emerald exactly for known, amber for fuzzy, rose otherwise |
| MetaCheck.BadgeMatchesGraph | eduTech/src/screens/MetaCheckScreen.tsx:66 | the badge's tone is the tone whose ring colour is the status's graph colour |
| MetaCheck.Render | eduTech/src/screens/MetaCheckScreen.tsx:23-81 | no result shows the form, with submit disabled exactly while loading or empty; a result shows its ring, badge and cleaned texts |
| MetaCheck.SubmitDisabled | eduTech/src/screens/MetaCheckScreen.tsx:45 | submitting is refused with no explanation or while grading; an enabled button means text and no grading under way |
| MetaCheck.Press | eduTech/src/screens/MetaCheckScreen.tsx:21-83 | close and finish go to the graph; grading is requested exactly from an enabled form |
| MetaCheck.GradeNeedsText | eduTech/src/screens/MetaCheckScreen.tsx:45 | grading is requested only for a written explanation, when not loading and no result is showing |
| Quiz.Question | eduTech/src/screens/QuizScreen.tsx:23 | the heading is the cleaned question, or blank without a quiz |
| Quiz.Choices | eduTech/src/screens/QuizScreen.tsx:27-41 | one button per option, numbered idx+1 with cleaned text; none without a quiz |
| Quiz.NumbersDistinct | eduTech/src/screens/QuizScreen.tsx:40 | button numbers run from 1 to n without repetition |
| Quiz.Choose | eduTech/src/screens/QuizScreen.tsx:30-36 | only the answer's index goes to the graph, with the cleaned feedback; every other index alerts "wrong" and stays |
| Quiz.ExactlyOneRight | eduTech/src/screens/QuizScreen.tsx:31 | at most one option leaves the quiz |
| Quiz.UnreachableAnswer | eduTech/src/screens/QuizScreen.tsx:31-35 | an answer index outside the options makes every option wrong |
| Quiz.Close | eduTech/src/screens/QuizScreen.tsx:16 | the close button goes to the graph |
| Ask.Box | eduTech/src/screens/InputScreen.tsx:41-60 | the editable box shows exactly until there is an answer, and its button is disabled exactly while loading or empty; afterwards the text is echoed |
| Ask.AnswerText | eduTech/src/screens/InputScreen.tsx:65-74 | the answer paragraph exists exactly with a result and is its cleaned answer |
| Ask.AskDisabled | eduTech/src/screens/InputScreen.tsx:51 | asking is refused with an empty text or while loading; an enabled button means text and no request under way |
| Ask.NewQuestion | eduTech/src/screens/InputScreen.tsx:90 | "new question" clears the result, the saved flag and the text |
| Ask.PrimaryAction | eduTech/src/screens/InputScreen.tsx:94-108 | saved goes to the graph; unsaved starts the save |
| Ask.FollowUpKey | eduTech/src/screens/InputScreen.tsx:122 | Enter asks whatever the state; other keys do nothing |
| Ask.EnterBypassesDisabled | eduTech/src/screens/InputScreen.tsx:122-128 | with an empty follow-up field the button is disabled but Enter still asks |
| Ask.OneAskControl | eduTech/src/screens/InputScreen.tsx:41-115 | exactly one of the first box and the follow-up field is on screen |
| Back.Target | eduTech/src/components/BackButton.tsx:12 | from the graph the button goes to onboarding, from elsewhere to the graph; never to the current screen |
| Back.FaceOf | eduTech/src/components/BackButton.tsx:15 | the home icon shows exactly on the graph |
| Back.Label | eduTech/src/components/BackButton.tsx:16 | the label 홈으로 goes with the home face |
| Back.HomeLeadsHome | eduTech/src/components/BackButton.tsx:12-16 | the home face shows exactly when pressing goes to onboarding |

## Left out

- Force-directed physics, category anchor trigonometry, glow pulse, easing, auto-rotation and camera motion. These are floating-point animation. The anchor placement is a parameter `place` of `GraphView.Centers`.
- three.js scene setup, textures, sprites and disposal. These are library plumbing.
- Ray casting. The ordered list of hit node indices is an input to `GraphView.Tick` and `GraphView.MouseUp`.
- Network and persistence: the Gemini and Supabase calls. AI replies and backend answers are inputs: `Chatbot.Outcome`, `AuthValidation.Reply`, and the fetched graph of `GraphStore.FinishLoad`.
- Routing, the auth hook, `alert`, and the fresh-id generator. Fresh ids are parameters. `decodeURIComponent` is done by the caller of `Builders.NodePage`.
- Styling and static text: JSX class names, icons, and screens that only render text.
- Strings are sequences of code points, not UTF-16 units. This affects `password.length` for characters outside the basic plane, and the order `sort` gives such characters.
- GraphView.Tick: the hidden set is an explicit argument. The source's render loop may read a stale copy of it, and that staleness is not modelled.
- Colors.Entry: keys inherited from the object prototype, such as `toString`, are not modelled as table entries.
- Types.FolderStructure: absent `children` is modelled as the empty list. The tree draws nothing in either case.
- GraphView.EveryNodeAnchored does not model three.js `Vector3` values. The anchor is any point the `place` parameter returns.
- React's scheduling of state updates: each handler is one step on the store, and a pending fetch is the pair `GraphStore.OnUserChange` then `GraphStore.FinishLoad`, with any other steps in between.
- GraphStore.UpdateNodeStatus: the optimistic update is modelled. The backend write that follows it is not.
- Number rounding: JavaScript numbers are IEEE doubles, but the model computes with exact reals. This concerns `GraphView.InitialDistance`, `GraphView.Wheel`, `GraphView.MouseUp` and `MetaCheck.DashOffset`. Their equations and bounds are exact for reals. For doubles they hold only up to rounding.
- MetaCheck.DashOffsetDecreasing: the strict decrease is proved over reals. With doubles, two adjacent scores can round to the same offset.

## Findings

Each row pairs a member that follows the code as written with a corrected member. The corrected member proves the behaviour the code evidently intends. The as-written members stay the ones the rest of the model describes, so every "## Model" row can be read against the code.

| source | as written | input that shows it | evidently intended | confidence | as-written member | corrected member |
|---|---|---|---|---|---|---|
| eduTech/src/App.tsx:215-216 | the anchor is the first new node when the graph is empty, so the second node's star link and the first node's chain link are the same link, and it is added twice | a new user picks "personal" with two keywords: the links are first→second, first→second | each link is added once | medium, not executed | Builders.OnboardingDuplicateLink | Builders.CompleteOnboardingOnce |
| eduTech/src/components/ThreeGraph.tsx:390 | the click test reads the release event's own movement, which counts only from the pointer event before it, not from the press | press at (0, 0), drag to (100, 0), stop, release: the release's movement is 0, so the drag counts as a click and clears or changes the selection | a release counts as a click only when it is near the press | medium, not executed | GraphView.DragReportedAsClick | GraphView.PressRelease |
| eduTech/src/hooks/useGraphData.ts:16-27 | a fetch started for a user is never cancelled, and its answer is stored whoever is signed in when it arrives | sign in as u, sign out before the fetch answers with graph g: the graph is emptied and then becomes g | an answer for a user who is no longer signed in is dropped | medium, not executed | GraphStore.StaleFetchAfterLogout | GraphStore.FinishLoadFor |

=== FILE: app.dfy ===
/**
  How the app turns its inputs into new graph nodes and links: the final
  save of analysed concepts, a concept saved from the chatbot, the nodes
  onboarding creates, a sub-concept saved on a node page, and the lookup
  of a node page by its label. Fresh node ids are parameters.
*/
module Builders {
  import opened Maybe
  import opened Types
  import Subsequences

  /** Nodes and links to add to the graph together. */
  datatype Batch = Batch(nodes: seq<Node>, links: seq<Link>)

  function IdsOf(nodes: seq<Node>): (ids: seq<string>)
    ensures |ids| == |nodes| && forall i :: 0 <= i < |nodes| ==> ids[i] == nodes[i].id
  {
    seq(|nodes|, i requires 0 <= i < |nodes| => nodes[i].id)
  }

  // ----- links: a star from the anchor plus a chain through the new nodes -----

  /** For each new id in order: a link from the anchor to it, then a link
      from it to the next new id. */
  function StarChain(anchor: string, ids: seq<string>): (ls: seq<Link>)
    ensures |ids| == 0 ==> |ls| == 0
    ensures |ids| > 0 ==> |ls| == 2 * |ids| - 1
    ensures forall i :: 0 <= i < |ids| ==> ls[2 * i] == Link(anchor, ids[i])
    ensures forall i :: 0 <= i < |ids| - 1 ==> ls[2 * i + 1] == Link(ids[i], ids[i + 1])
    decreases |ids|
  {
    if |ids| == 0 then []
    else if |ids| == 1 then [Link(anchor, ids[0])]
    else
      var rest := StarChain(anchor, ids[1..]);
      var ls := [Link(anchor, ids[0]), Link(ids[0], ids[1])] + rest;
      ShiftTwo(Link(anchor, ids[0]), Link(ids[0], ids[1]), rest);
      ls
  }

  /** Past two links put in front, each link sits two places later. */
  lemma ShiftTwo(a: Link, b: Link, rest: seq<Link>)
    ensures forall j :: 2 <= j < |rest| + 2 ==> ([a, b] + rest)[j] == rest[j - 2]
  {
  }

  /** Every link of a star-and-chain ends at a new node and starts at the
      anchor or at a new node. */
  lemma StarChainEndpoints(anchor: string, ids: seq<string>, l: Link)
    requires l in StarChain(anchor, ids)
    ensures l.target in ids
    ensures l.source == anchor || l.source in ids
  {
    var ls := StarChain(anchor, ids);
    var k :| 0 <= k < |ls| && ls[k] == l;
    var i := StarChainAt(anchor, ids, k);
  }

  /** The star-and-chain of onboarding: the link from the anchor to a node is
      left out when the node is the anchor itself. Which links that drops is
      stated by `StarChainNoSelfContents`. */
  function StarChainNoSelf(anchor: string, ids: seq<string>): (ls: seq<Link>)
    ensures forall l :: l in ls ==> l in StarChain(anchor, ids)
    decreases |ids|
  {
    if |ids| == 0 then []
    else
      var star := if ids[0] != anchor then [Link(anchor, ids[0])] else [];
      var chain := if |ids| > 1 then [Link(ids[0], ids[1])] else [];
      var rest := StarChainNoSelf(anchor, ids[1..]);
      var full := StarChain(anchor, ids);
      assert forall l :: l in rest ==> l in full by {
        forall l | l in rest ensures l in full {
          var sub := StarChain(anchor, ids[1..]);
          var k :| 0 <= k < |sub| && sub[k] == l;
          var i := k / 2;
          if k % 2 == 0 {
            assert full[2 * (i + 1)] == sub[2 * i];
          } else {
            assert full[2 * (i + 1) + 1] == sub[2 * i + 1];
          }
        }
      }
      assert |ids| > 1 ==> full[1] == Link(ids[0], ids[1]);
      star + chain + rest
  }

  /** When the anchor is not among the new ids nothing is skipped. */
  lemma {:induction false} NoSelfWithOutsideAnchor(anchor: string, ids: seq<string>)
    requires anchor !in ids
    ensures StarChainNoSelf(anchor, ids) == StarChain(anchor, ids)
    decreases |ids|
  {
    if |ids| > 1 {
      NoSelfWithOutsideAnchor(anchor, ids[1..]);
      var rest := StarChain(anchor, ids[1..]);
      assert StarChain(anchor, ids) == [Link(anchor, ids[0]), Link(ids[0], ids[1])] + rest;
    }
  }

  predicate DistinctStrings(ids: seq<string>) {
    forall i, j :: 0 <= i < j < |ids| ==> ids[i] != ids[j]
  }

  /** With distinct new ids no link of onboarding joins a node to itself. */
  lemma {:induction false} NoSelfLinks(anchor: string, ids: seq<string>)
    requires DistinctStrings(ids)
    ensures forall l :: l in StarChainNoSelf(anchor, ids) ==> l.source != l.target
    decreases |ids|
  {
    if |ids| > 0 {
      NoSelfLinks(anchor, ids[1..]);
      assert |ids| > 1 ==> ids[0] != ids[1];
    }
  }

  /** With the anchor the first new id, exactly that one star link is dropped. */
  lemma {:induction false} NoSelfFromFirst(ids: seq<string>)
    requires |ids| > 0 && DistinctStrings(ids)
    ensures |StarChainNoSelf(ids[0], ids)| == 2 * |ids| - 2
  {
    NoSelfWithOutsideAnchor(ids[0], ids[1..]);
    assert ids[0] !in ids[1..] by {
      forall j | 0 <= j < |ids| - 1 ensures ids[1..][j] != ids[0] {
        assert ids[1..][j] == ids[j + 1];
      }
    }
  }

  /** Onboarding's links are the star-and-chain with only the star links from
      the anchor to itself left out: every other link stays, and exactly one
      link is lost per occurrence of the anchor among the new ids. */
  lemma {:induction false} StarChainNoSelfContents(anchor: string, ids: seq<string>)
    requires |ids| > 0
    ensures |StarChainNoSelf(anchor, ids)| == 2 * |ids| - 1 - Subsequences.Count(ids, anchor)
    ensures forall l :: l in StarChain(anchor, ids) && l != Link(anchor, anchor) ==> l in StarChainNoSelf(anchor, ids)
    decreases |ids|
  {
    if |ids| > 1 {
      StarChainNoSelfContents(anchor, ids[1..]);
      assert StarChain(anchor, ids) == [Link(anchor, ids[0]), Link(ids[0], ids[1])] + StarChain(anchor, ids[1..]);
    }
  }

  /** With the anchor the first new id and not repeated, onboarding's links
      are the full star-and-chain without its first link, the self-link. */
  lemma NoSelfFromFirstContents(ids: seq<string>)
    requires |ids| > 0 && ids[0] !in ids[1..]
    ensures StarChainNoSelf(ids[0], ids) == StarChain(ids[0], ids)[1..]
  {
    if |ids| == 1 {
      assert StarChainNoSelf(ids[0], ids[1..]) == [];
    } else {
      NoSelfFromFirstLonger(ids);
    }
  }

  lemma NoSelfFromFirstLonger(ids: seq<string>)
    requires |ids| > 1 && ids[0] !in ids[1..]
    ensures StarChainNoSelf(ids[0], ids) == StarChain(ids[0], ids)[1..]
  {
    var a := ids[0];
    NoSelfWithOutsideAnchor(a, ids[1..]);
    NoSelfUnfold(a, ids);
    StarChainUnfold(a, ids);
    assert StarChain(a, ids)[1..] == [Link(a, ids[1])] + StarChain(a, ids[1..]);
  }

  lemma NoSelfUnfold(a: string, ids: seq<string>)
    requires |ids| > 1 && ids[0] == a
    ensures StarChainNoSelf(a, ids) == [Link(a, ids[1])] + StarChainNoSelf(a, ids[1..])
  {
  }

  lemma StarChainUnfold(a: string, ids: seq<string>)
    requires |ids| > 1
    ensures StarChain(a, ids) == [Link(a, ids[0]), Link(ids[0], ids[1])] + StarChain(a, ids[1..])
  {
  }

  /** The links of `ls` in order, with every repeat of an earlier link left out. */
  function Once(ls: seq<Link>): (r: seq<Link>)
    ensures forall l :: l in r <==> l in ls
    ensures forall i, j :: 0 <= i < j < |r| ==> r[i] != r[j]
    ensures |r| <= |ls|
    decreases |ls|
  {
    if |ls| == 0 then []
    else
      var front := Once(ls[..|ls| - 1]);
      assert ls == ls[..|ls| - 1] + [ls[|ls| - 1]];
      if ls[|ls| - 1] in front then front else front + [ls[|ls| - 1]]
  }

  /** A list without repeats is left as it is. */
  lemma {:induction false} OnceKeepsRepeatFree(ls: seq<Link>)
    requires forall i, j :: 0 <= i < j < |ls| ==> ls[i] != ls[j]
    ensures Once(ls) == ls
    decreases |ls|
  {
    if |ls| > 0 {
      var n := |ls| - 1;
      OnceKeepsRepeatFree(ls[..n]);
      assert ls[n] !in ls[..n] by {
        forall k | 0 <= k < n ensures ls[..n][k] != ls[n] {
          assert ls[..n][k] == ls[k];
        }
      }
      assert ls == ls[..n] + [ls[n]];
    }
  }

  /** A list whose first two links are equal loses nothing else to `Once`
      than the repeat. */
  lemma {:induction false} OnceDropsLeadingRepeat(ls: seq<Link>)
    requires |ls| >= 2 && ls[0] == ls[1]
    ensures Once(ls) == Once(ls[1..])
    decreases |ls|
  {
    var n := |ls| - 1;
    if |ls| > 2 {
      OnceDropsLeadingRepeat(ls[..n]);
      assert ls[..n][1..] == ls[1..][..n - 1];
    }
  }

  /** Link `k` of a star-and-chain is the star link of new id `i` (at k = 2i)
      or the chain link from it to the next (at k = 2i + 1). */
  lemma StarChainAt(anchor: string, ids: seq<string>, k: nat) returns (i: nat)
    requires k < |StarChain(anchor, ids)|
    ensures i < |ids|
    ensures (k == 2 * i && StarChain(anchor, ids)[k] == Link(anchor, ids[i]))
            || (k == 2 * i + 1 && i + 1 < |ids| && StarChain(anchor, ids)[k] == Link(ids[i], ids[i + 1]))
  {
    i := k / 2;
  }

  /** With distinct new ids and the first of them as the anchor, the links of
      the star-and-chain after the first two are pairwise different. */
  lemma StarChainDistinctLinks(ids: seq<string>, a: nat, b: nat)
    requires |ids| > 0 && DistinctStrings(ids) && 2 <= a < b < |StarChain(ids[0], ids)|
    ensures StarChain(ids[0], ids)[a] != StarChain(ids[0], ids)[b]
  {
    var i := StarChainAt(ids[0], ids, a);
    var j := StarChainAt(ids[0], ids, b);
    assert 1 <= i <= j;
    assert ids[0] != ids[i] && ids[0] != ids[j];
    assert i < j ==> ids[i] != ids[j];
  }

  // ----- saving analysed concepts -----

  /** The link anchor of a final save: the first node of the chosen
      category, else the first node, else `"root"`. */
  function SaveAnchor(nodes: seq<Node>, category: string): (a: string)
    ensures (exists i :: 0 <= i < |nodes| && nodes[i].category == category) ==>
              exists i :: 0 <= i < |nodes| && nodes[i].category == category && nodes[i].id == a
                          && forall j :: 0 <= j < i ==> nodes[j].category != category
    ensures (forall i :: 0 <= i < |nodes| ==> nodes[i].category != category) && |nodes| > 0 ==> a == nodes[0].id
    ensures |nodes| == 0 ==> a == "root"
  {
    match FirstInCategory(nodes, category)
    case Some(i) => nodes[i].id
    case None => if |nodes| > 0 then nodes[0].id else "root"
  }

  function FirstInCategory(nodes: seq<Node>, category: string): (r: Option<nat>)
    ensures r.Some? ==> r.value < |nodes| && nodes[r.value].category == category
                        && forall j :: 0 <= j < r.value ==> nodes[j].category != category
    ensures r.None? ==> forall j :: 0 <= j < |nodes| ==> nodes[j].category != category
    decreases |nodes|
  {
    if |nodes| == 0 then None
    else if nodes[0].category == category then Some(0)
    else match FirstInCategory(nodes[1..], category)
      case None => None
      case Some(k) => Some(k + 1)
  }

  /** The node a final save makes of one analysed concept. */
  function ConceptNode(c: Concept, id: string, category: string): (n: Node)
    ensures n.id == id && n.title == c.title && n.status == c.status && n.val == 25
    ensures n.category == category && n.description == Some(c.description)
  {
    Node(id, c.title, c.status, 25, category, Some(c.description))
  }

  /** Save the edited concepts under `category`; nothing happens without an
      analysis result. */
  function FinalSave(analysis: Option<AnalysisResult>, concepts: seq<Concept>, g: GraphData,
                     category: string, ids: seq<string>): (r: Option<Batch>)
    requires |ids| == |concepts|
    ensures analysis.None? <==> r.None?
    ensures r.Some? ==> |r.value.nodes| == |concepts|
    ensures r.Some? ==> forall i :: 0 <= i < |concepts| ==> r.value.nodes[i] == ConceptNode(concepts[i], ids[i], category)
    ensures r.Some? ==> r.value.links == StarChain(SaveAnchor(g.nodes, category), ids)
  {
    if analysis.None? then None
    else
      var nodes := seq(|concepts|, i requires 0 <= i < |concepts| => ConceptNode(concepts[i], ids[i], category));
      assert IdsOf(nodes) == ids;
      Some(Batch(nodes, StarChain(SaveAnchor(g.nodes, category), IdsOf(nodes))))
  }

  /** The save dialog's own state after a final save. */
  datatype SaveUi = SaveUi(isSaved: bool, modalOpen: bool)

  function AfterFinalSave(ui: SaveUi, analysis: Option<AnalysisResult>): (r: SaveUi)
    ensures analysis.None? ==> r == ui
    ensures analysis.Some? ==> r.isSaved && !r.modalOpen
  {
    if analysis.None? then ui else SaveUi(true, false)
  }

  /** A final save links every new node from the anchor and adds 2n-1 links
      for n >= 1 concepts. */
  lemma FinalSaveConnects(analysis: AnalysisResult, concepts: seq<Concept>, g: GraphData,
                          category: string, ids: seq<string>, i: nat)
    requires |ids| == |concepts| && i < |concepts|
    ensures var b := FinalSave(Some(analysis), concepts, g, category, ids).value;
            Link(SaveAnchor(g.nodes, category), b.nodes[i].id) in b.links
            && |b.links| == 2 * |concepts| - 1
  {
    var b := FinalSave(Some(analysis), concepts, g, category, ids).value;
    assert b.links[2 * i] == Link(SaveAnchor(g.nodes, category), ids[i]);
  }

  // ----- chatbot and sub-concept saves -----

  const DefaultCategory := "일반"

  /** A concept saved from the chatbot: one new node in the first node's
      category (or the default one), linked from the first node when there
      is one. The app then shows the graph. */
  function SaveConceptToGraph(g: GraphData, concept: string, id: string): (r: (Batch, Screen))
    ensures r.1 == Graph
    ensures |r.0.nodes| == 1
    ensures r.0.nodes[0] == Node(id, concept, New, 25,
                                 if |g.nodes| > 0 then g.nodes[0].category else DefaultCategory,
                                 Some("챗봇에서 추가된 개념: " + concept))
    ensures |g.nodes| == 0 <==> r.0.links == []
    ensures |g.nodes| > 0 ==> r.0.links == [Link(g.nodes[0].id, id)]
  {
    var category := if |g.nodes| > 0 then g.nodes[0].category else DefaultCategory;
    var node := Node(id, concept, New, 25, category, Some("챗봇에서 추가된 개념: " + concept));
    (Batch([node], if |g.nodes| > 0 then [Link(g.nodes[0].id, id)] else []), Graph)
  }

  /** A sub-concept saved on a node page: one new node in the parent's
      category, linked once from the parent. */
  function SaveSubconcept(parent: Node, sub: string, id: string): (b: Batch)
    ensures |b.nodes| == 1 && b.links == [Link(parent.id, id)]
    ensures b.nodes[0] == Node(id, sub, New, 20, parent.category, Some("\"" + parent.title + "\"의 하위 개념"))
  {
    Batch([Node(id, sub, New, 20, parent.category, Some("\"" + parent.title + "\"의 하위 개념"))], [Link(parent.id, id)])
  }

  /** Every link a chatbot or sub-concept save adds points at the new node. */
  lemma SingleSavesTargetNewNode(g: GraphData, parent: Node, text: string, id: string)
    ensures forall l :: l in SaveConceptToGraph(g, text, id).0.links ==> l.target == id
    ensures forall l :: l in SaveSubconcept(parent, text, id).links ==> l.target == id && l.source == parent.id
  {
  }

  /** The node a node page shows: the first node whose label is the decoded
      route parameter. */
  function NodePage(g: GraphData, decodedName: string): (r: Option<Node>)
    ensures r.Some? ==> r.value.title == decodedName && r.value in g.nodes
    ensures r.None? <==> forall i :: 0 <= i < |g.nodes| ==> g.nodes[i].title != decodedName
    ensures r.Some? ==> exists j :: 0 <= j < |g.nodes| && g.nodes[j] == r.value
                          && forall i :: 0 <= i < j ==> g.nodes[i].title != decodedName
  {
    FindByLabel(g.nodes, decodedName)
  }

  /** When labels are pairwise different, every node has its own page. */
  lemma NodePageOfEach(g: GraphData, k: nat)
    requires k < |g.nodes|
    requires forall i, j :: 0 <= i < j < |g.nodes| ==> g.nodes[i].title != g.nodes[j].title
    ensures NodePage(g, g.nodes[k].title) == Some(g.nodes[k])
  {
    var r := NodePage(g, g.nodes[k].title);
    var j :| 0 <= j < |g.nodes| && g.nodes[j] == r.value
             && forall i :: 0 <= i < j ==> g.nodes[i].title != g.nodes[k].title;
    assert !(k < j) && !(j < k);
  }

  // ----- onboarding -----

  /** What onboarding collects. Absent answers are `""` (they are falsy in
      the source, exactly as the empty string is). */
  datatype Onboarding = Onboarding(usageType: string, jobField: string, keywords: seq<string>,
                                   interestText: string, major: string, subject: string)

  function Or(s: string, fallback: string): string {
    if s != "" then s else fallback
  }

  /** How many nodes onboarding creates. */
  function OnboardingCount(d: Onboarding): (n: nat)
    ensures n >= 1
  {
    if d.usageType == "personal" && |d.keywords| > 0 then |d.keywords| else 1
  }

  function Onboarded(id: string, title: string, val: int, category: string, description: Option<string>): Node {
    Node(id, title, New, val, category, description)
  }

  /** The nodes onboarding creates, all `New` and in the usage type's
      category (or the default one). */
  function OnboardingNodes(d: Onboarding, ids: seq<string>): (ns: seq<Node>)
    requires |ids| == OnboardingCount(d)
    ensures |ns| == |ids| && IdsOf(ns) == ids
    ensures forall i :: 0 <= i < |ns| ==> ns[i].status == New && ns[i].category == Or(d.usageType, DefaultCategory)
  {
    var cat := Or(d.usageType, DefaultCategory);
    if d.usageType == "work" then
      [Onboarded(ids[0], Or(d.jobField, "업무"), 25, cat, Some("온보딩 - 직무"))]
    else if d.usageType == "personal" then
      if |d.keywords| > 0 then
        var ns := seq(|d.keywords|, i requires 0 <= i < |d.keywords| =>
                      Onboarded(ids[i], d.keywords[i], 20, cat, Some("온보딩 - 관심사")));
        assert IdsOf(ns) == ids;
        ns
      else [Onboarded(ids[0], Or(d.interestText, "관심사"), 25, cat, Some("온보딩 - 관심사"))]
    else if d.usageType == "school" then
      [Onboarded(ids[0], Or(d.major, Or(d.subject, "학습")), 25, cat, Some("온보딩 - 학습"))]
    else [Onboarded(ids[0], "사용자", 25, cat, None)]
  }

  /** Personal onboarding with k > 0 keywords gives k nodes of weight 20,
      one per keyword in order; every other path gives one node of weight 25. */
  lemma OnboardingWeights(d: Onboarding, ids: seq<string>)
    requires |ids| == OnboardingCount(d)
    ensures d.usageType == "personal" && |d.keywords| > 0 ==>
      |OnboardingNodes(d, ids)| == |d.keywords|
      && forall i :: 0 <= i < |d.keywords| ==> OnboardingNodes(d, ids)[i].val == 20 && OnboardingNodes(d, ids)[i].title == d.keywords[i]
    ensures !(d.usageType == "personal" && |d.keywords| > 0) ==>
      |OnboardingNodes(d, ids)| == 1 && OnboardingNodes(d, ids)[0].val == 25
  {
  }

  /** The onboarding anchor: the first existing node, else the first new one. */
  function OnboardingAnchor(g: GraphData, ns: seq<Node>): (a: string)
    ensures |g.nodes| > 0 ==> a == g.nodes[0].id
    ensures |g.nodes| == 0 && |ns| > 0 ==> a == ns[0].id
    ensures |g.nodes| == 0 && |ns| == 0 ==> a == "root"
  {
    if |g.nodes| > 0 then g.nodes[0].id else if |ns| > 0 then ns[0].id else "root"
  }

  /** Everything onboarding adds; the app then shows the graph. */
  function CompleteOnboarding(g: GraphData, d: Onboarding, ids: seq<string>): (r: (Batch, Screen))
    requires |ids| == OnboardingCount(d)
    ensures r.1 == Graph
    ensures r.0.nodes == OnboardingNodes(d, ids)
    ensures r.0.links == StarChainNoSelf(OnboardingAnchor(g, r.0.nodes), ids)
  {
    var ns := OnboardingNodes(d, ids);
    (Batch(ns, StarChainNoSelf(OnboardingAnchor(g, ns), IdsOf(ns))), Graph)
  }

  /** On an empty graph with distinct fresh ids, onboarding links the first
      new node to each later one and chains them: 2n-2 links, none a self-link. */
  lemma OnboardingOnEmptyGraph(d: Onboarding, ids: seq<string>)
    requires |ids| == OnboardingCount(d) && DistinctStrings(ids)
    ensures var b := CompleteOnboarding(EmptyGraph, d, ids).0;
            |b.links| == 2 * |ids| - 2 && forall l :: l in b.links ==> l.source != l.target
  {
    NoSelfFromFirst(ids);
    NoSelfLinks(ids[0], ids);
  }

  /** On an empty graph, onboarding with two or more new nodes adds the link
      from the first new node to the second twice: once as the first node's
      chain link and once as the second node's star link. */
  lemma OnboardingDuplicateLink(d: Onboarding, ids: seq<string>)
    requires |ids| == OnboardingCount(d) && |ids| >= 2 && ids[0] != ids[1]
    ensures var b := CompleteOnboarding(EmptyGraph, d, ids).0;
            |b.links| >= 2 && b.links[0] == Link(ids[0], ids[1]) && b.links[1] == Link(ids[0], ids[1])
  {
    var ns := OnboardingNodes(d, ids);
    assert ns[0].id == ids[0];
    var rest := StarChainNoSelf(ids[0], ids[1..]);
    assert rest[0] == Link(ids[0], ids[1]);
    assert StarChainNoSelf(ids[0], ids) == [Link(ids[0], ids[1])] + rest;
  }

  /** Onboarding that adds each link once: the same nodes, and the same links
      with the repeats left out. */
  function CompleteOnboardingOnce(g: GraphData, d: Onboarding, ids: seq<string>): (r: (Batch, Screen))
    requires |ids| == OnboardingCount(d)
    ensures r.1 == Graph && r.0.nodes == OnboardingNodes(d, ids)
    ensures forall i, j :: 0 <= i < j < |r.0.links| ==> r.0.links[i] != r.0.links[j]
    ensures forall l :: l in r.0.links <==> l in CompleteOnboarding(g, d, ids).0.links
  {
    var b := CompleteOnboarding(g, d, ids).0;
    (Batch(b.nodes, Once(b.links)), Graph)
  }

  /** On an empty graph with distinct fresh ids, onboarding that adds each
      link once gives 2n-3 links for n >= 2 new nodes: one fewer than the
      source's list, because the repeated first link appears once. */
  lemma OnboardingOnceOnEmptyGraph(d: Onboarding, ids: seq<string>)
    requires |ids| == OnboardingCount(d) && |ids| >= 2 && DistinctStrings(ids)
    ensures var b := CompleteOnboardingOnce(EmptyGraph, d, ids).0;
            |b.links| == 2 * |ids| - 3 && b.links == CompleteOnboarding(EmptyGraph, d, ids).0.links[1..]
  {
    var ls := CompleteOnboarding(EmptyGraph, d, ids).0.links;
    OnboardingLinksOnEmpty(d, ids);
    OnboardingDuplicateLink(d, ids);
    StarChainTailRepeatFree(ids);
    assert ls[1..] == StarChain(ids[0], ids)[2..];
    OnceKeepsRepeatFree(ls[1..]);
    OnceDropsLeadingRepeat(ls);
  }

  /** On an empty graph with distinct fresh ids, onboarding adds the whole
      star-and-chain but its leading self-link. */
  lemma OnboardingLinksOnEmpty(d: Onboarding, ids: seq<string>)
    requires |ids| == OnboardingCount(d) && |ids| >= 1 && DistinctStrings(ids)
    ensures CompleteOnboarding(EmptyGraph, d, ids).0.links == StarChain(ids[0], ids)[1..]
  {
    NoSelfFromFirst(ids);
    assert ids[0] !in ids[1..] by {
      forall j | 0 <= j < |ids| - 1 ensures ids[1..][j] != ids[0] {
        assert ids[1..][j] == ids[j + 1];
      }
    }
    NoSelfFromFirstContents(ids);
  }

  /** Past its first two links, a star-and-chain over distinct ids repeats
      no link. */
  lemma StarChainTailRepeatFree(ids: seq<string>)
    requires |ids| >= 2 && DistinctStrings(ids)
    ensures |StarChain(ids[0], ids)| >= 2
    ensures var t := StarChain(ids[0], ids)[2..]; forall i, j :: 0 <= i < j < |t| ==> t[i] != t[j]
  {
    var t := StarChain(ids[0], ids)[2..];
    forall i, j | 0 <= i < j < |t| ensures t[i] != t[j] {
      StarChainDistinctLinks(ids, i + 2, j + 2);
    }
  }

  // ----- routing guard -----

  /** Without a user, once authentication has settled, the app moves to the
      sign-in screen. */
  function AuthRedirect(authLoading: bool, hasUser: bool, screen: Screen): (r: Screen)
    ensures !authLoading && !hasUser ==> r == Auth
    ensures authLoading || hasUser ==> r == screen
  {
    if !authLoading && !hasUser && screen != Auth then Auth else screen
  }
}

=== FILE: auth_form.dfy ===
/**
  The sign-in / sign-up form: the order its checks run in, the e-mail
  shape it accepts, and what it shows once the backend answers. The
  backend call itself is represented by the request the form emits and
  the reply it is given.
*/
module AuthValidation {
  import opened Maybe
  import opened Text

  datatype AuthError = MissingFields | PasswordMismatch | PasswordTooShort | InvalidEmail

  function Message(e: AuthError): string {
    match e
    case MissingFields => "이메일과 비밀번호를 입력해주세요."
    case PasswordMismatch => "비밀번호가 일치하지 않습니다."
    case PasswordTooShort => "비밀번호는 최소 6자 이상이어야 합니다."
    case InvalidEmail => "유효한 이메일 주소를 입력해주세요."
  }

  /** The four messages are different, so the message names the failed check. */
  lemma MessagesDistinct(a: AuthError, b: AuthError)
    requires Message(a) == Message(b)
    ensures a == b
  {
  }

  const MinPasswordLength := 6

  // ----- the e-mail shape -----

  /** A non-empty run of characters that are neither white space nor `@`:
      the regular-expression class `[^\s@]+`. */
  predicate Atom(s: string) {
    |s| > 0 && forall i :: 0 <= i < |s| ==> !IsSpace(s[i]) && s[i] != '@'
  }

  /** `s` reads `a@b.c` with the `@` at `p`, the `.` at `q` and each of
      `a`, `b`, `c` an atom. */
  predicate SplitsAt(s: string, p: int, q: int) {
    0 <= p < q < |s| && s[p] == '@' && s[q] == '.'
    && Atom(s[..p]) && Atom(s[p + 1..q]) && Atom(s[q + 1..])
  }

  /** The email pattern: the whole string is an atom, `@`, an atom,
      `.`, an atom (the `.` may be any one after the `@`). */
  function ValidEmail(s: string): (v: bool)
    ensures v ==> |s| >= 5 && '@' in s && '.' in s
  {
    exists p, q :: 0 <= p < q < |s| && SplitsAt(s, p, q)
  }

  /** The same shape, read character by character: no white space, exactly
      one `@` and not first, and a `.` with at least one character between
      it and the `@` and at least one after it. */
  predicate FlatEmail(s: string) {
    && NoSpace(s)
    && (exists p :: 0 < p < |s| && s[p] == '@' && OnlyAt(s, p) && DotBetween(s, p))
  }

  predicate OnlyAt(s: string, p: nat) {
    forall i :: 0 <= i < |s| && s[i] == '@' ==> i == p
  }

  predicate DotBetween(s: string, p: nat) {
    exists q :: p + 1 < q < |s| - 1 && s[q] == '.'
  }

  lemma ValidEmailIsFlat(s: string)
    ensures ValidEmail(s) <==> FlatEmail(s)
  {
    if ValidEmail(s) {
      var p, q :| 0 <= p < q < |s| && SplitsAt(s, p, q);
      forall i | 0 <= i < |s| ensures !IsSpace(s[i]) && (s[i] == '@' ==> i == p) {
        if i < p {
          assert s[i] == s[..p][i];
        } else if p < i < q {
          assert s[i] == s[p + 1..q][i - p - 1];
        } else if q < i {
          assert s[i] == s[q + 1..][i - q - 1];
        }
      }
      assert s[..p][0] == s[0];
      assert DotBetween(s, p);
    }
    if FlatEmail(s) {
      var p :| 0 < p < |s| && s[p] == '@' && OnlyAt(s, p) && DotBetween(s, p);
      var q :| p + 1 < q < |s| - 1 && s[q] == '.';
      assert SplitsAt(s, p, q);
    }
  }

  // ----- the checks -----

  /** The first check that fails, in the order the form runs them; the
      confirmation is consulted only when signing up. */
  function Validate(isSignUp: bool, email: string, password: string, confirm: string): (r: Option<AuthError>)
    ensures r.None? <==> email != "" && password != "" && (!isSignUp || password == confirm)
                         && |password| >= MinPasswordLength && ValidEmail(email)
    ensures r == Some(MissingFields) <==> email == "" || password == ""
    ensures r == Some(PasswordMismatch) <==> email != "" && password != "" && isSignUp && password != confirm
    ensures r == Some(PasswordTooShort) <==> email != "" && password != "" && (!isSignUp || password == confirm)
                                             && |password| < MinPasswordLength
    ensures r == Some(InvalidEmail) <==> email != "" && password != "" && (!isSignUp || password == confirm)
                                         && |password| >= MinPasswordLength && !ValidEmail(email)
  {
    if email == "" || password == "" then Some(MissingFields)
    else if isSignUp && password != confirm then Some(PasswordMismatch)
    else if |password| < MinPasswordLength then Some(PasswordTooShort)
    else if !ValidEmail(email) then Some(InvalidEmail)
    else None
  }

  /** Signing in never looks at the confirmation field. */
  lemma SignInIgnoresConfirm(email: string, password: string, c1: string, c2: string)
    ensures Validate(false, email, password, c1) == Validate(false, email, password, c2)
  {
  }

  /** A mismatch is reported before a short password: signing up with two
      different short passwords reports the mismatch. */
  lemma MismatchBeforeLength(email: string, password: string, confirm: string)
    requires email != "" && password != "" && password != confirm && |password| < MinPasswordLength
    ensures Validate(true, email, password, confirm) == Some(PasswordMismatch)
  {
  }

  // ----- the form -----

  datatype Form = Form(email: string, password: string, confirm: string,
                       error: Option<string>, success: Option<string>, submitting: bool)

  /** What the backend answered: success, a failure with an error text
      (`""` when it gave none), or an exception with its message. */
  datatype Reply = Succeeded | Failed(error: string) | Threw(message: string)

  const DefaultError := "오류가 발생했습니다."

  /** Pressing submit: old messages are cleared; a failed check shows its
      message and sends nothing; otherwise the form starts submitting and
      sends exactly the e-mail and password. */
  function Submit(f: Form, isSignUp: bool): (r: (Form, Option<(string, string)>))
    ensures r.0.email == f.email && r.0.password == f.password && r.0.confirm == f.confirm
    ensures r.0.success == None
    ensures r.1.Some? <==> Validate(isSignUp, f.email, f.password, f.confirm).None?
    ensures r.1.Some? ==> r.1.value == (f.email, f.password) && r.0.submitting && r.0.error == None
    ensures r.1.None? ==> r.0.error == Some(Message(Validate(isSignUp, f.email, f.password, f.confirm).value))
                          && r.0.submitting == f.submitting
  {
    var cleared := f.(error := None, success := None);
    match Validate(isSignUp, f.email, f.password, f.confirm)
    case Some(e) => (cleared.(error := Some(Message(e))), None)
    case None => (cleared.(submitting := true), Some((f.email, f.password)))
  }

  /** The backend answered: success shows the mode's message and clears all
      three fields; anything else shows an error, never an empty one. */
  function Complete(f: Form, isSignUp: bool, reply: Reply): (r: Form)
    ensures !r.submitting
    ensures reply.Succeeded? ==> r.email == "" && r.password == "" && r.confirm == ""
                                 && r.success == Some(if isSignUp then "회원가입이 완료되었습니다!" else "로그인 성공!")
                                 && r.error == f.error
    ensures !reply.Succeeded? ==> r.email == f.email && r.password == f.password && r.confirm == f.confirm
                                  && r.success == f.success && r.error.Some? && r.error.value != ""
    ensures reply.Failed? && reply.error != "" ==> r.error == Some(reply.error)
    ensures reply.Threw? && reply.message != "" ==> r.error == Some(reply.message)
    ensures (reply == Failed("") || reply == Threw("")) ==> r.error == Some(DefaultError)
  {
    match reply
    case Succeeded =>
      f.(email := "", password := "", confirm := "",
         success := Some(if isSignUp then "회원가입이 완료되었습니다!" else "로그인 성공!"), submitting := false)
    case Failed(e) => f.(error := Some(OrElse(e, DefaultError)), submitting := false)
    case Threw(m) => f.(error := Some(OrElse(m, DefaultError)), submitting := false)
  }

  /** A successful round trip leaves an empty form that would fail the first
      check if submitted again. */
  lemma SuccessResetsForm(f: Form, isSignUp: bool)
    requires Submit(f, isSignUp).1.Some?
    ensures var done := Complete(Submit(f, isSignUp).0, isSignUp, Succeeded);
            Validate(isSignUp, done.email, done.password, done.confirm) == Some(MissingFields)
  {
  }
}

=== FILE: back_button.dfy ===
/**
  The back button in the top-left corner: from the graph it goes home to
  onboarding, from anywhere else back to the graph.
*/
module Back {
  import opened Types

  /** Where pressing the button leads from `current`. */
  function Target(current: Screen): (t: Screen)
    ensures current == Graph ==> t == Onboarding
    ensures current != Graph ==> t == Graph
    ensures t != current
    ensures t.IsDeclared()
  {
    if current == Graph then Onboarding else Graph
  }

  /** The two faces of the button. */
  datatype Face = Home | BackArrow

  function FaceOf(current: Screen): (f: Face)
    ensures f == Home <==> current == Graph
  {
    if current == Graph then Home else BackArrow
  }

  function Label(f: Face): (l: string)
    ensures l == "홈으로" <==> f == Home
  {
    match f
    case Home => "홈으로"
    case BackArrow => "뒤로가기"
  }

  /** The house face is shown exactly when pressing goes to onboarding. */
  lemma HomeLeadsHome(current: Screen)
    ensures FaceOf(current) == Home <==> Target(current) == Onboarding
  {
  }
}

=== FILE: constants.dfy ===
/**
  The colour table of the graph view (hex RGB values) and the lookup the
  view does through it: the status's entry, or the default entry when that
  is missing or zero (a falsy number).
*/
module Colors {
  import opened Maybe
  import opened Types

  const KnownColor := 0x10B981
  const FuzzyColor := 0xF59E0B
  const UnknownColor := 0xF43F5E
  const NewColor := 0x3B82F6
  const DefaultColor := 0x94A3B8
  const Background := 0x000000

  /** `COLORS[key]`: the six keys of the table, nothing for any other key. */
  function Entry(key: string): (r: Option<int>)
    ensures r.Some? <==> key in {"known", "fuzzy", "unknown", "new", "default", "bg"}
  {
    if key == "known" then Some(KnownColor)
    else if key == "fuzzy" then Some(FuzzyColor)
    else if key == "unknown" then Some(UnknownColor)
    else if key == "new" then Some(NewColor)
    else if key == "default" then Some(DefaultColor)
    else if key == "bg" then Some(Background)
    else None
  }

  /** The colour a node of the given status string is drawn in: the table's
      entry when it is there and truthy (non-zero), the default otherwise. */
  function HexColor(status: string): (c: int)
    ensures c != 0
    ensures c == DefaultColor || Entry(status) == Some(c)
    ensures Entry(status).Some? && Entry(status).value != 0 ==> Entry(status) == Some(c)
  {
    match Entry(status)
    case Some(v) => if v != 0 then v else DefaultColor
    case None => DefaultColor
  }

  /** The colour each status is drawn in. */
  function StatusColor(s: Status): (c: int)
    ensures c == HexColor(StatusKey(s))
    ensures c != DefaultColor
  {
    match s
    case Known => KnownColor
    case Fuzzy => FuzzyColor
    case Unknown => UnknownColor
    case New => NewColor
  }

  /** The four status colours are pairwise distinct, so the colour of a node
      tells its status. */
  lemma StatusColorInjective(a: Status, b: Status)
    requires StatusColor(a) == StatusColor(b)
    ensures a == b
  {
  }

  /** The background entry is 0, which is falsy: looking it up as a status
      falls back to the default colour. */
  lemma BackgroundFallsBack()
    ensures Entry("bg") == Some(0)
    ensures HexColor("bg") == DefaultColor
  {
  }

  /** An unknown status string is drawn in the default colour. */
  lemma UnlistedFallsBack(status: string)
    requires status !in {"known", "fuzzy", "unknown", "new", "default", "bg"}
    ensures HexColor(status) == DefaultColor
  {
  }
}

=== FILE: folder_item.dfy ===
/**
  One entry of the sidebar tree and, through its open folders, the entries
  below it: which of them count as hidden, what clicking them reports,
  how far each is indented, and the rename flow.
*/
module FolderTree {
  import opened Maybe
  import opened Types

  predicate StartsWith(s: string, prefix: string) {
    |prefix| <= |s| && s[..|prefix|] == prefix
  }

  /** Category folders are the ones whose id starts with `sub_`. */
  predicate IsCategoryFolder(item: FolderStructure) {
    item.kind == FolderEntry && StartsWith(item.id, "sub_")
  }

  /** A folder is shown as hidden when it is a category folder whose name
      is hidden; files never are. */
  function IsHidden(item: FolderStructure, hidden: seq<string>): (h: bool)
    ensures item.kind == FileEntry ==> !h
    ensures h ==> VisibilityToggle(item) == Some(item.name) && item.name in hidden
    ensures VisibilityToggle(item).Some? ==> (h <==> item.name in hidden)
  {
    IsCategoryFolder(item) && item.name in hidden
  }

  /** The eye button, and the category it toggles, exist only on category
      folders. */
  function VisibilityToggle(item: FolderStructure): (r: Option<string>)
    ensures r.Some? <==> IsCategoryFolder(item)
    ensures r.Some? ==> r.value == item.name
  {
    if IsCategoryFolder(item) then Some(item.name) else None
  }

  /** Left padding in pixels: files `16 * level + 12`, folders `12 * level + 8`. */
  function Indent(kind: EntryKind, level: nat): (px: nat)
    ensures kind == FileEntry ==> px == 16 * level + 12
    ensures kind == FolderEntry ==> px == 12 * level + 8
  {
    match kind
    case FileEntry => 16 * level + 12
    case FolderEntry => 12 * level + 8
  }

  /** Deeper entries are indented further, and a file sits right of the
      folder that holds it. */
  lemma IndentGrows(kind: EntryKind, level: nat)
    ensures Indent(kind, level) < Indent(kind, level + 1)
    ensures Indent(FolderEntry, level) < Indent(FileEntry, level + 1)
  {
  }

  /** What a click on an entry reports: a file reports its node id, a
      folder asks for itself to be opened or closed. */
  datatype Click = SelectNode(nodeId: Option<string>) | ToggleFolder(id: string)

  function OnClick(item: FolderStructure): (c: Click)
    ensures item.kind == FileEntry ==> c == SelectNode(item.nodeId)
    ensures item.kind == FolderEntry ==> c == ToggleFolder(item.id)
  {
    match item.kind
    case FileEntry => SelectNode(item.nodeId)
    case FolderEntry => ToggleFolder(item.id)
  }

  /** A rendered line of the tree. */
  datatype Row = Row(id: string, kind: EntryKind, level: nat, indent: nat, hidden: bool, highlighted: bool)

  /** Whether a folder's children are drawn: it must be open. */
  predicate ShowsChildren(item: FolderStructure) {
    item.kind == FolderEntry && item.isOpen == Some(true)
  }

  /** The lines an entry renders at `level`: itself, then, when it shows its
      children, theirs one level deeper. A file is highlighted when its node
      id equals the selected one (two absent ids are equal, as in the source). */
  function Render(item: FolderStructure, level: nat, hidden: seq<string>, selected: Option<string>): (rows: seq<Row>)
    ensures |rows| >= 1
    ensures rows[0] == Row(item.id, item.kind, level, Indent(item.kind, level), IsHidden(item, hidden),
                           item.kind == FileEntry && selected == item.nodeId)
    ensures !ShowsChildren(item) ==> |rows| == 1
    ensures forall k :: 0 <= k < |rows| ==> rows[k].level >= level && rows[k].indent == Indent(rows[k].kind, rows[k].level)
    ensures forall k :: 1 <= k < |rows| ==> rows[k].level > level
    decreases item, 1
  {
    var head := Row(item.id, item.kind, level, Indent(item.kind, level), IsHidden(item, hidden),
                    item.kind == FileEntry && selected == item.nodeId);
    if ShowsChildren(item) then
      [head] + RenderAll(item.children, level + 1, hidden, selected)
    else [head]
  }

  function RenderAll(items: seq<FolderStructure>, level: nat, hidden: seq<string>, selected: Option<string>): (rows: seq<Row>)
    ensures |rows| >= |items|
    ensures forall k :: 0 <= k < |rows| ==> rows[k].level >= level && rows[k].indent == Indent(rows[k].kind, rows[k].level)
    decreases items, 0
  {
    if |items| == 0 then []
    else Render(items[0], level, hidden, selected) + RenderAll(items[1..], level, hidden, selected)
  }

  /** Files are never shown as hidden, anywhere in the tree. */
  lemma {:induction false} FilesNeverHidden(item: FolderStructure, level: nat, hidden: seq<string>, selected: Option<string>)
    ensures forall r :: r in Render(item, level, hidden, selected) && r.kind == FileEntry ==> !r.hidden
    decreases item, 1
  {
    if ShowsChildren(item) {
      FilesNeverHiddenAll(item.children, level + 1, hidden, selected);
    }
  }

  lemma {:induction false} FilesNeverHiddenAll(items: seq<FolderStructure>, level: nat, hidden: seq<string>, selected: Option<string>)
    ensures forall r :: r in RenderAll(items, level, hidden, selected) && r.kind == FileEntry ==> !r.hidden
    decreases items, 0
  {
    if |items| > 0 {
      FilesNeverHidden(items[0], level, hidden, selected);
      FilesNeverHiddenAll(items[1..], level, hidden, selected);
    }
  }

  /** The inline editor of a folder name. */
  datatype Editor = Editor(editing: bool, editName: string)

  /** The editor starts closed, holding the folder's name. */
  function NewEditor(item: FolderStructure): (e: Editor)
    ensures !e.editing && e.editName == item.name
  {
    Editor(false, item.name)
  }

  function ToggleEditing(e: Editor): (r: Editor)
    ensures r.editing == !e.editing && r.editName == e.editName
  {
    e.(editing := !e.editing)
  }

  /** Finishing a rename reports the folder id with the edited name and
      closes the editor. */
  function Rename(item: FolderStructure, e: Editor): (r: (Editor, (string, string)))
    ensures !r.0.editing && r.0.editName == e.editName
    ensures r.1 == (item.id, e.editName)
  {
    (e.(editing := false), (item.id, e.editName))
  }
}

=== FILE: graph_data.dfy ===
/**
  The graph state the app keeps: the graph, the selected node and the list
  of hidden category names, with the operations that change them. The
  backend calls are not modelled: a fetch is split into the moment it
  starts and the moment its answer (a graph, or a failure) arrives.
*/
module GraphStore {
  import opened Maybe
  import opened Types
  import opened Lex
  import GraphView

  datatype Store = Store(graph: GraphData, selected: Option<Node>, hidden: seq<string>, loading: bool)

  /** The store before anything happens: no categories to list, no links,
      nothing selected, nothing hidden, not loading. */
  function Initial(): (s: Store)
    ensures UniqueCategories(s.graph.nodes) == [] && s.graph.links == []
    ensures s.selected.None? && s.hidden == [] && !s.loading
  {
    Store(EmptyGraph, None, [], false)
  }

  /** A user id that is present and not empty. */
  predicate SignedIn(userId: Option<string>) {
    userId.Some? && userId.value != ""
  }

  /** What the store does at once when the signed-in user changes. Without a
      user the graph is emptied and nothing else changes, not even the
      loading flag. With a user a fetch starts and the flag goes up; its
      answer arrives later through `FinishLoad`, and nothing cancels it. */
  function OnUserChange(s: Store, userId: Option<string>): (r: Store)
    ensures r.selected == s.selected && r.hidden == s.hidden
    ensures !SignedIn(userId) ==> r.graph == EmptyGraph && r.loading == s.loading
    ensures SignedIn(userId) ==> r.graph == s.graph && r.loading
  {
    if SignedIn(userId) then s.(loading := true) else s.(graph := EmptyGraph)
  }

  /** The answer of a fetch: a fetched graph (`Some`) replaces the current
      one, a failed fetch (`None`) keeps it, and in both cases loading ends. */
  function FinishLoad(s: Store, fetched: Option<GraphData>): (r: Store)
    ensures r.selected == s.selected && r.hidden == s.hidden && !r.loading
    ensures fetched.Some? ==> r.graph == fetched.value
    ensures fetched.None? ==> r.graph == s.graph
  {
    match fetched
    case Some(g) => s.(graph := g, loading := false)
    case None => s.(loading := false)
  }

  /** Signing in and letting the fetch finish replaces the graph with the
      fetched one (or keeps it when the fetch fails) and leaves the flag down. */
  lemma SignInRoundTrip(s: Store, user: string, fetched: Option<GraphData>)
    requires user != ""
    ensures var r := FinishLoad(OnUserChange(s, Some(user)), fetched);
            r == s.(graph := if fetched.Some? then fetched.value else s.graph, loading := false)
  {
  }

  /** Signing out while a fetch is pending: the graph is emptied but the flag
      stays up, and when the old user's answer arrives it overwrites the
      emptied graph. */
  lemma StaleFetchAfterLogout(s: Store, user: string, g: GraphData)
    requires user != ""
    ensures var out := OnUserChange(OnUserChange(s, Some(user)), None);
            out.graph == EmptyGraph && out.loading && FinishLoad(out, Some(g)).graph == g
  {
  }

  /** A fetch answer applied only while the user it was started for is still
      the signed-in one. A stale answer keeps the graph. The loading flag
      ends exactly as in `FinishLoad`, as the source's `finally` lowers it:
      a stale answer therefore lowers it even while a fetch for the current
      user is still pending. */
  function FinishLoadFor(s: Store, requestedFor: string, current: Option<string>, fetched: Option<GraphData>): (r: Store)
    ensures current == Some(requestedFor) ==> r == FinishLoad(s, fetched)
    ensures current != Some(requestedFor) ==> r.graph == s.graph
    ensures r.loading == FinishLoad(s, fetched).loading
    ensures r.selected == s.selected && r.hidden == s.hidden
  {
    if current == Some(requestedFor) then FinishLoad(s, fetched) else s.(loading := false)
  }

  /** With the guarded answer, signing out during a fetch leaves the graph
      empty, and on a user switch the previous user's late answer is
      dropped. The graph on screen when the switch happens stays until the
      new user's answer arrives. */
  lemma GuardedFetchAfterLogout(s: Store, user: string, other: string, fetched: Option<GraphData>)
    requires user != "" && other != user
    ensures var out := OnUserChange(OnUserChange(s, Some(user)), None);
            FinishLoadFor(out, user, None, fetched).graph == EmptyGraph
    ensures var sw := OnUserChange(OnUserChange(s, Some(user)), Some(other));
            FinishLoadFor(sw, user, Some(other), fetched).graph == sw.graph
  {
  }

  // ----- hidden categories -----

  /** Every entry equal to `name` dropped, the others kept in order. */
  function Without(xs: seq<string>, name: string): (r: seq<string>)
    ensures forall x :: x in r <==> x in xs && x != name
    ensures |r| <= |xs|
    decreases |xs|
  {
    if |xs| == 0 then []
    else (if xs[0] == name then [] else [xs[0]]) + Without(xs[1..], name)
  }

  lemma {:induction false} WithoutAbsent(xs: seq<string>, name: string)
    requires name !in xs
    ensures Without(xs, name) == xs
    decreases |xs|
  {
    if |xs| > 0 {
      WithoutAbsent(xs[1..], name);
      assert [xs[0]] + xs[1..] == xs;
    }
  }

  lemma {:induction false} WithoutKeepsDistinct(xs: seq<string>, name: string)
    requires GraphView.NoDuplicates(xs)
    ensures GraphView.NoDuplicates(Without(xs, name))
    decreases |xs|
  {
    if |xs| > 0 {
      WithoutKeepsDistinct(xs[1..], name);
      assert xs[0] !in xs[1..] by {
        forall j | 0 <= j < |xs[1..]| ensures xs[1..][j] != xs[0] {
          assert xs[1..][j] == xs[j + 1];
        }
      }
    }
  }

  /** Hide a shown category, or show a hidden one. */
  function Toggle(hidden: seq<string>, name: string): (r: seq<string>)
    ensures name in r <==> name !in hidden
    ensures forall x :: x != name ==> (x in r <==> x in hidden)
  {
    if name in hidden then Without(hidden, name) else hidden + [name]
  }

  /** Toggling twice brings back the same hidden names; when the name was
      shown, even the list itself comes back. */
  lemma ToggleTwice(hidden: seq<string>, name: string)
    ensures forall x :: x in Toggle(Toggle(hidden, name), name) <==> x in hidden
    ensures name !in hidden ==> Toggle(Toggle(hidden, name), name) == hidden
  {
    if name !in hidden {
      assert name in hidden + [name];
      WithoutSnoc(hidden, name);
    }
  }

  lemma WithoutSnoc(xs: seq<string>, name: string)
    requires name !in xs
    ensures Without(xs + [name], name) == xs
  {
    WithoutAppend(xs, [name], name);
    WithoutAbsent(xs, name);
    assert Without([name], name) == [] + Without([], name);
  }

  lemma {:induction false} WithoutAppend(a: seq<string>, b: seq<string>, name: string)
    ensures Without(a + b, name) == Without(a, name) + Without(b, name)
    decreases |a|
  {
    if |a| == 0 {
      assert a + b == b;
    } else {
      WithoutAppend(a[1..], b, name);
      var h := if a[0] == name then [] else [a[0]];
      assert (a + b)[1..] == a[1..] + b;
      assert (a + b)[0] == a[0];
      calc {
        Without(a + b, name);
        h + Without(a[1..] + b, name);
        h + (Without(a[1..], name) + Without(b, name));
        (h + Without(a[1..], name)) + Without(b, name);
      }
    }
  }

  /** A hidden list without repeats keeps having none after a toggle. */
  lemma ToggleKeepsDistinct(hidden: seq<string>, name: string)
    requires GraphView.NoDuplicates(hidden)
    ensures GraphView.NoDuplicates(Toggle(hidden, name))
  {
    if name in hidden {
      WithoutKeepsDistinct(hidden, name);
    }
  }

  /** After a toggle exactly the nodes of that category change visibility. */
  lemma ToggleFlipsCategory(nodes: seq<Node>, hidden: seq<string>, name: string, i: nat)
    requires i < |nodes|
    ensures GraphView.Visibility(nodes, Toggle(hidden, name))[i] ==
      if nodes[i].category == name then !GraphView.Visibility(nodes, hidden)[i]
      else GraphView.Visibility(nodes, hidden)[i]
  {
  }

  // ----- derived category list -----

  /** The sidebar's category list: each category once, sorted. */
  function UniqueCategories(nodes: seq<Node>): (r: seq<string>)
    ensures StrictlySorted(r)
    ensures forall c :: c in r <==> exists i :: 0 <= i < |nodes| && nodes[i].category == c
  {
    var cs := GraphView.CategoriesOf(nodes);
    var r := SortedDistinct(cs);
    assert forall c :: c in cs <==> exists i :: 0 <= i < |nodes| && nodes[i].category == c by {
      forall c | c in cs ensures exists i :: 0 <= i < |nodes| && nodes[i].category == c {
        var i :| 0 <= i < |cs| && cs[i] == c;
      }
    }
    r
  }

  /** The sidebar lists the same categories as the graph view, only sorted. */
  lemma SidebarMatchesView(nodes: seq<Node>)
    ensures UniqueCategories(nodes) == SortedDistinct(GraphView.Dedup(GraphView.CategoriesOf(nodes)))
  {
    var cs := GraphView.CategoriesOf(nodes);
    SortedUnique(UniqueCategories(nodes), SortedDistinct(GraphView.Dedup(cs)));
  }

  // ----- graph edits -----

  /** Set the status of every node carrying `id`; nothing else changes. */
  function UpdateNodeStatus(g: GraphData, id: string, status: Assessed): (r: GraphData)
    ensures |r.nodes| == |g.nodes| && r.links == g.links
    ensures forall i :: 0 <= i < |g.nodes| ==>
      r.nodes[i] == if g.nodes[i].id == id then g.nodes[i].(status := status) else g.nodes[i]
  {
    GraphData(
      seq(|g.nodes|, i requires 0 <= i < |g.nodes| =>
        if g.nodes[i].id == id then g.nodes[i].(status := status) else g.nodes[i]),
      g.links)
  }

  /** After the update the node found under `id` has the new status and is
      otherwise the node found before; other lookups are unaffected. */
  lemma UpdateThenFind(g: GraphData, id: string, status: Assessed, other: string)
    requires other != id
    ensures var r := UpdateNodeStatus(g, id, status);
            FindById(r.nodes, id) == (match FindById(g.nodes, id)
                                      case None => None
                                      case Some(n) => Some(n.(status := status)))
            && FindById(r.nodes, other) == FindById(g.nodes, other)
  {
    var r := UpdateNodeStatus(g, id, status);
    SameIdsSameIndex(g.nodes, r.nodes, id);
    SameIdsSameIndex(g.nodes, r.nodes, other);
  }

  lemma SameIdsSameIndex(a: seq<Node>, b: seq<Node>, id: string)
    requires |a| == |b| && forall i :: 0 <= i < |a| ==> a[i].id == b[i].id
    ensures FindIndex(a, id) == FindIndex(b, id)
  {
    var x := FindIndex(a, id);
    var y := FindIndex(b, id);
    if x.Some? && y.Some? {
      assert !(x.value < y.value) && !(y.value < x.value);
    }
  }

  /** Updating twice with the same status is updating once. */
  lemma UpdateIdempotent(g: GraphData, id: string, status: Assessed)
    ensures UpdateNodeStatus(UpdateNodeStatus(g, id, status), id, status) == UpdateNodeStatus(g, id, status)
  {
    var once := UpdateNodeStatus(g, id, status);
    var twice := UpdateNodeStatus(once, id, status);
    assert twice.nodes == once.nodes;
  }

  /** New nodes and links go behind the old ones. */
  function AddNodesAndLinks(g: GraphData, nodes: seq<Node>, links: seq<Link>): (r: GraphData)
    ensures |r.nodes| == |g.nodes| + |nodes| && |r.links| == |g.links| + |links|
    ensures r.nodes[..|g.nodes|] == g.nodes && r.nodes[|g.nodes|..] == nodes
    ensures r.links[..|g.links|] == g.links && r.links[|g.links|..] == links
  {
    GraphData(g.nodes + nodes, g.links + links)
  }

  /** Adding never changes what an existing id looks up. */
  lemma AddKeepsLookups(g: GraphData, nodes: seq<Node>, links: seq<Link>, id: string)
    requires FindById(g.nodes, id).Some?
    ensures FindById(AddNodesAndLinks(g, nodes, links).nodes, id) == FindById(g.nodes, id)
  {
    FindIndexAppend(g.nodes, nodes, id);
  }

  /** Adding in two steps is adding both batches at once. */
  lemma AddTwice(g: GraphData, n1: seq<Node>, l1: seq<Link>, n2: seq<Node>, l2: seq<Link>)
    ensures AddNodesAndLinks(AddNodesAndLinks(g, n1, l1), n2, l2) == AddNodesAndLinks(g, n1 + n2, l1 + l2)
  {
    assert g.nodes + n1 + n2 == g.nodes + (n1 + n2);
    assert g.links + l1 + l2 == g.links + (l1 + l2);
  }

  /** After adding, the sidebar lists the old categories and the new ones. */
  lemma AddCategories(g: GraphData, nodes: seq<Node>, links: seq<Link>)
    ensures forall c :: c in UniqueCategories(AddNodesAndLinks(g, nodes, links).nodes)
                        <==> c in UniqueCategories(g.nodes) || c in UniqueCategories(nodes)
  {
    var all := AddNodesAndLinks(g, nodes, links).nodes;
    forall c ensures c in UniqueCategories(all) <==> c in UniqueCategories(g.nodes) || c in UniqueCategories(nodes) {
      if c in UniqueCategories(all) {
        var i :| 0 <= i < |all| && all[i].category == c;
        if i >= |g.nodes| {
          assert nodes[i - |g.nodes|] == all[i];
        }
      }
      if c in UniqueCategories(g.nodes) {
        var i :| 0 <= i < |g.nodes| && g.nodes[i].category == c;
        assert all[i] == g.nodes[i];
      }
      if c in UniqueCategories(nodes) {
        var i :| 0 <= i < |nodes| && nodes[i].category == c;
        assert all[|g.nodes| + i] == nodes[i];
      }
    }
  }

  // ----- the store operations -----

  function ToggleCategory(s: Store, name: string): (r: Store)
    ensures r.graph == s.graph && r.selected == s.selected && r.loading == s.loading
    ensures name in r.hidden <==> name !in s.hidden
    ensures forall x :: x != name ==> (x in r.hidden <==> x in s.hidden)
  {
    s.(hidden := Toggle(s.hidden, name))
  }

  function UpdateStatus(s: Store, id: string, status: Assessed): (r: Store)
    ensures r.graph == UpdateNodeStatus(s.graph, id, status)
    ensures r.selected == s.selected && r.hidden == s.hidden && r.loading == s.loading
  {
    s.(graph := UpdateNodeStatus(s.graph, id, status))
  }

  function Add(s: Store, nodes: seq<Node>, links: seq<Link>): (r: Store)
    ensures r.graph == AddNodesAndLinks(s.graph, nodes, links)
    ensures r.selected == s.selected && r.hidden == s.hidden && r.loading == s.loading
  {
    s.(graph := AddNodesAndLinks(s.graph, nodes, links))
  }
}

=== FILE: graph_screen.dfy ===
/**
  The graph screen and its detail panel: how clicks in the 3D view, in the
  sidebar and in the panel change the selected node, and the panel's
  "Connections" list of neighbours. The panel component and the panel
  drawn inline by the graph screen compute the list the same way, so it
  is defined once here.
*/
module Neighbours {
  import opened Maybe
  import opened Text
  import opened Types
  import GraphView

  /** A link touches a node when either end is that node. */
  predicate Touches(l: Link, id: string) {
    l.source == id || l.target == id
  }

  /** The far end of a link seen from `id`: the target when `id` is the
      source, otherwise the source. */
  function Other(l: Link, id: string): (o: string)
    ensures Touches(l, id) ==> Touches(l, o)
    ensures Touches(l, id) && l.source != l.target ==> o != id
  {
    if l.source == id then l.target else l.source
  }

  /** The neighbours listed for the node `id`: for every link touching it, in
      link order, the node at the far end, when there is one. */
  function Connections(nodes: seq<Node>, links: seq<Link>, id: string): (r: seq<Node>)
    ensures |r| <= |links|
    ensures forall n :: n in r ==> n in nodes
    decreases |links|
  {
    if |links| == 0 then [] else Entry(nodes, links[0], id) + Connections(nodes, links[1..], id)
  }

  /** What one link contributes to the list. */
  function Entry(nodes: seq<Node>, l: Link, id: string): (r: seq<Node>)
    ensures |r| <= 1 && forall n :: n in r ==> n in nodes
  {
    if Touches(l, id) then
      match FindById(nodes, Other(l, id))
      case Some(n) => [n]
      case None => []
    else []
  }

  lemma SeqAssoc(x: seq<Node>, y: seq<Node>, z: seq<Node>)
    ensures x + (y + z) == (x + y) + z
  {
  }

  lemma ConnectionsUnfold(nodes: seq<Node>, ls: seq<Link>, id: string)
    requires |ls| > 0
    ensures Connections(nodes, ls, id) == Entry(nodes, ls[0], id) + Connections(nodes, ls[1..], id)
  {
  }

  lemma ConnectionsStep(nodes: seq<Node>, a: seq<Link>, b: seq<Link>, id: string)
    requires |a| > 0
    ensures Connections(nodes, a + b, id) == Entry(nodes, a[0], id) + Connections(nodes, a[1..] + b, id)
  {
    assert (a + b)[1..] == a[1..] + b;
    assert (a + b)[0] == a[0];
    ConnectionsUnfold(nodes, a + b, id);
  }

  /** The list for a concatenation of link lists is the concatenation of
      the lists. */
  lemma {:induction false} ConnectionsAppend(nodes: seq<Node>, a: seq<Link>, b: seq<Link>, id: string)
    ensures Connections(nodes, a + b, id) == Connections(nodes, a, id) + Connections(nodes, b, id)
    decreases |a|
  {
    if |a| == 0 {
      assert a + b == b;
    } else {
      ConnectionsAppend(nodes, a[1..], b, id);
      ConnectionsStep(nodes, a, b, id);
      ConnectionsUnfold(nodes, a, id);
      SeqAssoc(Entry(nodes, a[0], id), Connections(nodes, a[1..], id), Connections(nodes, b, id));
    }
  }

  /** A link that does not touch the node, or whose far end is missing,
      adds nothing; any other adds exactly the far-end node. */
  lemma ConnectionsOfOne(nodes: seq<Node>, l: Link, id: string)
    ensures !Touches(l, id) ==> Connections(nodes, [l], id) == []
    ensures Touches(l, id) && FindById(nodes, Other(l, id)).None? ==> Connections(nodes, [l], id) == []
    ensures Touches(l, id) && FindById(nodes, Other(l, id)).Some? ==>
              Connections(nodes, [l], id) == [FindById(nodes, Other(l, id)).value]
  {
    assert [l][1..] == [];
  }

  /** A node is listed exactly when some link touching `id` has it at the
      far end. */
  lemma {:induction false} ConnectionsMembers(nodes: seq<Node>, links: seq<Link>, id: string, n: Node)
    ensures n in Connections(nodes, links, id) <==>
      exists k :: 0 <= k < |links| && Touches(links[k], id) && FindById(nodes, Other(links[k], id)) == Some(n)
    decreases |links|
  {
    if |links| > 0 {
      ConnectionsMembers(nodes, links[1..], id, n);
      if n in Connections(nodes, links[1..], id) {
        var k :| 0 <= k < |links[1..]| && Touches(links[1..][k], id) && FindById(nodes, Other(links[1..][k], id)) == Some(n);
        assert links[k + 1] == links[1..][k];
      }
      if exists k :: 0 <= k < |links| && Touches(links[k], id) && FindById(nodes, Other(links[k], id)) == Some(n) {
        var k :| 0 <= k < |links| && Touches(links[k], id) && FindById(nodes, Other(links[k], id)) == Some(n);
        if k > 0 {
          assert links[1..][k - 1] == links[k];
        }
      }
    }
  }

  /** Being a neighbour is symmetric: with distinct ids, if `m` is listed
      for `n` then `n` is listed for `m`. */
  lemma ConnectionsSymmetric(nodes: seq<Node>, links: seq<Link>, n: Node, m: Node)
    requires DistinctIds(nodes) && n in nodes
    requires m in Connections(nodes, links, n.id)
    ensures n in Connections(nodes, links, m.id)
  {
    ConnectionsMembers(nodes, links, n.id, m);
    var k :| 0 <= k < |links| && Touches(links[k], n.id) && FindById(nodes, Other(links[k], n.id)) == Some(m);
    var i :| 0 <= i < |nodes| && nodes[i] == n;
    FindByIdDistinct(nodes, i);
    assert Other(links[k], m.id) == n.id;
    ConnectionsMembers(nodes, links, m.id, n);
  }

  /** `description || "설명이 없습니다."`: the panel's description line. */
  function DescriptionText(n: Node): (t: string)
    ensures t != ""
    ensures n.description.Some? && n.description.value != "" ==> t == n.description.value
  {
    OrElse(n.description.GetOr(""), "설명이 없습니다.")
  }

  // ----- selection -----

  /** A click reported by the 3D view: an id selects the node carrying it
      (none if there is no such node); `""` clears the selection. */
  function OnGraphClick(nodes: seq<Node>, id: string): (r: Option<Node>)
    ensures id == "" ==> r == None
    ensures id != "" ==> r == FindById(nodes, id)
  {
    if id != "" then FindById(nodes, id) else None
  }

  /** A file clicked in the sidebar selects the node with its id, if any. */
  function OnSidebarClick(nodes: seq<Node>, id: string): (r: Option<Node>)
    ensures r.Some? ==> r.value.id == id && r.value in nodes
    ensures r.None? <==> forall i :: 0 <= i < |nodes| ==> nodes[i].id != id
  {
    FindById(nodes, id)
  }

  /** Clicking the `k`-th entry of the "Connections" list selects the node
      that entry shows: a node of the graph at the far end of a link
      touching `id`. */
  function OnNeighbourClick(nodes: seq<Node>, links: seq<Link>, id: string, k: nat): (r: Option<Node>)
    requires k < |Connections(nodes, links, id)|
    ensures r == Some(Connections(nodes, links, id)[k])
    ensures r.Some? && r.value in nodes
    ensures exists j :: 0 <= j < |links| && Touches(links[j], id)
              && Other(links[j], id) == r.value.id && FindById(nodes, Other(links[j], id)) == r
  {
    var n := Connections(nodes, links, id)[k];
    ConnectionsMembers(nodes, links, id, n);
    Some(n)
  }

  /** Clicking a visible node in the 3D view selects that very node: the
      view reports its id and the screen looks the id up. */
  lemma ClickSelectsVisibleNode(nodes: seq<Node>, vis: seq<bool>, hits: seq<nat>, mx: real, my: real)
    requires |vis| == |nodes| && DistinctIds(nodes)
    requires GraphView.MouseUp(nodes, vis, hits, mx, my).Some?
    ensures var id := GraphView.MouseUp(nodes, vis, hits, mx, my).value;
            id == "" ==> OnGraphClick(nodes, id) == None
    ensures var id := GraphView.MouseUp(nodes, vis, hits, mx, my).value;
            id != "" ==> exists i :: 0 <= i < |nodes| && vis[i] && OnGraphClick(nodes, id) == Some(nodes[i])
  {
    var id := GraphView.MouseUp(nodes, vis, hits, mx, my).value;
    if id != "" {
      var i :| 0 <= i < |nodes| && vis[i] && nodes[i].id == id;
      FindByIdDistinct(nodes, i);
    }
  }
}

=== FILE: input_screen.dfy ===
/**
  The question screen: the learner types a question, the AI answer and the
  extracted concepts appear below it, and the learner either saves them to
  the graph or starts over.
*/
module Ask {
  import opened Maybe
  import opened Types
  import opened Markdown
  import opened Subsequences

  /** What the screen holds between renders. */
  datatype Page = Page(text: string, loading: bool, result: Option<AnalysisResult>, saved: bool)

  /** Both ask buttons are disabled while loading or while the text is empty. */
  function AskDisabled(p: Page): (d: bool)
    ensures p.text == "" ==> d
    ensures p.loading ==> d
    ensures !d ==> |p.text| >= 1 && !p.loading
  {
    p.loading || p.text == ""
  }

  /** The question box: editable until an answer exists, then echoed. */
  datatype QuestionBox = Editable(text: string, disabled: bool) | Echo(text: string)

  function Box(p: Page): (b: QuestionBox)
    ensures b.Editable? <==> p.result.None?
    ensures b.text == p.text
    ensures b.Editable? ==> (b.disabled <==> p.loading || p.text == "")
  {
    if p.result.None? then Editable(p.text, AskDisabled(p)) else Echo(p.text)
  }

  /** The answer paragraph, cleaned of markup, when there is an answer. */
  function AnswerText(p: Page): (a: Option<string>)
    ensures a.Some? <==> p.result.Some?
    ensures a.Some? ==> IsSubsequence(a.value, p.result.value.answer) && '`' !in a.value
  {
    match p.result
    case None => None
    case Some(r) => Some(CleanMarkdown(r.answer))
  }

  /** "New question": forget the answer, the saved flag and the text. */
  function NewQuestion(p: Page): (q: Page)
    ensures q.result.None? && !q.saved && q.text == ""
    ensures q.loading == p.loading
    ensures Box(q) == Editable("", true)
  {
    Page("", p.loading, None, false)
  }

  /** The main action under an answer. */
  datatype Action = ShowGraph | SaveToGraph

  /** After saving the button opens the graph; before, it starts the save. */
  function PrimaryAction(p: Page): (a: Action)
    ensures a == ShowGraph <==> p.saved
    ensures a == SaveToGraph <==> !p.saved
  {
    if p.saved then ShowGraph else SaveToGraph
  }

  /** Pressing a key in the follow-up field: Enter asks, whatever the state
      of the page and its buttons; any other key does nothing. */
  function FollowUpKey(key: string): (asks: bool)
    ensures asks <==> key == "Enter"
  {
    key == "Enter"
  }

  /** The keyboard reaches an ask that the buttons refuse: with an empty
      follow-up field, Enter still asks. */
  lemma EnterBypassesDisabled(p: Page)
    requires p.result.Some? && p.text == ""
    ensures AskDisabled(p) && FollowUpKey("Enter")
  {
  }

  /** The follow-up field only exists under an answer. */
  predicate FollowUpShown(p: Page) {
    p.result.Some?
  }

  /** Exactly one way of asking is on screen at any time: the first box's
      button before an answer, the follow-up field after it. */
  lemma OneAskControl(p: Page)
    ensures Box(p).Editable? != FollowUpShown(p)
  {
  }
}

=== FILE: lex.dfy ===
/**
  The order JavaScript's default `Array.prototype.sort` puts strings in:
  character by character, a proper prefix first. Characters are compared
  by code point here; see the README for where that differs from UTF-16.
*/
module Lex {

  /** `a` sorts strictly before `b`. */
  predicate Less(a: string, b: string)
    decreases |a|
  {
    |b| > 0 && (|a| == 0 || a[0] < b[0] || (a[0] == b[0] && Less(a[1..], b[1..])))
  }

  lemma {:induction false} LessIrreflexive(a: string)
    ensures !Less(a, a)
    decreases |a|
  {
    if |a| > 0 {
      LessIrreflexive(a[1..]);
    }
  }

  lemma {:induction false} LessTransitive(a: string, b: string, c: string)
    requires Less(a, b) && Less(b, c)
    ensures Less(a, c)
    decreases |a|
  {
    if |a| > 0 && a[0] == b[0] && b[0] == c[0] {
      LessTransitive(a[1..], b[1..], c[1..]);
    }
  }

  /** Any two different strings are ordered one way or the other. */
  lemma {:induction false} LessTotal(a: string, b: string)
    ensures a == b || Less(a, b) || Less(b, a)
    decreases |a|
  {
    if |a| > 0 && |b| > 0 && a[0] == b[0] {
      LessTotal(a[1..], b[1..]);
      assert a == [a[0]] + a[1..] && b == [b[0]] + b[1..];
    }
  }

  /** Sorted with no element repeated. */
  predicate StrictlySorted(xs: seq<string>) {
    forall i, j :: 0 <= i < j < |xs| ==> Less(xs[i], xs[j])
  }

  /** `x` put in its place in a sorted list, unless it is there already. */
  function Insert(x: string, xs: seq<string>): (r: seq<string>)
    requires StrictlySorted(xs)
    ensures StrictlySorted(r)
    ensures forall y :: y in r <==> y == x || y in xs
    decreases |xs|
  {
    if |xs| == 0 then [x]
    else if x == xs[0] then xs
    else if Less(x, xs[0]) then
      InsertFront(x, xs); [x] + xs
    else
      LessTotal(x, xs[0]);
      var rest := Insert(x, xs[1..]);
      assert forall y :: y in rest ==> Less(xs[0], y) by {
        forall y | y in rest ensures Less(xs[0], y) {
          if y != x {
            var j :| 0 <= j < |xs[1..]| && xs[1..][j] == y;
            assert xs[j + 1] == y;
          }
        }
      }
      [xs[0]] + rest
  }

  lemma InsertFront(x: string, xs: seq<string>)
    requires StrictlySorted(xs) && |xs| > 0 && Less(x, xs[0])
    ensures StrictlySorted([x] + xs)
  {
    forall j | 0 < j < |xs| ensures Less(x, xs[j]) {
      LessTransitive(x, xs[0], xs[j]);
    }
  }

  /** The distinct elements of `xs`, sorted: `Array.from(new Set(xs)).sort()`. */
  function SortedDistinct(xs: seq<string>): (r: seq<string>)
    ensures StrictlySorted(r)
    ensures forall y :: y in r <==> y in xs
    decreases |xs|
  {
    if |xs| == 0 then []
    else Insert(xs[|xs| - 1], SortedDistinct(xs[..|xs| - 1]))
  }

  /** A strictly sorted list is fixed by its elements: any two with the same
      elements are equal. */
  lemma {:induction false} SortedUnique(a: seq<string>, b: seq<string>)
    requires StrictlySorted(a) && StrictlySorted(b)
    requires forall y :: y in a <==> y in b
    ensures a == b
    decreases |a|
  {
    if |a| > 0 {
      assert a[0] in b;
      assert b[0] in a;
      if a[0] != b[0] {
        var i :| 0 <= i < |a| && a[i] == b[0];
        var j :| 0 <= j < |b| && b[j] == a[0];
        assert Less(a[0], b[0]) && Less(b[0], a[0]);
        LessTransitive(a[0], b[0], a[0]);
        LessIrreflexive(a[0]);
      } else {
        forall y ensures y in a[1..] <==> y in b[1..] {
          NotFirst(a, y);
          NotFirst(b, y);
        }
        SortedUnique(a[1..], b[1..]);
        assert a == [a[0]] + a[1..] && b == [b[0]] + b[1..];
      }
    } else {
      HeadIsElement(b);
    }
  }

  lemma HeadIsElement(b: seq<string>)
    ensures |b| > 0 ==> b[0] in b
  {
  }

  lemma NotFirst(a: seq<string>, y: string)
    requires StrictlySorted(a) && |a| > 0
    ensures y in a[1..] <==> y in a && y != a[0]
  {
    if y in a[1..] {
      var j :| 0 <= j < |a[1..]| && a[1..][j] == y;
      assert a[j + 1] == y;
      if y == a[0] {
        LessIrreflexive(a[0]);
      }
    }
    if y in a && y != a[0] {
      var j :| 0 <= j < |a| && a[j] == y;
      assert a[1..][j - 1] == y;
    }
  }
}

=== FILE: markdown.dfy ===
// `cleanMarkdown` (eduTech/src/utils/markdownUtils.ts): five global regular
// expression replacements applied in order,
//
//   1. bold:      a shortest one-line span between `**` pairs keeps its inside
//   2. italic:    the same with single `*`
//   3. underline: the same with `__`
//   4. code:      every backtick is deleted
//   5. headers:   one to six `#` (as many as there are) and the white-space
//                 character right after them are deleted
//
// Each pass is written out as the left-to-right scan a global `replace`
// performs: at each position try to match; on success emit the replacement
// and continue after the match, otherwise copy one character and move on.
module Markdown {
  import opened Maybe
  import opened Text
  import opened Subsequences

  predicate NoLineTerminator(s: string) {
    forall i :: 0 <= i < |s| ==> !IsLineTerminator(s[i])
  }

  /** None of the characters any pass reacts to. */
  predicate Plain(s: string) {
    '*' !in s && '_' !in s && '`' !in s && '#' !in s
  }

  /** A character no pass ever deletes. */
  predicate Ordinary(c: char) {
    c != '*' && c != '_' && c != '`' && c != '#' && !IsSpace(c)
  }

  /** The delimiter `d` occurs in `t` at offset `k`. */
  predicate OccursAt(t: string, d: string, k: int) {
    0 <= k && k + |d| <= |t| && t[k..k + |d|] == d
  }

  /** No line terminator among `t[i..k]`. */
  predicate OneLine(t: string, i: int, k: int)
    requires 0 <= i && k <= |t|
  {
    forall j :: i <= j < k ==> !IsLineTerminator(t[j])
  }

  /** Where the lazy body `(.*?)` that starts at offset `i` of `t` ends: the
      first offset at which the closing delimiter `d` occurs, provided no line
      terminator comes before it; `None` when the span cannot be closed. */
  function CloseFrom(t: string, d: string, i: nat): (r: Option<nat>)
    requires |d| > 0 && i <= |t|
    ensures r.Some? ==> i <= r.value && OccursAt(t, d, r.value) && OneLine(t, i, r.value)
    ensures r.Some? ==> forall j :: i <= j < r.value ==> !OccursAt(t, d, j)
    ensures r.None? ==> forall k :: i <= k <= |t| && OccursAt(t, d, k) ==> !OneLine(t, i, k)
    decreases |t| - i
  {
    if OccursAt(t, d, i) then Some(i)
    else if i == |t| || IsLineTerminator(t[i]) then None
    else CloseFrom(t, d, i + 1)
  }

  /** A span `d … d` opens at the front of `s` and closes at offset `k`. */
  predicate ClosedSpanAt(s: string, d: string, k: nat) {
    |d| > 0 && OccursAt(s, d, 0) && CloseFrom(s, d, |d|).Some? && CloseFrom(s, d, |d|).value == k
  }

  /** One global pass replacing each shortest one-line span `d … d` by its
      inside. */
  function StripPair(s: string, d: string): (r: string)
    requires |d| > 0
    ensures |r| <= |s|
    decreases |s|
  {
    if |s| == 0 then ""
    else if OccursAt(s, d, 0) && CloseFrom(s, d, |d|).Some? then
      var k := CloseFrom(s, d, |d|).value;
      s[|d|..k] + StripPair(s[k + |d|..], d)
    else [s[0]] + StripPair(s[1..], d)
  }

  /** Every occurrence of `c` deleted. */
  function RemoveChar(s: string, c: char): (r: string)
    ensures c !in r
    ensures |r| <= |s|
    ensures c !in s ==> r == s
    decreases |s|
  {
    if |s| == 0 then "" else (if s[0] == c then "" else [s[0]]) + RemoveChar(s[1..], c)
  }

  /** How many `#` the greedy `#{1,6}` takes at the front of `s`, at most `cap`. */
  function HashRunUpTo(s: string, cap: nat): (n: nat)
    ensures n <= cap && n <= |s|
    ensures forall i :: 0 <= i < n ==> s[i] == '#'
    ensures n < cap && n < |s| ==> s[n] != '#'
    decreases cap
  {
    if cap == 0 || |s| == 0 || s[0] != '#' then 0 else 1 + HashRunUpTo(s[1..], cap - 1)
  }

  function HashRun(s: string): nat {
    HashRunUpTo(s, 6)
  }

  /** A header marker (one to six `#`, then white space) starts `s`. */
  predicate HeaderAtFront(s: string) {
    1 <= HashRun(s) < |s| && IsSpace(s[HashRun(s)])
  }

  /** One global pass deleting every header marker. */
  function StripHeaders(s: string): (r: string)
    ensures |r| <= |s|
    decreases |s|
  {
    if |s| == 0 then ""
    else if HeaderAtFront(s) then StripHeaders(s[HashRun(s) + 1..])
    else [s[0]] + StripHeaders(s[1..])
  }

  /** The five passes in the order `cleanMarkdown` chains them. */
  function Passes(text: string): string {
    StripHeaders(RemoveChar(StripPair(StripPair(StripPair(text, "**"), "*"), "__"), '`'))
  }

  /** The whole of `cleanMarkdown`: a falsy (empty) text gives `""`; otherwise
      the five passes in order. The result only ever loses characters, never
      holds a backtick, and a text no pass reacts to comes back unchanged. */
  function CleanMarkdown(text: string): (r: string)
    ensures IsSubsequence(r, text)
    ensures '`' !in r
    ensures Plain(text) ==> r == text
  {
    if text == "" then "" else PassesFacts(text); Passes(text)
  }

  lemma PassesFacts(text: string)
    ensures IsSubsequence(Passes(text), text)
    ensures '`' !in Passes(text)
    ensures Plain(text) ==> Passes(text) == text
  {
    var bold := StripPair(text, "**");
    var italic := StripPair(bold, "*");
    var under := StripPair(italic, "__");
    var ticks := RemoveChar(under, '`');
    var r := StripHeaders(ticks);
    StripPairDeletesOnly(text, "**");
    StripPairDeletesOnly(bold, "*");
    StripPairDeletesOnly(italic, "__");
    RemoveCharDeletesOnly(under, '`');
    StripHeadersDeletesOnly(ticks);
    Transitive(italic, bold, text);
    Transitive(under, italic, text);
    Transitive(ticks, under, text);
    Transitive(r, ticks, text);
    if '`' in r {
      ElementsFrom(r, ticks, '`');
    }
    if Plain(text) {
      StripPairUntouched(text, "**");
      StripPairUntouched(text, "*");
      StripPairUntouched(text, "__");
      RemoveCharUntouched(text, '`');
      StripHeadersUntouched(text);
    }
  }

  // ----- each pass only deletes -----

  /** Dropping both delimiters of a span keeps what is left a subsequence. */
  lemma SpanDropsDelimiters(d: string, mid: string, out: string, tail: string)
    requires IsSubsequence(out, tail)
    ensures IsSubsequence(mid + out, d + (mid + (d + tail)))
  {
    SkipPrefix(out, d, tail);
    KeepPrefix(mid, out, d + tail);
    SkipPrefix(mid + out, d, mid + (d + tail));
  }

  /** `s` is the span `d … d` closing at offset `k`, followed by `s[k + |d|..]`. */
  lemma SpanLayout(s: string, d: string, k: nat)
    requires |d| > 0 && OccursAt(s, d, 0) && |d| <= k && OccursAt(s, d, k)
    ensures s == d + (s[|d|..k] + (d + s[k + |d|..]))
  {
    assert s == s[..|d|] + s[|d|..k] + s[k..k + |d|] + s[k + |d|..];
  }

  /** One step of the span pass at a closed span. */
  lemma SpanUnfold(s: string, d: string)
    requires |d| > 0 && |s| > 0 && OccursAt(s, d, 0) && CloseFrom(s, d, |d|).Some?
    ensures CloseFrom(s, d, |d|).value + |d| <= |s|
    ensures StripPair(s, d) == s[|d|..CloseFrom(s, d, |d|).value] + StripPair(s[CloseFrom(s, d, |d|).value + |d|..], d)
  {
  }

  /** One step of the span pass anywhere else. */
  lemma StripPairAtOther(s: string, d: string)
    requires |d| > 0 && |s| > 0 && !(OccursAt(s, d, 0) && CloseFrom(s, d, |d|).Some?)
    ensures StripPair(s, d) == [s[0]] + StripPair(s[1..], d)
  {
  }

  /** A closed span keeps the pass a deletion when the rest of the pass is one. */
  lemma SpanKeepsSubsequence(s: string, d: string, k: nat)
    requires ClosedSpanAt(s, d, k)
    requires k + |d| <= |s| && IsSubsequence(StripPair(s[k + |d|..], d), s[k + |d|..])
    ensures IsSubsequence(StripPair(s, d), s)
  {
    var out, r := StripPair(s[k + |d|..], d), StripPair(s, d);
    assert r == s[|d|..k] + out by {
      SpanUnfold(s, d);
    }
    SpanInsideKeepsSubsequence(s, d, k, out, r);
  }

  /** The inside of a span, followed by a subsequence of what comes after the
      span, is a subsequence of the whole. */
  lemma SpanInsideKeepsSubsequence(s: string, d: string, k: nat, out: string, r: string)
    requires ClosedSpanAt(s, d, k) && k + |d| <= |s|
    requires IsSubsequence(out, s[k + |d|..]) && r == s[|d|..k] + out
    ensures IsSubsequence(r, s)
  {
    assert |d| <= k && OccursAt(s, d, k);
    SpanLayout(s, d, k);
    SpanDropsDelimiters(d, s[|d|..k], out, s[k + |d|..]);
  }

  lemma {:induction false} StripPairDeletesOnly(s: string, d: string)
    requires |d| > 0
    ensures IsSubsequence(StripPair(s, d), s)
    decreases |s|
  {
    if |s| > 0 {
      if OccursAt(s, d, 0) && CloseFrom(s, d, |d|).Some? {
        var k := CloseFrom(s, d, |d|).value;
        StripPairDeletesOnly(s[k + |d|..], d);
        SpanKeepsSubsequence(s, d, k);
      } else {
        StripPairDeletesOnly(s[1..], d);
        StripPairAtOther(s, d);
        KeepPrefix([s[0]], StripPair(s[1..], d), s[1..]);
        assert [s[0]] + s[1..] == s;
      }
    }
  }

  lemma {:induction false} RemoveCharDeletesOnly(s: string, c: char)
    ensures IsSubsequence(RemoveChar(s, c), s)
    decreases |s|
  {
    if |s| > 0 {
      RemoveCharDeletesOnly(s[1..], c);
      assert [s[0]] + s[1..] == s;
      if s[0] == c {
        assert RemoveChar(s, c) == RemoveChar(s[1..], c);
        SkipPrefix(RemoveChar(s[1..], c), [s[0]], s[1..]);
      } else {
        KeepPrefix([s[0]], RemoveChar(s[1..], c), s[1..]);
      }
    }
  }

  /** One step of the header pass at a marker. */
  lemma StripHeadersAtHeader(s: string)
    requires |s| > 0 && HeaderAtFront(s)
    ensures StripHeaders(s) == StripHeaders(s[HashRun(s) + 1..])
  {
  }

  /** One step of the header pass anywhere else. */
  lemma StripHeadersAtOther(s: string)
    requires |s| > 0 && !HeaderAtFront(s)
    ensures StripHeaders(s) == [s[0]] + StripHeaders(s[1..])
  {
  }

  /** A deleted header marker keeps the pass a deletion when the rest of the
      pass is one. */
  lemma HeaderKeepsSubsequence(s: string, n: nat)
    requires |s| > 0 && HeaderAtFront(s) && n == HashRun(s)
    requires IsSubsequence(StripHeaders(s[n + 1..]), s[n + 1..])
    ensures IsSubsequence(StripHeaders(s), s)
  {
    var r := StripHeaders(s);
    assert r == StripHeaders(s[n + 1..]) by {
      StripHeadersAtHeader(s);
    }
    DropFrontKeepsSubsequence(r, s, n + 1);
  }

  /** What is a subsequence of a suffix is one of the whole. */
  lemma DropFrontKeepsSubsequence(out: string, s: string, m: nat)
    requires m <= |s| && IsSubsequence(out, s[m..])
    ensures IsSubsequence(out, s)
  {
    SkipPrefix(out, s[..m], s[m..]);
    assert s[..m] + s[m..] == s;
  }

  /** Dropping a prefix that holds no `c` keeps the count of `c`. */
  lemma DropFrontKeepsCount(out: string, s: string, m: nat, c: char)
    requires m <= |s| && Count(s[..m], c) == 0 && Count(out, c) == Count(s[m..], c)
    ensures Count(out, c) == Count(s, c)
  {
    CountAppend(s[..m], s[m..], c);
    assert s[..m] + s[m..] == s;
  }

  /** A copied character keeps the pass a deletion when the rest of the pass
      is one. */
  lemma OtherKeepsSubsequence(s: string)
    requires |s| > 0 && !HeaderAtFront(s)
    requires IsSubsequence(StripHeaders(s[1..]), s[1..])
    ensures IsSubsequence(StripHeaders(s), s)
  {
    StripHeadersAtOther(s);
    KeepPrefix([s[0]], StripHeaders(s[1..]), s[1..]);
    assert [s[0]] + s[1..] == s;
  }

  lemma {:induction false} StripHeadersDeletesOnly(s: string)
    ensures IsSubsequence(StripHeaders(s), s)
    decreases |s|
  {
    if |s| > 0 {
      if HeaderAtFront(s) {
        var n := HashRun(s);
        StripHeadersDeletesOnly(s[n + 1..]);
        HeaderKeepsSubsequence(s, n);
      } else {
        StripHeadersDeletesOnly(s[1..]);
        OtherKeepsSubsequence(s);
      }
    }
  }

  // ----- a pass leaves text without its trigger character alone -----

  /** `d` occurs nowhere in `s`. */
  ghost predicate Absent(s: string, d: string) {
    forall k :: !OccursAt(s, d, k)
  }

  lemma {:induction false} StripPairAbsent(s: string, d: string)
    requires |d| > 0 && Absent(s, d)
    ensures StripPair(s, d) == s
    decreases |s|
  {
    if |s| > 0 {
      forall k ensures !OccursAt(s[1..], d, k) {
        if 0 <= k && k + |d| <= |s| - 1 {
          assert s[1..][k..k + |d|] == s[k + 1..k + 1 + |d|];
          assert !OccursAt(s, d, k + 1);
        }
      }
      StripPairAbsent(s[1..], d);
      assert [s[0]] + s[1..] == s;
    }
  }

  lemma StripPairUntouched(s: string, d: string)
    requires |d| > 0 && d[0] !in s
    ensures StripPair(s, d) == s
  {
    forall k ensures !OccursAt(s, d, k) {
      if 0 <= k && k + |d| <= |s| {
        assert s[k] == s[k..k + |d|][0];
      }
    }
    StripPairAbsent(s, d);
  }

  lemma {:induction false} RemoveCharUntouched(s: string, c: char)
    requires c !in s
    ensures RemoveChar(s, c) == s
    decreases |s|
  {
    if |s| > 0 {
      RemoveCharUntouched(s[1..], c);
      assert [s[0]] + s[1..] == s;
    }
  }

  lemma {:induction false} StripHeadersUntouched(s: string)
    requires '#' !in s
    ensures StripHeaders(s) == s
    decreases |s|
  {
    if |s| > 0 {
      StripHeadersUntouched(s[1..]);
      assert [s[0]] + s[1..] == s;
    }
  }

  // ----- what each pass does to a single match -----

  /** A span `d x d` whose body `x` is on one line and holds no character
      that could start `d` is replaced by `x`. */
  lemma StripPairSpan(d: string, x: string, rest: string)
    requires |d| > 0 && d[0] !in x && NoLineTerminator(x)
    ensures StripPair(d + x + d + rest, d) == x + StripPair(rest, d)
  {
    var s := d + x + d + rest;
    var e := |d| + |x|;
    assert s[..|d|] == d;
    assert s[e..e + |d|] == d;
    assert OccursAt(s, d, 0) && OccursAt(s, d, e);
    assert OneLine(s, |d|, e) by {
      forall j | |d| <= j < e ensures !IsLineTerminator(s[j]) {
        assert s[j] == x[j - |d|];
      }
    }
    forall j | |d| <= j < e ensures !OccursAt(s, d, j) {
      assert s[j] == x[j - |d|];
      if j + |d| <= |s| {
        assert s[j..j + |d|][0] == s[j];
      }
    }
    assert CloseFrom(s, d, |d|) == Some(e);
    assert s[|d|..e] == x;
    assert s[e + |d|..] == rest;
  }

  /** The greedy-then-backtrack reading of `#{1,6}\s` at the front of `s`
      agrees with "some run of one to six `#` followed by white space". */
  lemma HeaderAtFrontIff(s: string)
    ensures HeaderAtFront(s) <==>
      exists n :: 1 <= n <= 6 && n < |s| && IsSpace(s[n]) && forall i :: 0 <= i < n ==> s[i] == '#'
  {
    var m := HashRun(s);
    if HeaderAtFront(s) {
      assert 1 <= m <= 6 && m < |s| && IsSpace(s[m]);
    }
    if exists n :: 1 <= n <= 6 && n < |s| && IsSpace(s[n]) && forall i :: 0 <= i < n ==> s[i] == '#' {
      var n :| 1 <= n <= 6 && n < |s| && IsSpace(s[n]) && forall i :: 0 <= i < n ==> s[i] == '#';
      HashRunIs(s, n);
    }
  }

  /** The greedy run is the unique run of one to six `#` ended by a non-`#`. */
  lemma HashRunIs(s: string, n: nat)
    requires 1 <= n <= 6 && n < |s| && s[n] != '#'
    requires forall i :: 0 <= i < n ==> s[i] == '#'
    ensures HashRun(s) == n
  {
  }

  function Hashes(k: nat): (h: string)
    ensures |h| == k && forall i :: 0 <= i < k ==> h[i] == '#'
  {
    seq(k, _ => '#')
  }

  /** One to six `#` and the white-space character after them disappear. */
  lemma StripHeadersDropsHeader(k: nat, w: char, rest: string)
    requires 1 <= k <= 6 && IsSpace(w)
    ensures StripHeaders(Hashes(k) + [w] + rest) == StripHeaders(rest)
  {
    var s := Hashes(k) + [w] + rest;
    assert s[k] == w;
    HashRunIs(s, k);
    assert s[k + 1..] == rest;
  }

  // ----- ordinary characters survive every pass -----

  /** Dropping both delimiters of a span keeps the count of a character
      that is not part of the delimiter. */
  lemma SpanCount(d: string, mid: string, out: string, tail: string, c: char)
    requires c !in d && Count(out, c) == Count(tail, c)
    ensures Count(mid + out, c) == Count(d + (mid + (d + tail)), c)
  {
    CountAbsent(d, c);
    CountAppend(mid, out, c);
    CountAppend(d, tail, c);
    CountAppend(mid, d + tail, c);
    CountAppend(d, mid + (d + tail), c);
  }

  /** A closed span keeps the count of `c` when the rest of the pass does. */
  lemma SpanKeepsCount(s: string, d: string, k: nat, c: char)
    requires ClosedSpanAt(s, d, k) && c !in d
    requires k + |d| <= |s| && Count(StripPair(s[k + |d|..], d), c) == Count(s[k + |d|..], c)
    ensures Count(StripPair(s, d), c) == Count(s, c)
  {
    var out, r := StripPair(s[k + |d|..], d), StripPair(s, d);
    assert r == s[|d|..k] + out by {
      SpanUnfold(s, d);
    }
    SpanInsideKeepsCount(s, d, k, out, r, c);
  }

  /** The inside of a span, followed by what keeps the count of `c` after
      the span, keeps the count of `c` in the whole. */
  lemma SpanInsideKeepsCount(s: string, d: string, k: nat, out: string, r: string, c: char)
    requires ClosedSpanAt(s, d, k) && k + |d| <= |s| && c !in d
    requires Count(out, c) == Count(s[k + |d|..], c) && r == s[|d|..k] + out
    ensures Count(r, c) == Count(s, c)
  {
    assert |d| <= k && OccursAt(s, d, k);
    SpanLayout(s, d, k);
    SpanCount(d, s[|d|..k], out, s[k + |d|..], c);
  }

  lemma {:induction false} StripPairKeepsOrdinary(s: string, d: string, c: char)
    requires |d| > 0 && c !in d
    ensures Count(StripPair(s, d), c) == Count(s, c)
    decreases |s|
  {
    if |s| > 0 {
      if OccursAt(s, d, 0) && CloseFrom(s, d, |d|).Some? {
        var k := CloseFrom(s, d, |d|).value;
        StripPairKeepsOrdinary(s[k + |d|..], d, c);
        SpanKeepsCount(s, d, k, c);
      } else {
        StripPairKeepsOrdinary(s[1..], d, c);
        StripPairAtOther(s, d);
        CountAppend([s[0]], StripPair(s[1..], d), c);
      }
    }
  }

  lemma {:induction false} RemoveCharKeepsOthers(s: string, x: char, c: char)
    requires c != x
    ensures Count(RemoveChar(s, x), c) == Count(s, c)
    decreases |s|
  {
    if |s| > 0 {
      RemoveCharKeepsOthers(s[1..], x, c);
      CountAppend(if s[0] == x then "" else [s[0]], RemoveChar(s[1..], x), c);
    }
  }

  /** A header marker holds only `#` and one white-space character. */
  lemma MarkerHasNo(s: string, c: char)
    requires HeaderAtFront(s) && c != '#' && !IsSpace(c)
    ensures c !in s[..HashRun(s) + 1]
  {
    var n := HashRun(s);
    forall i | 0 <= i < n + 1 ensures s[i] != c {
      if i < n {
        assert s[i] == '#';
      }
    }
    assert forall i :: 0 <= i < n + 1 ==> s[..n + 1][i] == s[i];
  }

  /** A deleted header marker keeps the count of an ordinary character when
      the rest of the pass does. */
  lemma HeaderKeepsCount(s: string, n: nat, c: char)
    requires |s| > 0 && HeaderAtFront(s) && n == HashRun(s) && c != '#' && !IsSpace(c)
    requires Count(StripHeaders(s[n + 1..]), c) == Count(s[n + 1..], c)
    ensures Count(StripHeaders(s), c) == Count(s, c)
  {
    var r := StripHeaders(s);
    assert r == StripHeaders(s[n + 1..]) by {
      StripHeadersAtHeader(s);
    }
    MarkerDropKeepsCount(s, n, r, c);
  }

  /** A copied character keeps the count when the rest of the pass does. */
  lemma OtherKeepsCount(s: string, c: char)
    requires |s| > 0 && !HeaderAtFront(s)
    requires Count(StripHeaders(s[1..]), c) == Count(s[1..], c)
    ensures Count(StripHeaders(s), c) == Count(s, c)
  {
    StripHeadersAtOther(s);
    CountAppend([s[0]], StripHeaders(s[1..]), c);
    assert [s[0]] + s[1..] == s;
  }

  /** Dropping a header marker keeps the count of an ordinary character. */
  lemma MarkerDropKeepsCount(s: string, n: nat, r: string, c: char)
    requires HeaderAtFront(s) && n == HashRun(s) && c != '#' && !IsSpace(c)
    requires Count(r, c) == Count(s[n + 1..], c)
    ensures Count(r, c) == Count(s, c)
  {
    MarkerHasNo(s, c);
    CountAbsent(s[..n + 1], c);
    DropFrontKeepsCount(r, s, n + 1, c);
  }

  lemma {:induction false} StripHeadersKeepsOrdinary(s: string, c: char)
    requires c != '#' && !IsSpace(c)
    ensures Count(StripHeaders(s), c) == Count(s, c)
    decreases |s|
  {
    if |s| > 0 {
      if HeaderAtFront(s) {
        var n := HashRun(s);
        StripHeadersKeepsOrdinary(s[n + 1..], c);
        HeaderKeepsCount(s, n, c);
      } else {
        StripHeadersKeepsOrdinary(s[1..], c);
        OtherKeepsCount(s, c);
      }
    }
  }

  // ----- the promises of cleanMarkdown as a whole -----

  /** Exactly the ordinary characters survive: with the subsequence fact of
      `CleanMarkdown`, they come out in their original order, none lost. */
  lemma CleanMarkdownKeepsOrdinary(text: string, c: char)
    requires Ordinary(c)
    ensures Count(CleanMarkdown(text), c) == Count(text, c)
  {
    if text != "" {
      var bold := StripPair(text, "**");
      var italic := StripPair(bold, "*");
      var under := StripPair(italic, "__");
      var ticks := RemoveChar(under, '`');
      StripPairKeepsOrdinary(text, "**", c);
      StripPairKeepsOrdinary(bold, "*", c);
      StripPairKeepsOrdinary(italic, "__", c);
      RemoveCharKeepsOthers(under, '`', c);
      StripHeadersKeepsOrdinary(ticks, c);
    }
  }

  /** `**x**` with a one-line, plain `x` becomes `x`. */
  lemma CleanMarkdownBold(x: string)
    requires Plain(x) && NoLineTerminator(x)
    ensures CleanMarkdown("**" + x + "**") == x
  {
    StripPairSpan("**", x, "");
    assert "**" + x + "**" + "" == "**" + x + "**";
    assert x + StripPair("", "**") == x;
    StripPairUntouched(x, "*");
    StripPairUntouched(x, "__");
    RemoveCharUntouched(x, '`');
    StripHeadersUntouched(x);
  }

  /** `__x__` with a one-line, plain `x` becomes `x`. */
  lemma CleanMarkdownUnderline(x: string)
    requires Plain(x) && NoLineTerminator(x)
    ensures CleanMarkdown("__" + x + "__") == x
  {
    var s := "__" + x + "__";
    StripPairUntouched(s, "**");
    StripPairUntouched(s, "*");
    StripPairSpan("__", x, "");
    assert s + "" == s;
    assert x + StripPair("", "__") == x;
    RemoveCharUntouched(x, '`');
    StripHeadersUntouched(x);
  }

  /** Single underscores are kept: a text whose only special characters are
      underscores, none of them adjacent, comes back unchanged. */
  lemma CleanMarkdownKeepsSingleUnderscores(text: string)
    requires '*' !in text && '`' !in text && '#' !in text
    requires Absent(text, "__")
    ensures CleanMarkdown(text) == text
  {
    if text != "" {
      StripPairUntouched(text, "**");
      StripPairUntouched(text, "*");
      StripPairAbsent(text, "__");
      RemoveCharUntouched(text, '`');
      StripHeadersUntouched(text);
    }
  }

  /** A header marker of one to six `#` and its white-space character are
      deleted together. */
  lemma CleanMarkdownHeader(k: nat, w: char, x: string)
    requires 1 <= k <= 6 && IsSpace(w) && Plain(x)
    ensures CleanMarkdown(Hashes(k) + [w] + x) == x
  {
    var s := Hashes(k) + [w] + x;
    assert '*' !in s && '_' !in s && '`' !in s;
    StripPairUntouched(s, "**");
    StripPairUntouched(s, "*");
    StripPairUntouched(s, "__");
    RemoveCharUntouched(s, '`');
    StripHeadersDropsHeader(k, w, x);
    StripHeadersUntouched(x);
  }

  /** Because the bold pass runs first, a single `*` inside bold text is
      kept: the bold span claims both `**` pairs before the italic pass. */
  lemma BoldBeforeItalic()
    ensures CleanMarkdown("**a*b**") == "a*b"
  {
    var t := "a*b";
    BoldPassOnSample();
    ItalicLeavesLoneStar();
    assert StripPair(StripPair("**a*b**", "**"), "*") == t;
    assert '_' !in t && '`' !in t && '#' !in t;
    StripPairUntouched(t, "__");
    RemoveCharUntouched(t, '`');
    StripHeadersUntouched(t);
    assert Passes("**a*b**") == t;
  }

  lemma BoldPassOnSample()
    ensures StripPair("**a*b**", "**") == "a*b"
  {
    var s := "**a*b**";
    assert s[0..2] == "**" && s[5..7] == "**";
    assert s[2..4][0] == 'a' && s[3..5][1] == 'b' && s[4..6][0] == 'b';
    assert CloseFrom(s, "**", 4) == Some(5);
    assert CloseFrom(s, "**", 2) == Some(5);
    assert s[2..5] == "a*b" && s[7..] == "";
  }

  lemma ItalicLeavesLoneStar()
    ensures StripPair("a*b", "*") == "a*b"
  {
    var t := "*b";
    assert t[0..1] == "*" && t[1..2][0] == 'b';
    assert CloseFrom(t, "*", 1) == None;
    assert StripPair("b", "*") == "b";
    assert StripPair(t, "*") == "*b";
    assert "a*b"[1..] == t;
  }

  /** Every pass only deletes, so the result is never longer; the empty
      text stays empty. */
  lemma CleanMarkdownShorter(text: string)
    ensures |CleanMarkdown(text)| <= |text|
    ensures text == "" ==> CleanMarkdown(text) == ""
  {
    NoLonger(CleanMarkdown(text), text);
  }
}

=== FILE: maybe.dfy ===
/** The optional value used wherever the application has `T | null | undefined`. */
module Maybe {

  datatype Option<+T> = None | Some(value: T) {

    /** The wrapped value, or `fallback` when there is none. */
    function GetOr(fallback: T): T {
      match this
      case Some(v) => v
      case None => fallback
    }
  }
}

=== FILE: meta_check_screen.dfy ===
/**
  The metacognition check: the learner explains the selected concept in
  their own words, and once the grade comes back the screen shows a score
  ring, a status badge and the cleaned-up feedback.
*/
module MetaCheck {
  import opened Maybe
  import opened Types
  import opened Markdown
  import opened Subsequences
  import Colors

  /** The three tones the result view paints with. */
  datatype Tone = Green | Amber | Rose

  /** Rose below Amber below Green. */
  function Rank(t: Tone): nat {
    match t
    case Rose => 0
    case Amber => 1
    case Green => 2
  }

  /** The colour of the score ring. */
  function RingTone(score: real): (t: Tone)
    ensures t == Green <==> score > 80.0
    ensures t == Amber <==> 50.0 < score <= 80.0
    ensures t == Rose <==> score <= 50.0
  {
    if score > 80.0 then Green else if score > 50.0 then Amber else Rose
  }

  /** A higher score never gets a worse ring. */
  lemma RingToneMonotone(a: real, b: real)
    requires a <= b
    ensures Rank(RingTone(a)) <= Rank(RingTone(b))
  {
  }

  /** The hex value the ring is stroked with; the three tones share their
      colours with the graph's status palette. */
  function ToneHex(t: Tone): (c: int)
    ensures t == Green ==> c == Colors.StatusColor(Known)
    ensures t == Amber ==> c == Colors.StatusColor(Fuzzy)
    ensures t == Rose ==> c == Colors.StatusColor(Unknown)
  {
    match t
    case Green => 0x10B981
    case Amber => 0xF59E0B
    case Rose => 0xF43F5E
  }

  /** The circumference of the ring, in dash units. */
  const Circumference: real := 377.0

  /** How much of the ring's dash is pushed out of sight. */
  function DashOffset(score: real): (r: real)
    ensures 0.0 <= score <= 100.0 ==> 0.0 <= r <= Circumference
    ensures Circumference - r == Circumference * score / 100.0
  {
    Circumference - (Circumference * score) / 100.0
  }

  /** An empty score hides the whole ring, a perfect one shows all of it. */
  lemma DashOffsetEnds()
    ensures DashOffset(0.0) == Circumference
    ensures DashOffset(100.0) == 0.0
  {
  }

  /** A strictly higher score shows strictly more of the ring. */
  lemma DashOffsetDecreasing(a: real, b: real)
    requires a < b
    ensures DashOffset(b) < DashOffset(a)
  {
  }

  /** The status badge: emerald for known, amber for fuzzy, rose otherwise. */
  function Badge(s: Assessed): (t: Tone)
    ensures t == Green <==> s == Known
    ensures t == Amber <==> s == Fuzzy
    ensures t == Rose <==> s == Unknown
  {
    if s == Known then Green else if s == Fuzzy then Amber else Rose
  }

  /** The badge's tone is the tone whose ring colour is the status's graph
      colour. */
  lemma BadgeMatchesGraph(s: Assessed)
    ensures ToneHex(Badge(s)) == Colors.StatusColor(s)
  {
  }

  /** The submit button is disabled while grading or while nothing is written. */
  function SubmitDisabled(loading: bool, explanation: string): (d: bool)
    ensures explanation == "" ==> d
    ensures loading ==> d
    ensures !d ==> |explanation| >= 1 && !loading
  {
    loading || explanation == ""
  }

  /** What the screen shows. */
  datatype View =
    | Asking(target: string, explanation: string, disabled: bool, busy: bool)
    | Graded(score: real, ring: Tone, offset: real, badge: Tone, feedback: string, nextStep: string)

  /** The form until a result exists, the graded view afterwards; the target
      concept's label is blank when no node is selected. */
  function Render(meta: Option<MetaResult>, selected: Option<Node>, explanation: string, loading: bool): (v: View)
    ensures v.Asking? <==> meta.None?
    ensures v.Asking? ==> (v.disabled <==> loading || explanation == "")
    ensures v.Asking? && selected.None? ==> v.target == ""
    ensures v.Graded? ==> v.ring == RingTone(meta.value.score) && v.badge == Badge(meta.value.status)
    ensures v.Graded? ==> IsSubsequence(v.feedback, meta.value.feedback) && '`' !in v.feedback
    ensures v.Graded? ==> IsSubsequence(v.nextStep, meta.value.nextStep) && '`' !in v.nextStep
    ensures v.Graded? && Plain(meta.value.feedback) ==> v.feedback == meta.value.feedback
  {
    match meta
    case None =>
      var target := match selected case Some(n) => n.title case None => "";
      Asking(target, explanation, SubmitDisabled(loading, explanation), loading)
    case Some(m) =>
      Graded(m.score, RingTone(m.score), DashOffset(m.score), Badge(m.status),
             CleanMarkdown(m.feedback), CleanMarkdown(m.nextStep))
  }

  /** The learner's gestures on this screen. */
  datatype Gesture = Close | Type(text: string) | Submit | Finish

  /** What a gesture asks the app to do. */
  datatype Effect = GoTo(screen: Screen) | SetExplanation(text: string) | Grade | Nothing

  /** Close is always offered, typing and submitting only on the form (and
      submitting only when enabled), finishing only on the graded view. */
  function Press(g: Gesture, v: View): (e: Effect)
    ensures e.GoTo? ==> e.screen == Graph
    ensures g.Close? ==> e == GoTo(Graph)
    ensures e == Grade <==> g.Submit? && v.Asking? && !v.disabled
    ensures g.Finish? ==> (e == GoTo(Graph) <==> v.Graded?)
    ensures e.SetExplanation? ==> g == Type(e.text) && v.Asking?
  {
    match g
    case Close => GoTo(Graph)
    case Type(t) => if v.Asking? then SetExplanation(t) else Nothing
    case Submit => if v.Asking? && !v.disabled then Grade else Nothing
    case Finish => if v.Graded? then GoTo(Graph) else Nothing
  }

  /** Grading is only ever requested for a written explanation, when no
      grading is under way and no result is showing. */
  lemma GradeNeedsText(g: Gesture, meta: Option<MetaResult>, selected: Option<Node>, explanation: string, loading: bool)
    requires Press(g, Render(meta, selected, explanation, loading)) == Grade
    ensures explanation != "" && !loading && meta.None?
  {
  }
}

=== FILE: node_chatbot.dfy ===
/**
  The per-node chatbot: the conversation it keeps, when a message is sent,
  what the answer appends, and how the suggested sub-concepts are read
  out of the model's comma-separated reply. The model and its API key are
  represented by the outcome they produce.
*/
module Chatbot {
  import opened Maybe
  import opened Text
  import opened Subsequences

  // ----- suggestion parsing -----

  function TrimAll(parts: seq<string>): (r: seq<string>)
    ensures |r| == |parts| && forall i :: 0 <= i < |parts| ==> r[i] == Trim(parts[i])
  {
    seq(|parts|, i requires 0 <= i < |parts| => Trim(parts[i]))
  }

  /** `parts.filter(c => c.length > 0)`. */
  function NonEmpty(parts: seq<string>): (r: seq<string>)
    ensures forall i :: 0 <= i < |r| ==> r[i] != ""
    ensures IsSubsequence(r, parts)
    decreases |parts|
  {
    if |parts| == 0 then []
    else if parts[0] == "" then
      var rest := NonEmpty(parts[1..]);
      SkipPrefix(rest, [parts[0]], parts[1..]);
      assert [parts[0]] + parts[1..] == parts;
      rest
    else
      var rest := NonEmpty(parts[1..]);
      KeepPrefix([parts[0]], rest, parts[1..]);
      assert [parts[0]] + parts[1..] == parts;
      [parts[0]] + rest
  }

  /** `xs.slice(0, n)`. */
  function Take<T>(xs: seq<T>, n: nat): (r: seq<T>)
    ensures |r| <= n && |r| <= |xs| && r == xs[..|r|]
    ensures |xs| >= n ==> |r| == n
    ensures |xs| <= n ==> r == xs
  {
    if |xs| <= n then xs else xs[..n]
  }

  /** The suggested sub-concepts in a reply: split on `,`, trimmed, blanks
      dropped, at most three, in the order they appear. */
  function ParseSuggestions(text: string): (r: seq<string>)
    ensures |r| <= 3
    ensures forall i :: 0 <= i < |r| ==> r[i] != "" && ',' !in r[i]
    ensures forall i :: 0 <= i < |r| ==> !IsSpace(r[i][0]) && !IsSpace(r[i][|r[i]| - 1])
    ensures IsSubsequence(r, TrimAll(Split(text, ',')))
  {
    ParseFacts(text);
    Take(NonEmpty(TrimAll(Split(text, ','))), 3)
  }

  lemma ParseFacts(text: string)
    ensures var trimmed := TrimAll(Split(text, ','));
            var r := Take(NonEmpty(trimmed), 3);
            IsSubsequence(r, trimmed)
            && forall i :: 0 <= i < |r| ==> r[i] != "" && ',' !in r[i] && !IsSpace(r[i][0]) && !IsSpace(r[i][|r[i]| - 1])
  {
    var parts := Split(text, ',');
    var trimmed := TrimAll(parts);
    var kept := NonEmpty(trimmed);
    var r := Take(kept, 3);
    TrimmedPiecesClean(parts, trimmed);
    PrefixIsSubsequence(kept, |r|);
    Transitive(r, kept, trimmed);
    forall i | 0 <= i < |r| ensures CleanPiece(r[i]) {
      assert r[i] == kept[i];
      assert r[i] in r;
      ElementsFrom(r, trimmed, r[i]);
    }
  }

  /** A suggestion as the parse delivers it: non-empty, comma-free, and
      without white space at either end. */
  predicate CleanPiece(x: string) {
    x != "" && ',' !in x && !IsSpace(x[0]) && !IsSpace(x[|x| - 1])
  }

  /** Every non-blank trimmed piece of a split on `,` is clean. */
  lemma TrimmedPiecesClean(parts: seq<string>, trimmed: seq<string>)
    requires trimmed == TrimAll(parts)
    requires forall i :: 0 <= i < |parts| ==> ',' !in parts[i]
    ensures forall x :: x in trimmed && x != "" ==> CleanPiece(x)
  {
    forall x | x in trimmed && x != "" ensures CleanPiece(x) {
      var j :| 0 <= j < |trimmed| && trimmed[j] == x;
      TrimNoNewChars(parts[j], ',');
    }
  }

  lemma TrimNoNewChars(s: string, c: char)
    requires c !in s
    ensures c !in Trim(s)
  {
    InfixNoNewChars(Trim(s), s, LeadingSpace(s), c);
  }

  /** An infix holds no character its host lacks. */
  lemma InfixNoNewChars(r: string, s: string, i: int, c: char)
    requires InfixAt(r, s, i) && c !in s
    ensures c !in r
  {
    forall k | 0 <= k < |r| ensures r[k] != c {
      assert r[k] == s[i + k];
    }
  }

  lemma {:induction false} PrefixIsSubsequence<T>(xs: seq<T>, n: nat)
    requires n <= |xs|
    ensures IsSubsequence(xs[..n], xs)
    decreases |xs|
  {
    if n > 0 {
      PrefixIsSubsequence(xs[1..], n - 1);
      assert xs[..n][1..] == xs[1..][..n - 1];
    }
  }

  /** Reading a reply piece by piece: a blank first piece is skipped, any
      other is trimmed and put in front of what the rest yields. */
  lemma ParseFirstPiece(a: string, b: string)
    requires ',' !in a
    ensures ParseSuggestions(a + [','] + b) ==
      if Trim(a) == "" then ParseSuggestions(b) else Take([Trim(a)] + ParseSuggestions(b), 3)
  {
    SplitAfterPiece(a, ',', b);
    var rest := TrimAll(Split(b, ','));
    TrimAllCons(a, Split(b, ','));
    var f := NonEmpty(rest);
    NonEmptyCons(Trim(a), rest);
    if Trim(a) != "" {
      TakeCons(Trim(a), f);
    }
  }

  lemma TrimAllCons(a: string, parts: seq<string>)
    ensures TrimAll([a] + parts) == [Trim(a)] + TrimAll(parts)
  {
    var l, r := TrimAll([a] + parts), [Trim(a)] + TrimAll(parts);
    forall i | 0 <= i < |l| ensures l[i] == r[i] {
      if i > 0 {
        assert ([a] + parts)[i] == parts[i - 1];
      }
    }
  }

  lemma NonEmptyCons(x: string, xs: seq<string>)
    ensures NonEmpty([x] + xs) == if x == "" then NonEmpty(xs) else [x] + NonEmpty(xs)
  {
    assert ([x] + xs)[1..] == xs;
  }

  /** Taking three from `x` followed by a list is taking three from `x`
      followed by the list's first three. */
  lemma TakeCons<T>(x: T, f: seq<T>)
    ensures Take([x] + f, 3) == Take([x] + Take(f, 3), 3)
  {
    if |f| > 3 {
      assert ([x] + f)[..3] == [x] + f[..2];
      assert ([x] + f[..3])[..3] == [x] + f[..2];
    }
  }

  /** Writing up to three clean suggestions comma-separated and parsing the
      text gives them back. */
  lemma {:induction false} ParseJoin(xs: seq<string>)
    requires 1 <= |xs| <= 3
    requires forall i :: 0 <= i < |xs| ==> xs[i] != "" && ',' !in xs[i] && Trim(xs[i]) == xs[i]
    ensures ParseSuggestions(Join(xs, ',')) == xs
  {
    SplitJoin(xs, ',');
    assert TrimAll(xs) == xs;
    AllNonEmpty(xs);
  }

  lemma {:induction false} AllNonEmpty(xs: seq<string>)
    requires forall i :: 0 <= i < |xs| ==> xs[i] != ""
    ensures NonEmpty(xs) == xs
    decreases |xs|
  {
    if |xs| > 0 {
      AllNonEmpty(xs[1..]);
      assert [xs[0]] + xs[1..] == xs;
    }
  }

  // ----- the conversation -----

  datatype Role = User | Assistant

  datatype Message = Message(role: Role, content: string)

  function Greeting(title: string): string {
    "안녕하세요! \"" + title + "\"에 대해 궁금한 점이 있으신가요? 함께 탐구해봅시다! 🚀"
  }

  const ErrorReply := "죄송합니다. 응답을 생성하는 중 오류가 발생했습니다. 다시 시도해주세요."

  datatype Chat = Chat(messages: seq<Message>, input: string, loading: bool, suggestions: seq<string>)

  /** A fresh chat about a node: the greeting and nothing else. */
  function Start(title: string): (c: Chat)
    ensures c.messages == [Message(Assistant, Greeting(title))] && c.input == "" && !c.loading && c.suggestions == []
  {
    Chat([Message(Assistant, Greeting(title))], "", false, [])
  }

  /** Pressing send. A blank input or a pending answer does nothing;
      otherwise the input, untrimmed, becomes a user message, the field is
      cleared and the question goes out. */
  function SendStart(c: Chat): (r: (Chat, Option<string>))
    ensures Trim(c.input) == "" || c.loading ==> r == (c, None)
    ensures Trim(c.input) != "" && !c.loading ==>
      r.1 == Some(c.input) && r.0.messages == c.messages + [Message(User, c.input)]
      && r.0.input == "" && r.0.loading && r.0.suggestions == c.suggestions
  {
    if Trim(c.input) == "" || c.loading then (c, None)
    else (c.(messages := c.messages + [Message(User, c.input)], input := "", loading := true), Some(c.input))
  }

  /** What came back for a question: no API key, a failed call, or an
      answer whose text may be missing. */
  datatype Outcome = NoKey | CallFailed | Answered(text: Option<string>)

  /** The answer arrived (or did not): exactly one assistant message is
      appended and loading ends. */
  function SendFinish(c: Chat, o: Outcome): (r: Chat)
    ensures |r.messages| == |c.messages| + 1 && r.messages[..|c.messages|] == c.messages
    ensures r.messages[|c.messages|].role == Assistant
    ensures o.Answered? ==> r.messages[|c.messages|].content == o.text.GetOr("")
    ensures !o.Answered? ==> r.messages[|c.messages|].content == ErrorReply
    ensures !r.loading && r.input == c.input && r.suggestions == c.suggestions
  {
    var content := match o
      case Answered(t) => t.GetOr("")
      case _ => ErrorReply;
    c.(messages := c.messages + [Message(Assistant, content)], loading := false)
  }

  /** An accepted question and its answer add exactly two messages, the
      question first, and leave the chat idle with an empty field. */
  lemma SendRoundTrip(c: Chat, o: Outcome)
    requires Trim(c.input) != "" && !c.loading
    ensures var r := SendFinish(SendStart(c).0, o);
            |r.messages| == |c.messages| + 2 && r.messages[..|c.messages|] == c.messages
            && r.messages[|c.messages|] == Message(User, c.input)
            && r.messages[|c.messages| + 1].role == Assistant
            && r.input == "" && !r.loading
  {
    var mid := SendStart(c).0;
    var r := SendFinish(mid, o);
    assert r.messages[..|mid.messages|] == mid.messages;
    assert r.messages[..|c.messages|] == mid.messages[..|c.messages|];
  }

  /** The greeting stays the first message whatever is sent. */
  predicate Greeted(c: Chat, title: string) {
    |c.messages| > 0 && c.messages[0] == Message(Assistant, Greeting(title))
  }

  lemma GreetingStays(c: Chat, title: string, o: Outcome)
    requires Greeted(c, title)
    ensures Greeted(SendStart(c).0, title)
    ensures Greeted(SendFinish(c, o), title)
  {
  }

  /** Enter without Shift sends; any other key does nothing. */
  function KeyPress(c: Chat, key: string, shift: bool): (r: (Chat, Option<string>))
    ensures key == "Enter" && !shift ==> r == SendStart(c)
    ensures !(key == "Enter" && !shift) ==> r == (c, None)
  {
    if key == "Enter" && !shift then SendStart(c) else (c, None)
  }

  /** What the suggestion request produced: no API key, a failed call, or a
      reply whose text may be missing. */
  function LoadSuggestions(c: Chat, o: Outcome): (r: Chat)
    ensures r.messages == c.messages && r.input == c.input && r.loading == c.loading
    ensures !o.Answered? ==> r.suggestions == c.suggestions
    ensures o.Answered? ==> r.suggestions == ParseSuggestions(o.text.GetOr(""))
  {
    match o
    case Answered(t) => c.(suggestions := ParseSuggestions(t.GetOr("")))
    case _ => c
  }

  /** A missing reply text yields no suggestions. */
  lemma EmptyReplyNoSuggestions()
    ensures ParseSuggestions("") == []
  {
    assert Split("", ',') == [""];
    assert TrimAll([""]) == [Trim("")];
  }

  /** Clicking a suggestion hands it, unchanged, to the save callback when
      there is one. */
  function SubconceptClick(hasCallback: bool, sub: string): (r: Option<string>)
    ensures r.Some? <==> hasCallback
    ensures r.Some? ==> r.value == sub
  {
    if hasCallback then Some(sub) else None
  }
}

=== FILE: quiz_screen.dfy ===
/**
  The pop quiz: a cleaned-up question, numbered options, and an answer
  check that either congratulates and returns to the graph or asks the
  learner to think again and stays.
*/
module Quiz {
  import opened Maybe
  import opened Types
  import opened Markdown
  import opened Subsequences

  const CorrectPrefix := "정답입니다! \n\n"
  const WrongAnswer := "오답입니다. 다시 생각해보세요."

  /** The heading: the question cleaned of markup, or blank without a quiz. */
  function Question(quiz: Option<QuizData>): (q: string)
    ensures quiz.None? ==> q == ""
    ensures quiz.Some? ==> IsSubsequence(q, quiz.value.question) && '`' !in q
    ensures quiz.Some? && Plain(quiz.value.question) ==> q == quiz.value.question
  {
    match quiz
    case None => CleanMarkdown("")
    case Some(d) => CleanMarkdown(d.question)
  }

  /** One option button: its number and its cleaned text. */
  datatype Choice = Choice(number: nat, text: string)

  /** The option buttons, numbered from one in the order given. */
  function Choices(quiz: Option<QuizData>): (cs: seq<Choice>)
    ensures quiz.None? ==> cs == []
    ensures quiz.Some? ==> |cs| == |quiz.value.options|
    ensures forall i :: 0 <= i < |cs| ==> cs[i].number == i + 1
    ensures forall i :: 0 <= i < |cs| ==> IsSubsequence(cs[i].text, quiz.value.options[i])
  {
    match quiz
    case None => []
    case Some(d) => seq(|d.options|, i requires 0 <= i < |d.options| => Choice(i + 1, CleanMarkdown(d.options[i])))
  }

  /** Every option carries its own number, and the numbers run 1..n. */
  lemma NumbersDistinct(quiz: Option<QuizData>, i: nat, j: nat)
    requires i < j < |Choices(quiz)|
    ensures Choices(quiz)[i].number != Choices(quiz)[j].number
    ensures 1 <= Choices(quiz)[i].number < Choices(quiz)[j].number <= |Choices(quiz)|
  {
  }

  /** The answer to pressing option `index`: the alert shown and, for the
      right option only, the screen to go to. */
  datatype Verdict = Verdict(alert: string, next: Option<Screen>)

  function Choose(quiz: QuizData, index: nat): (v: Verdict)
    requires index < |quiz.options|
    ensures v.next.Some? <==> index == quiz.answer
    ensures v.next.Some? ==> v.next.value == Graph
    ensures v.next.Some? ==> v.alert == CorrectPrefix + CleanMarkdown(quiz.feedback)
    ensures v.next.None? ==> v.alert == WrongAnswer
  {
    if index == quiz.answer then Verdict(CorrectPrefix + CleanMarkdown(quiz.feedback), Some(Graph))
    else Verdict(WrongAnswer, None)
  }

  /** With the answer among the options exactly one button leaves the quiz. */
  lemma ExactlyOneRight(quiz: QuizData, i: nat, j: nat)
    requires i < |quiz.options| && j < |quiz.options|
    requires Choose(quiz, i).next.Some? && Choose(quiz, j).next.Some?
    ensures i == j
  {
  }

  /** An answer index outside the options (negative, or past the end) makes
      every option wrong: only the close button leaves the quiz. */
  lemma UnreachableAnswer(quiz: QuizData, index: nat)
    requires index < |quiz.options|
    requires !(0 <= quiz.answer < |quiz.options|)
    ensures Choose(quiz, index) == Verdict(WrongAnswer, None)
  {
  }

  /** The close button always goes back to the graph. */
  function Close(): (s: Screen)
    ensures s == Graph && s.IsDeclared()
  {
    Graph
  }
}

=== FILE: save_location_modal.dfy ===
/**
  The dialog that asks where analysed concepts are saved: pick an
  existing category or type a new one, then confirm.
*/
module SaveLocation {
  import opened Maybe
  import opened Text

  datatype Modal = Modal(selected: Option<string>, creatingNew: bool, newName: string)

  const Fresh := Modal(None, false, "")

  /** Picking an existing category selects it and leaves create-new mode. */
  function Pick(m: Modal, category: string): (r: Modal)
    ensures r.selected == Some(category) && !r.creatingNew && r.newName == m.newName
  {
    m.(selected := Some(category), creatingNew := false)
  }

  /** Choosing create-new clears the selection. */
  function ChooseNew(m: Modal): (r: Modal)
    ensures r.selected == None && r.creatingNew && r.newName == m.newName
  {
    m.(selected := None, creatingNew := true)
  }

  function TypeName(m: Modal, name: string): (r: Modal)
    ensures r.selected == m.selected && r.creatingNew == m.creatingNew && r.newName == name
  {
    m.(newName := name)
  }

  /** The category a confirm emits: the trimmed new name when creating one
      that is not blank, else a truthy selection, else nothing. */
  function Confirm(m: Modal): (r: Option<string>)
    ensures m.creatingNew && Trim(m.newName) != "" ==> r == Some(Trim(m.newName))
    ensures !(m.creatingNew && Trim(m.newName) != "") && Truthy(m.selected) ==> r == m.selected
    ensures !(m.creatingNew && Trim(m.newName) != "") && !Truthy(m.selected) ==> r == None
    ensures r.Some? ==> r.value != ""
  {
    if m.creatingNew && Trim(m.newName) != "" then Some(Trim(m.newName))
    else if Truthy(m.selected) then m.selected
    else None
  }

  /** The confirm button is disabled with nothing chosen, or while creating
      with a blank name. */
  function Disabled(m: Modal): (d: bool)
    ensures !d ==> Confirm(m).Some? && Confirm(m).value != ""
    ensures Consistent(m) ==> (d <==> Confirm(m).None?)
  {
    (!Truthy(m.selected) && !m.creatingNew) || (m.creatingNew && Trim(m.newName) == "")
  }

  /** An enabled button always emits exactly one non-empty category. */
  lemma EnabledEmits(m: Modal)
    requires !Disabled(m)
    ensures Confirm(m).Some? && Confirm(m).value != ""
  {
  }

  /** The handlers never select a category while in create-new mode. */
  predicate Consistent(m: Modal) {
    m.creatingNew ==> m.selected == None
  }

  lemma HandlersKeepConsistent(m: Modal, category: string, name: string)
    requires Consistent(m)
    ensures Consistent(Fresh) && Consistent(Pick(m, category)) && Consistent(ChooseNew(m)) && Consistent(TypeName(m, name))
  {
  }

  /** In any state the handlers can reach, the button is enabled exactly
      when confirming would emit something. */
  lemma DisabledIffSilent(m: Modal)
    requires Consistent(m)
    ensures Disabled(m) <==> Confirm(m).None?
  {
  }

  /** What an open dialog shows: which category buttons are highlighted,
      whether the name field is there, and whether the button is disabled. */
  datatype View = View(highlighted: seq<bool>, nameField: bool, disabled: bool)

  /** A closed dialog renders nothing. */
  function Render(isOpen: bool, m: Modal, categories: seq<string>): (v: Option<View>)
    ensures !isOpen <==> v.None?
    ensures v.Some? ==> |v.value.highlighted| == |categories|
    ensures v.Some? ==> forall i :: 0 <= i < |categories| ==>
              (v.value.highlighted[i] <==> m.selected == Some(categories[i]) && !m.creatingNew)
    ensures v.Some? ==> v.value.nameField == m.creatingNew && v.value.disabled == Disabled(m)
  {
    if !isOpen then None
    else Some(View(
      seq(|categories|, i requires 0 <= i < |categories| => m.selected == Some(categories[i]) && !m.creatingNew),
      m.creatingNew, Disabled(m)))
  }

  /** With distinct category names at most one button is highlighted. */
  lemma AtMostOneHighlighted(m: Modal, categories: seq<string>, i: nat, j: nat)
    requires forall a, b :: 0 <= a < b < |categories| ==> categories[a] != categories[b]
    requires i < |categories| && j < |categories|
    requires Render(true, m, categories).value.highlighted[i] && Render(true, m, categories).value.highlighted[j]
    ensures i == j
  {
    assert categories[i] == categories[j];
  }
}

=== FILE: subsequences.dfy ===
/**
  "Obtained by deleting characters": the relation every text-cleaning pass
  in the application keeps between its output and its input.
*/
module Subsequences {

  /** `a` can be obtained from `b` by deleting elements (order kept). */
  predicate IsSubsequence<T(==)>(a: seq<T>, b: seq<T>)
    decreases |b|
  {
    || |a| == 0
    || (|b| > 0 && ((a[0] == b[0] && IsSubsequence(a[1..], b[1..])) || IsSubsequence(a, b[1..])))
  }

  lemma {:induction false} Reflexive<T>(a: seq<T>)
    ensures IsSubsequence(a, a)
    decreases |a|
  {
    if |a| > 0 {
      Reflexive(a[1..]);
    }
  }

  /** Extra elements in front of the larger sequence do no harm. */
  lemma {:induction false} SkipPrefix<T>(a: seq<T>, p: seq<T>, b: seq<T>)
    requires IsSubsequence(a, b)
    ensures IsSubsequence(a, p + b)
    decreases |p|
  {
    if |p| > 0 {
      SkipPrefix(a, p[1..], b);
      assert (p + b)[1..] == p[1..] + b;
    } else {
      assert p + b == b;
    }
  }

  /** A common prefix may be added to both sides. */
  lemma {:induction false} KeepPrefix<T>(m: seq<T>, a: seq<T>, b: seq<T>)
    requires IsSubsequence(a, b)
    ensures IsSubsequence(m + a, m + b)
    decreases |m|
  {
    if |m| > 0 {
      KeepPrefix(m[1..], a, b);
      assert (m + a)[1..] == m[1..] + a;
      assert (m + b)[1..] == m[1..] + b;
      assert (m + a)[0] == (m + b)[0];
    } else {
      assert m + a == a && m + b == b;
    }
  }

  lemma {:induction false} Transitive<T>(a: seq<T>, b: seq<T>, c: seq<T>)
    requires IsSubsequence(a, b) && IsSubsequence(b, c)
    ensures IsSubsequence(a, c)
    decreases |c|
  {
    if |a| > 0 {
      if IsSubsequence(b, c[1..]) {
        Transitive(a, b, c[1..]);
      } else if a[0] == b[0] && IsSubsequence(a[1..], b[1..]) {
        Transitive(a[1..], b[1..], c[1..]);
      } else {
        Transitive(a, b[1..], c[1..]);
      }
    }
  }

  lemma {:induction false} NoLonger<T>(a: seq<T>, b: seq<T>)
    requires IsSubsequence(a, b)
    ensures |a| <= |b|
    decreases |b|
  {
    if |a| > 0 {
      if a[0] == b[0] && IsSubsequence(a[1..], b[1..]) {
        NoLonger(a[1..], b[1..]);
      } else {
        NoLonger(a, b[1..]);
      }
    }
  }

  /** Nothing new appears: every element of `a` is an element of `b`. */
  lemma {:induction false} ElementsFrom<T>(a: seq<T>, b: seq<T>, x: T)
    requires IsSubsequence(a, b)
    requires x in a
    ensures x in b
    decreases |b|
  {
    if a[0] == b[0] && IsSubsequence(a[1..], b[1..]) {
      if x != a[0] {
        ElementsFrom(a[1..], b[1..], x);
      }
    } else {
      ElementsFrom(a, b[1..], x);
    }
  }

  /** How many times `x` occurs in `s`. */
  function Count<T(==)>(s: seq<T>, x: T): nat
    decreases |s|
  {
    if |s| == 0 then 0 else (if s[0] == x then 1 else 0) + Count(s[1..], x)
  }

  lemma {:induction false} CountAppend<T>(a: seq<T>, b: seq<T>, x: T)
    ensures Count(a + b, x) == Count(a, x) + Count(b, x)
    decreases |a|
  {
    if |a| > 0 {
      CountAppend(a[1..], b, x);
      assert (a + b)[1..] == a[1..] + b;
    } else {
      assert a + b == b;
    }
  }

  lemma {:induction false} CountAbsent<T>(s: seq<T>, x: T)
    requires x !in s
    ensures Count(s, x) == 0
    decreases |s|
  {
    if |s| > 0 {
      CountAbsent(s[1..], x);
    }
  }
}

=== FILE: text.dfy ===
/**
  The pieces of JavaScript string semantics the application leans on:
  the `\s` character class (also what `String.prototype.trim` strips),
  `split` on a one-character separator and its inverse, and the
  truthiness of strings (`""` is falsy, so `s || fallback` picks `fallback`).
*/
module Text {
  import opened Maybe

  /** White space as JavaScript's `\s` and `trim` understand it: the
      WhiteSpace and LineTerminator characters of ECMAScript. */
  predicate IsSpace(c: char) {
    || c == '\t' || c == '\n' || c == '\U{000B}' || c == '\U{000C}' || c == '\r'
    || c == ' ' || c == '\U{00A0}' || c == '\U{1680}'
    || ('\U{2000}' <= c <= '\U{200A}')
    || c == '\U{2028}' || c == '\U{2029}' || c == '\U{202F}' || c == '\U{205F}'
    || c == '\U{3000}' || c == '\U{FEFF}'
  }

  /** The characters a regular-expression `.` refuses to match. */
  predicate IsLineTerminator(c: char) {
    c == '\n' || c == '\r' || c == '\U{2028}' || c == '\U{2029}'
  }

  lemma LineTerminatorIsSpace(c: char)
    requires IsLineTerminator(c)
    ensures IsSpace(c)
  {}

  predicate AllSpace(s: string) {
    forall i :: 0 <= i < |s| ==> IsSpace(s[i])
  }

  predicate NoSpace(s: string) {
    forall i :: 0 <= i < |s| ==> !IsSpace(s[i])
  }

  /** JavaScript `s || fallback` for a string `s`. */
  function OrElse(s: string, fallback: string): (r: string)
    ensures r == s || r == fallback
    ensures r == "" ==> fallback == ""
  {
    if s != "" then s else fallback
  }

  /** An optional id is truthy when it is present and not the empty string. */
  predicate Truthy(o: Option<string>) {
    o.Some? && o.value != ""
  }

  /** `r` occurs in `s` starting at offset `i`. */
  predicate InfixAt(r: string, s: string, i: int) {
    0 <= i <= |s| - |r| && s[i..i + |r|] == r
  }

  /** Leading white space removed. */
  function TrimStart(s: string): (r: string)
    ensures |r| <= |s| && r == s[|s| - |r|..]
    ensures forall i :: 0 <= i < |s| - |r| ==> IsSpace(s[i])
    ensures |r| > 0 ==> !IsSpace(r[0])
    decreases |s|
  {
    if |s| > 0 && IsSpace(s[0]) then TrimStart(s[1..]) else s
  }

  /** Trailing white space removed. */
  function TrimEnd(s: string): (r: string)
    ensures |r| <= |s| && r == s[..|r|]
    ensures forall i :: |r| <= i < |s| ==> IsSpace(s[i])
    ensures |r| > 0 ==> !IsSpace(r[|r| - 1])
    decreases |s|
  {
    if |s| > 0 && IsSpace(s[|s| - 1]) then TrimEnd(s[..|s| - 1]) else s
  }

  /** How much leading white space `s` has. */
  function LeadingSpace(s: string): (n: nat)
    ensures n <= |s|
    decreases |s|
  {
    if |s| > 0 && IsSpace(s[0]) then 1 + LeadingSpace(s[1..]) else 0
  }

  lemma {:induction false} LeadingSpaceIsTrimmed(s: string)
    ensures LeadingSpace(s) == |s| - |TrimStart(s)|
    decreases |s|
  {
    if |s| > 0 && IsSpace(s[0]) {
      LeadingSpaceIsTrimmed(s[1..]);
    }
  }

  /** `r` is what is left of `s` once its white space at both ends is gone:
      the infix of `s` after its leading white space, with nothing but white
      space behind it, and no white space at either of its own ends. */
  predicate EdgesStripped(r: string, s: string) {
    InfixAt(r, s, LeadingSpace(s))
    && AllSpace(s[..LeadingSpace(s)]) && AllSpace(s[LeadingSpace(s) + |r|..])
    && (|r| > 0 ==> !IsSpace(r[0]) && !IsSpace(r[|r| - 1]))
  }

  /** Only one string is `s` stripped at both ends, so the contract of `Trim`
      determines its result. */
  lemma EdgesStrippedUnique(s: string, a: string, b: string)
    requires EdgesStripped(a, s) && EdgesStripped(b, s)
    ensures a == b
  {
    var i := LeadingSpace(s);
    SpaceBehind(s, i + |a|);
    SpaceBehind(s, i + |b|);
    assert |a| > 0 ==> a[|a| - 1] == s[i + |a| - 1];
    assert |b| > 0 ==> b[|b| - 1] == s[i + |b| - 1];
    assert |a| == |b|;
    assert a == s[i..i + |a|];
  }

  /** White space behind offset `j`, position by position. */
  lemma SpaceBehind(s: string, j: nat)
    requires j <= |s| && AllSpace(s[j..])
    ensures forall p :: j <= p < |s| ==> IsSpace(s[p])
  {
    forall p | j <= p < |s| ensures IsSpace(s[p]) {
      assert s[j..][p - j] == s[p];
    }
  }

  /** `String.prototype.trim`: the infix left after stripping white space at
      both ends; it is empty exactly when the input is blank. */
  function Trim(s: string): (r: string)
    ensures EdgesStripped(r, s)
    ensures r == "" <==> AllSpace(s)
  {
    var r := TrimEnd(TrimStart(s));
    TrimFacts(s, TrimStart(s), r);
    r
  }

  lemma TrimFacts(s: string, t: string, r: string)
    requires t == TrimStart(s) && r == TrimEnd(t)
    ensures EdgesStripped(r, s)
    ensures r == "" <==> AllSpace(s)
  {
    TrimStartShape(s, t, LeadingSpace(s));
    TrimEndShape(t, r);
    TrimShape(s, t, r, LeadingSpace(s));
  }

  lemma TrimStartShape(s: string, t: string, i: nat)
    requires t == TrimStart(s) && i == LeadingSpace(s)
    ensures i <= |s| && t == s[i..]
    ensures forall k :: 0 <= k < i ==> IsSpace(s[k])
    ensures |t| > 0 ==> !IsSpace(t[0])
  {
    LeadingSpaceIsTrimmed(s);
  }

  lemma TrimEndShape(t: string, r: string)
    requires r == TrimEnd(t)
    ensures |r| <= |t| && r == t[..|r|]
    ensures forall k :: |r| <= k < |t| ==> IsSpace(t[k])
    ensures |r| > 0 ==> !IsSpace(r[|r| - 1])
  {
  }

  /** What stripping white space first at the front (giving `t`) and then at
      the back (giving `r`) leaves of `s`. */
  lemma TrimShape(s: string, t: string, r: string, i: nat)
    requires i <= |s| && t == s[i..] && |r| <= |t| && r == t[..|r|]
    requires forall k :: 0 <= k < i ==> IsSpace(s[k])
    requires |t| > 0 ==> !IsSpace(t[0])
    requires forall k :: |r| <= k < |t| ==> IsSpace(t[k])
    requires |r| > 0 ==> !IsSpace(r[|r| - 1])
    ensures InfixAt(r, s, i) && AllSpace(s[..i]) && AllSpace(s[i + |r|..])
    ensures r == "" <==> AllSpace(s)
    ensures |r| > 0 ==> !IsSpace(r[0]) && !IsSpace(r[|r| - 1])
  {
    assert |r| > 0 ==> r[0] == t[0];
    TrimInfix(s, t, r, i);
    TrimLeading(s, i);
    TrimTrailing(s, t, r, i);
    TrimBlank(s, t, r, i);
  }

  /** A prefix of a suffix of `s` is an infix of `s`. */
  lemma TrimInfix(s: string, t: string, r: string, i: nat)
    requires i <= |s| && t == s[i..] && |r| <= |t| && r == t[..|r|]
    ensures InfixAt(r, s, i)
  {
  }

  lemma TrimLeading(s: string, i: nat)
    requires i <= |s| && forall k :: 0 <= k < i ==> IsSpace(s[k])
    ensures AllSpace(s[..i])
  {
    forall k | 0 <= k < i ensures IsSpace(s[..i][k]) {
      assert s[..i][k] == s[k];
    }
  }

  lemma TrimTrailing(s: string, t: string, r: string, i: nat)
    requires i <= |s| && t == s[i..] && |r| <= |t|
    requires forall k :: |r| <= k < |t| ==> IsSpace(t[k])
    ensures AllSpace(s[i + |r|..])
  {
    var j := i + |r|;
    forall k | 0 <= k < |s| - j ensures IsSpace(s[j..][k]) {
      assert s[j..][k] == t[|r| + k];
    }
  }

  lemma TrimBlank(s: string, t: string, r: string, i: nat)
    requires i <= |s| && t == s[i..] && |r| <= |t| && r == t[..|r|]
    requires forall k :: 0 <= k < i ==> IsSpace(s[k])
    requires forall k :: |r| <= k < |t| ==> IsSpace(t[k])
    requires |r| > 0 ==> !IsSpace(r[0])
    ensures r == "" <==> AllSpace(s)
  {
    if r == "" {
      forall k | 0 <= k < |s| ensures IsSpace(s[k]) {
        if k >= i {
          assert s[k] == t[k - i];
        }
      }
    } else {
      assert s[i] == r[0];
    }
  }

  lemma {:induction false} TrimStartOfTrimmed(s: string)
    requires |s| == 0 || !IsSpace(s[0])
    ensures TrimStart(s) == s
  {}

  lemma {:induction false} TrimEndOfTrimmed(s: string)
    requires |s| == 0 || !IsSpace(s[|s| - 1])
    ensures TrimEnd(s) == s
  {}

  /** Trimming twice is trimming once. */
  lemma TrimIdempotent(s: string)
    ensures Trim(Trim(s)) == Trim(s)
  {
    var r := Trim(s);
    TrimStartOfTrimmed(r);
    TrimEndOfTrimmed(r);
  }

  /** `s.split(sep)`: the maximal separator-free pieces, in order; the empty
      string splits into one empty piece. */
  function Split(s: string, sep: char): (parts: seq<string>)
    ensures |parts| >= 1
    ensures forall i :: 0 <= i < |parts| ==> sep !in parts[i]
    decreases |s|
  {
    if |s| == 0 then [""]
    else
      var rest := Split(s[1..], sep);
      if s[0] == sep then [""] + rest
      else [[s[0]] + rest[0]] + rest[1..]
  }

  /** `parts.join(sep)`. */
  function Join(parts: seq<string>, sep: char): string
    requires |parts| >= 1
    decreases |parts|
  {
    if |parts| == 1 then parts[0] else parts[0] + [sep] + Join(parts[1..], sep)
  }

  /** Joining the pieces of a split gives back the original string. */
  lemma {:induction false} JoinSplit(s: string, sep: char)
    ensures Join(Split(s, sep), sep) == s
    decreases |s|
  {
    if |s| > 0 {
      var rest := Split(s[1..], sep);
      JoinSplit(s[1..], sep);
      var parts := Split(s, sep);
      if s[0] == sep {
        assert parts[1..] == rest;
      } else if |rest| == 1 {
        assert parts == [[s[0]] + rest[0]];
      } else {
        assert parts[1..] == rest[1..];
        assert Join(rest, sep) == rest[0] + [sep] + Join(rest[1..], sep);
        assert [s[0]] + s[1..] == s;
      }
    }
  }

  lemma {:induction false} SplitNoSeparator(a: string, sep: char)
    requires sep !in a
    ensures Split(a, sep) == [a]
    decreases |a|
  {
    if |a| > 0 {
      SplitNoSeparator(a[1..], sep);
      assert [a[0]] + a[1..] == a;
    }
  }

  /** A separator-free head splits off as the first piece. */
  lemma {:induction false} SplitAfterPiece(a: string, sep: char, b: string)
    requires sep !in a
    ensures Split(a + [sep] + b, sep) == [a] + Split(b, sep)
    decreases |a|
  {
    if |a| == 0 {
      assert a + [sep] + b == [sep] + b;
      assert ([sep] + b)[1..] == b;
    } else {
      SplitAfterPiece(a[1..], sep, b);
      assert (a + [sep] + b)[1..] == a[1..] + [sep] + b;
      assert [a[0]] + a[1..] == a;
    }
  }

  /** Splitting a join of separator-free pieces gives back the pieces. */
  lemma {:induction false} SplitJoin(parts: seq<string>, sep: char)
    requires |parts| >= 1
    requires forall i :: 0 <= i < |parts| ==> sep !in parts[i]
    ensures Split(Join(parts, sep), sep) == parts
    decreases |parts|
  {
    if |parts| == 1 {
      SplitNoSeparator(parts[0], sep);
    } else {
      SplitJoin(parts[1..], sep);
      SplitAfterPiece(parts[0], sep, Join(parts[1..], sep));
      assert [parts[0]] + parts[1..] == parts;
    }
  }
}

=== FILE: three_graph.dfy ===
/**
  The discrete decisions the 3D graph view makes around its animation:
  the initial camera distance and the wheel zoom, the category list and
  the anchor each node is pulled towards, per-frame visibility, which node
  is active, how nodes and links are to be drawn, where the camera heads,
  and what a mouse release reports.

  Geometry stays outside: the anchor of a category is whatever the
  `place` parameter says, and the ray cast is an input `hits` listing the
  indices of the nodes under the pointer, nearest first.
*/
module GraphView {
  import opened Maybe
  import opened Text
  import opened Types

  // ----- camera distance -----

  function Min(a: real, b: real): real { if a <= b then a else b }
  function Max(a: real, b: real): real { if a >= b then a else b }

  /** The starting camera distance: `50 + 1.5 * nodeCount`, kept in [60, 300]. */
  function InitialDistance(nodeCount: nat): (z: real)
    ensures 60.0 <= z <= 300.0
    ensures nodeCount <= 6 ==> z == 60.0
    ensures nodeCount >= 167 ==> z == 300.0
    ensures 60.0 <= 50.0 + 1.5 * nodeCount as real <= 300.0 ==> z == 50.0 + 1.5 * nodeCount as real
  {
    Min(Max(50.0 + 1.5 * nodeCount as real, 60.0), 300.0)
  }

  /** More nodes never bring the camera closer. */
  lemma InitialDistanceMonotone(a: nat, b: nat)
    requires a <= b
    ensures InitialDistance(a) <= InitialDistance(b)
  {
  }

  /** A wheel event moves the camera z by `0.05 * deltaY`, kept in
      [20, 400]; without a camera nothing happens. */
  function Wheel(z: Option<real>, deltaY: real): (r: Option<real>)
    ensures r.Some? <==> z.Some?
    ensures r.Some? ==> 20.0 <= r.value <= 400.0
    ensures r.Some? && 20.0 <= z.value + 0.05 * deltaY <= 400.0 ==> r.value == z.value + 0.05 * deltaY
  {
    match z
    case None => None
    case Some(z0) => Some(Max(20.0, Min(z0 + deltaY * 0.05, 400.0)))
  }

  /** Scrolling further in one direction never moves the camera the other way. */
  lemma WheelMonotone(z: real, d1: real, d2: real)
    requires d1 <= d2
    ensures Wheel(Some(z), d1).value <= Wheel(Some(z), d2).value
  {
  }

  /** Once in range, a zero scroll keeps the camera where it is. */
  lemma WheelStill(z: real)
    requires 20.0 <= z <= 400.0
    ensures Wheel(Some(z), 0.0) == Some(z)
  {
  }

  // ----- categories and anchors -----

  /** The categories of the nodes, in node order (repeats included). */
  function CategoriesOf(nodes: seq<Node>): (cs: seq<string>)
    ensures |cs| == |nodes|
    ensures forall i :: 0 <= i < |nodes| ==> cs[i] == nodes[i].category
  {
    seq(|nodes|, i requires 0 <= i < |nodes| => nodes[i].category)
  }

  predicate NoDuplicates(xs: seq<string>) {
    forall i, j :: 0 <= i < j < |xs| ==> xs[i] != xs[j]
  }

  /** Where `x` first occurs in `xs`. */
  function Position(xs: seq<string>, x: string): (k: nat)
    requires x in xs
    ensures k < |xs| && xs[k] == x
    ensures forall j :: 0 <= j < k ==> xs[j] != x
    decreases |xs|
  {
    if xs[0] == x then 0 else 1 + Position(xs[1..], x)
  }

  lemma PositionInPrefix(xs: seq<string>, y: string, x: string)
    requires x in xs
    ensures Position(xs + [y], x) == Position(xs, x)
  {
    var k := Position(xs, x);
    var k' := Position(xs + [y], x);
    assert (xs + [y])[k] == x;
    assert !(k' < k) && !(k < k');
  }

  /** `Array.from(new Set(xs))`: each element once, at its first occurrence. */
  function Dedup(xs: seq<string>): (r: seq<string>)
    ensures NoDuplicates(r)
    ensures forall x :: x in r <==> x in xs
    ensures forall i, j :: 0 <= i < j < |r| ==> Position(xs, r[i]) < Position(xs, r[j])
    decreases |xs|
  {
    if |xs| == 0 then []
    else
      var init := xs[..|xs| - 1];
      var y := xs[|xs| - 1];
      assert xs == init + [y];
      var d := Dedup(init);
      forall x | x in init ensures Position(xs, x) == Position(init, x) {
        PositionInPrefix(init, y, x);
      }
      if y in d then d
      else
        assert Position(xs, y) == |init| by {
          assert forall j :: 0 <= j < |init| ==> xs[j] == init[j];
        }
        d + [y]
  }

  /** The view's category list, built as the source builds it: one pass
      over the nodes with a set of the categories seen so far. */
  method DistinctCategories(nodes: seq<Node>) returns (cats: seq<string>)
    ensures cats == Dedup(CategoriesOf(nodes))
  {
    var seen: set<string> := {};
    cats := [];
    for i := 0 to |nodes|
      invariant cats == Dedup(CategoriesOf(nodes[..i]))
      invariant forall x :: x in seen <==> x in cats
    {
      var c := nodes[i].category;
      assert CategoriesOf(nodes[..i + 1]) == CategoriesOf(nodes[..i]) + [c];
      assert CategoriesOf(nodes[..i + 1])[..i] == CategoriesOf(nodes[..i]);
      if c !in seen {
        seen := seen + {c};
        cats := cats + [c];
      }
    }
    assert nodes[..|nodes|] == nodes;
  }

  datatype Point = Point(x: real, y: real, z: real)

  const Origin := Point(0.0, 0.0, 0.0)

  /** The anchor of each category: the `i`-th of `n` categories sits at
      `place(i, n)`. */
  function Centers(cats: seq<string>, place: (nat, nat) -> Point): (m: map<string, Point>)
    requires NoDuplicates(cats)
    ensures forall c :: c in m <==> c in cats
    ensures forall i :: 0 <= i < |cats| ==> m[cats[i]] == place(i, |cats|)
  {
    map i | 0 <= i < |cats| :: cats[i] := place(i, |cats|)
  }

  /** `categoryCenters[c] || origin`. */
  function CenterOf(centers: map<string, Point>, c: string): (p: Point)
    ensures c in centers ==> p == centers[c]
    ensures c !in centers ==> p == Origin
  {
    if c in centers then centers[c] else Origin
  }

  /** Every node of the graph has an anchor of its own category: the origin
      fallback is never taken for the graph's own nodes. */
  lemma EveryNodeAnchored(nodes: seq<Node>, place: (nat, nat) -> Point, i: nat)
    requires i < |nodes|
    ensures var cats := Dedup(CategoriesOf(nodes));
            nodes[i].category in Centers(cats, place)
            && exists k :: 0 <= k < |cats| && cats[k] == nodes[i].category
                        && CenterOf(Centers(cats, place), nodes[i].category) == place(k, |cats|)
  {
    var cats := Dedup(CategoriesOf(nodes));
    assert CategoriesOf(nodes)[i] == nodes[i].category;
    assert nodes[i].category in CategoriesOf(nodes);
    assert nodes[i].category in cats;
    var k :| 0 <= k < |cats| && cats[k] == nodes[i].category;
  }

  // ----- one animation frame -----

  /** A node is drawn unless its category is hidden. */
  predicate Visible(hidden: seq<string>, n: Node) {
    n.category !in hidden
  }

  /** The visibility every node gets at the start of a frame. */
  function Visibility(nodes: seq<Node>, hidden: seq<string>): (vis: seq<bool>)
    ensures |vis| == |nodes|
    ensures forall i :: 0 <= i < |nodes| ==> (vis[i] <==> nodes[i].category !in hidden)
  {
    seq(|nodes|, i requires 0 <= i < |nodes| => Visible(hidden, nodes[i]))
  }

  /** Visibility follows the category alone: nodes that share a category are
      shown or hidden together. */
  lemma SameCategorySameVisibility(nodes: seq<Node>, hidden: seq<string>, i: nat, j: nat)
    requires i < |nodes| && j < |nodes| && nodes[i].category == nodes[j].category
    ensures Visibility(nodes, hidden)[i] == Visibility(nodes, hidden)[j]
  {
  }

  /** A ray hit the ray cast sees: only visible nodes take part in it. */
  predicate VisibleHit(vis: seq<bool>, h: nat) {
    h < |vis| && vis[h]
  }

  /** The position in `hits` of the nearest visible node under the pointer. */
  function FirstVisibleHit(vis: seq<bool>, hits: seq<nat>): (r: Option<nat>)
    ensures r.Some? ==> r.value < |hits| && VisibleHit(vis, hits[r.value])
    ensures r.Some? ==> forall k :: 0 <= k < r.value ==> !VisibleHit(vis, hits[k])
    ensures r.None? ==> forall k :: 0 <= k < |hits| ==> !VisibleHit(vis, hits[k])
    decreases |hits|
  {
    if |hits| == 0 then None
    else if VisibleHit(vis, hits[0]) then Some(0)
    else match FirstVisibleHit(vis, hits[1..])
      case None => None
      case Some(k) => Some(k + 1)
  }

  /** The id of the hovered node, if the pointer is over a visible one. */
  function HoveredId(nodes: seq<Node>, vis: seq<bool>, hits: seq<nat>): (r: Option<string>)
    requires |vis| == |nodes|
    ensures r.Some? <==> exists k :: 0 <= k < |hits| && VisibleHit(vis, hits[k])
    ensures r.Some? ==> exists i :: 0 <= i < |nodes| && vis[i] && nodes[i].id == r.value
  {
    match FirstVisibleHit(vis, hits)
    case None => None
    case Some(k) => Some(nodes[hits[k]].id)
  }

  /** `selectedNodeId || hoveredId`: a truthy selection wins over the hover. */
  function ActiveId(selected: Option<string>, hovered: Option<string>): (r: Option<string>)
    ensures Truthy(selected) ==> r == selected
    ensures !Truthy(selected) ==> r == hovered
  {
    if Truthy(selected) then selected else hovered
  }

  /** What a frame asks of a node: hidden nodes are skipped; shown nodes get
      target label opacity and scale and the draw order of label and glow. */
  datatype NodeLook = Skipped | Target(opacity: real, scale: real, labelOrder: int, glowOrder: int)

  function Look(n: Node, visible: bool, active: Option<string>, selected: Option<string>): (l: NodeLook)
    ensures !visible <==> l == Skipped
    ensures visible && active == Some(n.id) ==> l == Target(1.0, 1.5, 999, 998)
    ensures visible && active != Some(n.id) ==> l == Target(if Truthy(selected) then 0.2 else 0.5, 0.8, 1, 0)
  {
    if !visible then Skipped
    else if active == Some(n.id) then Target(1.0, 1.5, 999, 998)
    else Target(if Truthy(selected) then 0.2 else 0.5, 0.8, 1, 0)
  }

  /** A line between two nodes: whether it is drawn and its opacity. */
  datatype LinkLook = LinkLook(visible: bool, opacity: real)

  /** Lines start visible and faint. */
  const NewLine := LinkLook(true, 0.1)

  /** How a frame updates one line, given its look in the previous frame. */
  function LineLook(nodes: seq<Node>, vis: seq<bool>, l: Link, active: Option<string>, prev: LinkLook): (r: LinkLook)
    requires |vis| == |nodes|
    ensures FindIndex(nodes, l.source).None? || FindIndex(nodes, l.target).None? ==> r == prev
    ensures FindIndex(nodes, l.source).Some? && FindIndex(nodes, l.target).Some? ==>
      (r.visible <==> vis[FindIndex(nodes, l.source).value] && vis[FindIndex(nodes, l.target).value])
    ensures FindIndex(nodes, l.source).Some? && FindIndex(nodes, l.target).Some? && !r.visible ==> r.opacity == prev.opacity
    ensures FindIndex(nodes, l.source).Some? && FindIndex(nodes, l.target).Some? && r.visible ==>
      (r.opacity == 0.6 <==> active == Some(l.source) || active == Some(l.target))
    ensures FindIndex(nodes, l.source).Some? && FindIndex(nodes, l.target).Some? && r.visible ==>
      r.opacity in {0.6, 0.05}
  {
    match (FindIndex(nodes, l.source), FindIndex(nodes, l.target))
    case (Some(s), Some(t)) =>
      if !vis[s] || !vis[t] then LinkLook(false, prev.opacity)
      else LinkLook(true, if active == Some(l.source) || active == Some(l.target) then 0.6 else 0.05)
    case _ => prev
  }

  /** Where the camera heads: towards the node at an index, back to the
      centre, or nowhere in particular. */
  datatype CameraGoal = Follow(index: nat) | ReturnToCentre | Hold

  function Camera(nodes: seq<Node>, vis: seq<bool>, selected: Option<string>): (g: CameraGoal)
    requires |vis| == |nodes|
    ensures !Truthy(selected) <==> g == ReturnToCentre
    ensures g.Follow? ==> g.index < |nodes| && vis[g.index] && Some(nodes[g.index].id) == selected
    ensures (Truthy(selected) && FindIndex(nodes, selected.value).Some? && vis[FindIndex(nodes, selected.value).value])
            ==> g == Follow(FindIndex(nodes, selected.value).value)
  {
    if !Truthy(selected) then ReturnToCentre
    else match FindIndex(nodes, selected.value)
      case Some(i) => if vis[i] then Follow(i) else Hold
      case None => Hold
  }

  /** What the view holds between frames and reads from its props. */
  datatype Snapshot = Snapshot(
    nodes: seq<Node>, links: seq<Link>, hidden: seq<string>,
    selected: Option<string>, hits: seq<nat>, lines: seq<LinkLook>)

  predicate WellFormed(s: Snapshot) {
    |s.lines| == |s.links|
  }

  /** Everything one frame decides. */
  datatype Frame = Frame(vis: seq<bool>, active: Option<string>, looks: seq<NodeLook>, lines: seq<LinkLook>, camera: CameraGoal)

  function Tick(s: Snapshot): (f: Frame)
    requires WellFormed(s)
    ensures |f.vis| == |f.looks| == |s.nodes| && |f.lines| == |s.links|
    ensures forall i :: 0 <= i < |s.nodes| ==> (f.vis[i] <==> Visible(s.hidden, s.nodes[i]))
    ensures forall i :: 0 <= i < |s.nodes| ==> f.looks[i] == Look(s.nodes[i], f.vis[i], f.active, s.selected)
    ensures forall k :: 0 <= k < |s.links| ==> f.lines[k] == LineLook(s.nodes, f.vis, s.links[k], f.active, s.lines[k])
    ensures f.active == ActiveId(s.selected, HoveredId(s.nodes, f.vis, s.hits))
    ensures f.camera == Camera(s.nodes, f.vis, s.selected)
  {
    var vis := Visibility(s.nodes, s.hidden);
    var active := ActiveId(s.selected, HoveredId(s.nodes, vis, s.hits));
    Frame(
      vis, active,
      seq(|s.nodes|, i requires 0 <= i < |s.nodes| => Look(s.nodes[i], vis[i], active, s.selected)),
      seq(|s.links|, k requires 0 <= k < |s.links| => LineLook(s.nodes, vis, s.links[k], active, s.lines[k])),
      Camera(s.nodes, vis, s.selected))
  }

  /** Without a selection a hidden node is never the active one: the active
      id, if any, belongs to a visible node under the pointer. */
  lemma HiddenNeverHovered(s: Snapshot)
    requires WellFormed(s) && !Truthy(s.selected)
    ensures var f := Tick(s);
            f.active.Some? ==> exists i :: 0 <= i < |s.nodes| && Visible(s.hidden, s.nodes[i]) && s.nodes[i].id == f.active.value
  {
  }

  /** With distinct ids, at most one node is drawn as the active one. */
  lemma AtMostOneActive(s: Snapshot, i: nat, j: nat)
    requires WellFormed(s) && DistinctIds(s.nodes)
    requires i < |s.nodes| && j < |s.nodes|
    requires Tick(s).looks[i] == Target(1.0, 1.5, 999, 998) && Tick(s).looks[j] == Target(1.0, 1.5, 999, 998)
    ensures i == j
  {
    var f := Tick(s);
    if Truthy(s.selected) {
      assert f.looks[i] != Look(s.nodes[i], true, f.active, s.selected) || f.active == Some(s.nodes[i].id);
    }
  }

  /** A line whose endpoints are both in the graph is drawn exactly when both
      endpoints are, and is bright exactly when it touches the active node. */
  lemma LineFollowsEndpoints(s: Snapshot, k: nat)
    requires WellFormed(s) && k < |s.links|
    requires FindById(s.nodes, s.links[k].source).Some? && FindById(s.nodes, s.links[k].target).Some?
    ensures var f := Tick(s);
            var l := s.links[k];
            (f.lines[k].visible <==> Visible(s.hidden, FindById(s.nodes, l.source).value)
                                     && Visible(s.hidden, FindById(s.nodes, l.target).value))
            && (f.lines[k].visible ==> (f.lines[k].opacity == 0.6 <==> f.active == Some(l.source) || f.active == Some(l.target)))
  {
  }

  // ----- mouse release -----

  function Abs(x: real): real { if x < 0.0 then -x else x }

  /** A release event is a click when its own movement, the distance from the
      pointer event before it, is under 5 pixels either way: it reports the id
      of the nearest visible node under the pointer (nothing if that id is
      empty), or `""` when there is none. A release that itself moved reports
      nothing. The position of the press is not consulted. */
  function MouseUp(nodes: seq<Node>, vis: seq<bool>, hits: seq<nat>, releaseDx: real, releaseDy: real): (r: Option<string>)
    requires |vis| == |nodes|
    ensures !(Abs(releaseDx) < 5.0 && Abs(releaseDy) < 5.0) ==> r == None
    ensures r == Some("") <==> Abs(releaseDx) < 5.0 && Abs(releaseDy) < 5.0 && HoveredId(nodes, vis, hits).None?
    ensures r.Some? && r.value != "" ==> r == HoveredId(nodes, vis, hits)
    ensures r.Some? && r.value != "" ==> exists i :: 0 <= i < |nodes| && vis[i] && nodes[i].id == r.value
  {
    if Abs(releaseDx) < 5.0 && Abs(releaseDy) < 5.0 then
      match HoveredId(nodes, vis, hits)
      case Some(id) => if id != "" then Some(id) else None
      case None => Some("")
    else None
  }

  /** A pointer position in pixels on the canvas. */
  datatype Pixel = Pixel(x: real, y: real)

  /** Where the pointer was at the event before the release: the last reported
      move, or the press when there was none. */
  function BeforeRelease(down: Pixel, moves: seq<Pixel>): (p: Pixel)
    ensures |moves| == 0 ==> p == down
    ensures |moves| > 0 ==> p in moves
  {
    if |moves| == 0 then down else moves[|moves| - 1]
  }

  /** A whole gesture as the view handles it: the press at `down`, the
      reported moves, and the release at `up`. Only the release's own
      movement decides whether it is a click. */
  function DragRelease(nodes: seq<Node>, vis: seq<bool>, hits: seq<nat>, down: Pixel, moves: seq<Pixel>, up: Pixel): (r: Option<string>)
    requires |vis| == |nodes|
    ensures var prev := BeforeRelease(down, moves);
            r == MouseUp(nodes, vis, hits, up.x - prev.x, up.y - prev.y)
    ensures |moves| > 0 && up == moves[|moves| - 1] ==> r.Some? == (HoveredId(nodes, vis, hits) != Some(""))
  {
    var prev := BeforeRelease(down, moves);
    MouseUp(nodes, vis, hits, up.x - prev.x, up.y - prev.y)
  }

  /** A drag 100 pixels to the right that stops before the button is let go
      is reported as a click on empty space, which clears the selection. */
  lemma DragReportedAsClick()
    ensures DragRelease([], [], [], Pixel(0.0, 0.0), [Pixel(100.0, 0.0)], Pixel(100.0, 0.0)) == Some("")
  {
  }

  /** A release compared with the press instead: a click only when the
      pointer ends under 5 pixels away from where it went down, whatever
      happened in between. */
  function PressRelease(nodes: seq<Node>, vis: seq<bool>, hits: seq<nat>, down: Pixel, moves: seq<Pixel>, up: Pixel): (r: Option<string>)
    requires |vis| == |nodes|
    ensures !(Abs(up.x - down.x) < 5.0 && Abs(up.y - down.y) < 5.0) ==> r == None
    ensures up == down ==> r == MouseUp(nodes, vis, hits, 0.0, 0.0)
    ensures r.Some? ==> r == MouseUp(nodes, vis, hits, 0.0, 0.0)
  {
    MouseUp(nodes, vis, hits, up.x - down.x, up.y - down.y)
  }

  /** Compared with the press, the drag of `DragReportedAsClick` reports
      nothing, while a press released in place is decided as a still
      release is. */
  lemma DragNotAClick(nodes: seq<Node>, vis: seq<bool>, hits: seq<nat>, p: Pixel)
    requires |vis| == |nodes|
    ensures PressRelease([], [], [], Pixel(0.0, 0.0), [Pixel(100.0, 0.0)], Pixel(100.0, 0.0)) == None
    ensures PressRelease(nodes, vis, hits, p, [], p) == MouseUp(nodes, vis, hits, 0.0, 0.0)
  {
  }

  /** The fly-to that runs when the selection changes: the camera target moves
      to the selected node only when it exists and is visible, which is the
      same choice a frame makes. */
  function SelectionTarget(nodes: seq<Node>, vis: seq<bool>, selected: Option<string>): (r: Option<nat>)
    requires |vis| == |nodes|
    ensures r.Some? <==> Camera(nodes, vis, selected).Follow?
    ensures r.Some? ==> r.value == Camera(nodes, vis, selected).index
  {
    if Truthy(selected) && |nodes| > 0 then
      match FindIndex(nodes, selected.value)
      case Some(i) => if vis[i] then Some(i) else None
      case None => None
    else None
  }
}

=== FILE: types.dfy ===
/**
  The records the application passes around: knowledge-graph nodes and
  links, the AI analysis and quiz payloads, the sidebar folder tree and the
  screens the app can show.
*/
module Types {
  import opened Maybe

  /** How well the learner understands a concept; `New` marks concepts
      added from the chatbot or as sub-concepts. */
  datatype Status = Known | Fuzzy | Unknown | New

  /** The statuses an analysis or a meta-check can report: never `New`. */
  type Assessed = s: Status | s != New witness Known

  /** The status as the string the colour table is keyed by. */
  function StatusKey(s: Status): (k: string)
    ensures k in {"known", "fuzzy", "unknown", "new"}
  {
    match s
    case Known => "known"
    case Fuzzy => "fuzzy"
    case Unknown => "unknown"
    case New => "new"
  }

  /** Different statuses have different keys, so the key names the status. */
  lemma StatusKeyInjective(a: Status, b: Status)
    requires StatusKey(a) == StatusKey(b)
    ensures a == b
  {
  }

  /** A knowledge-graph node; `title` is the node's `label` (a reserved word
      in Dafny) and `description` is optional. */
  datatype Node = Node(id: string, title: string, status: Status, val: int, category: string, description: Option<string>)

  /** A directed link between two node ids. */
  datatype Link = Link(source: string, target: string)

  datatype GraphData = GraphData(nodes: seq<Node>, links: seq<Link>)

  const EmptyGraph := GraphData([], [])

  datatype QuizData = QuizData(question: string, options: seq<string>, answer: int, feedback: string)

  /** A concept the analysis extracted from the learner's question. */
  datatype Concept = Concept(title: string, category: string, status: Assessed, description: string)

  datatype AnalysisResult = AnalysisResult(summary: string, answer: string, concepts: seq<Concept>, prerequisites: seq<string>)

  datatype MetaResult = MetaResult(score: real, status: Assessed, feedback: string, nextStep: string)

  datatype EntryKind = FolderEntry | FileEntry

  /** An entry of the sidebar tree: folders may hold children, files point
      at a node through `nodeId`. Absent children are the empty list: the
      tree draws nothing for either. */
  datatype FolderStructure = FolderStructure(
    id: string, name: string, kind: EntryKind,
    children: seq<FolderStructure>, nodeId: Option<string>, isOpen: Option<bool>)

  /** Every screen the app switches between. `Auth` and `OnboardingFlow` are
      used by the app although the declared screen type leaves them out. */
  datatype Screen = Onboarding | Input | Graph | MetaCheck | Quiz | Update | Daily | Dashboard
                  | Auth | OnboardingFlow
  {
    /** One of the eight values the declared screen type lists. */
    predicate IsDeclared() {
      !(this == Auth || this == OnboardingFlow)
    }
  }

  /** Where the first node with the given id sits, if any. */
  function FindIndex(nodes: seq<Node>, id: string): (r: Option<nat>)
    ensures r.Some? ==> r.value < |nodes| && nodes[r.value].id == id
    ensures r.Some? ==> forall j :: 0 <= j < r.value ==> nodes[j].id != id
    ensures r.None? ==> forall j :: 0 <= j < |nodes| ==> nodes[j].id != id
    decreases |nodes|
  {
    if |nodes| == 0 then None
    else if nodes[0].id == id then Some(0)
    else match FindIndex(nodes[1..], id)
      case None => None
      case Some(k) => Some(k + 1)
  }

  /** `nodes.find(n => n.id === id)`. */
  function FindById(nodes: seq<Node>, id: string): (r: Option<Node>)
    ensures r.Some? <==> exists j :: 0 <= j < |nodes| && nodes[j].id == id
    ensures r.Some? ==> r.value.id == id && r.value in nodes
    ensures r.Some? ==> exists j :: 0 <= j < |nodes| && nodes[j] == r.value
                          && forall i :: 0 <= i < j ==> nodes[i].id != id
  {
    match FindIndex(nodes, id)
    case None => None
    case Some(k) => Some(nodes[k])
  }

  /** The nodes carry pairwise different ids. */
  predicate DistinctIds(nodes: seq<Node>) {
    forall i, j :: 0 <= i < j < |nodes| ==> nodes[i].id != nodes[j].id
  }

  /** With distinct ids the lookup returns the one node carrying the id. */
  lemma FindByIdDistinct(nodes: seq<Node>, i: nat)
    requires DistinctIds(nodes) && i < |nodes|
    ensures FindById(nodes, nodes[i].id) == Some(nodes[i])
  {
    var k := FindIndex(nodes, nodes[i].id).value;
    assert !(k < i) && !(i < k);
  }

  /** Adding nodes behind the old ones leaves every old lookup as it was. */
  lemma {:induction false} FindIndexAppend(nodes: seq<Node>, more: seq<Node>, id: string)
    requires FindIndex(nodes, id).Some?
    ensures FindIndex(nodes + more, id) == FindIndex(nodes, id)
    decreases |nodes|
  {
    if nodes[0].id != id {
      FindIndexAppend(nodes[1..], more, id);
      assert (nodes + more)[1..] == nodes[1..] + more;
    }
  }

  /** `nodes.find(n => n.label === title)`. */
  function FindByLabel(nodes: seq<Node>, title: string): (r: Option<Node>)
    ensures r.Some? ==> r.value.title == title && r.value in nodes
    ensures r.None? <==> forall j :: 0 <= j < |nodes| ==> nodes[j].title != title
    ensures r.Some? ==> exists j :: 0 <= j < |nodes| && nodes[j] == r.value
                          && forall i :: 0 <= i < j ==> nodes[i].title != title
    decreases |nodes|
  {
    if |nodes| == 0 then None
    else if nodes[0].title == title then Some(nodes[0])
    else
      var r := FindByLabel(nodes[1..], title);
      assert r.Some? ==> exists j :: 0 <= j < |nodes[1..]| && nodes[1..][j] == r.value
                           && forall i :: 0 <= i < j ==> nodes[1..][i].title != title;
      assert r.Some? ==> exists j :: 0 <= j < |nodes| && nodes[j] == r.value
                           && forall i :: 0 <= i < j ==> nodes[i].title != title by {
        if r.Some? {
          var j :| 0 <= j < |nodes[1..]| && nodes[1..][j] == r.value
                   && forall i :: 0 <= i < j ==> nodes[1..][i].title != title;
          assert nodes[j + 1] == r.value;
          assert forall i :: 0 <= i < j + 1 ==> nodes[i].title != title by {
            forall i | 0 <= i < j + 1 ensures nodes[i].title != title {
              if i > 0 {
                assert nodes[i] == nodes[1..][i - 1];
              }
            }
          }
        }
      }
      r
  }
}
